=== FILE: README.md ===
# mactop in Dafny

mactop is a terminal monitor for macOS. Three collector threads feed a shared store:

- `powermetrics` streams plist records;
- `ioreg` is polled for the battery;
- `psutil` is sampled for CPU, memory and load.

Textual panels read the store and render it. This project models the logic between the tools and the screen as pure functions over immutable datatypes and proves what each step promises. It covers:

- the record framer and the parser of `powermetrics`, with its rolling histories capped at 100 samples (modules `Framing`, `History`, `PowerMetricsParser`);
- the snapshot records, the flat-index core lookup and the three-slot store (`Snapshots`, `Store`);
- the `ioreg` battery parser and its polling loop (`IOReg`);
- the battery panel's plateau detection, charge-rate and estimate arithmetic, adapter view and health percentage (`Battery`);
- the psutil CPU aggregation, the memory field copies and the pacing of the collector loop (`Psutil`);
- the unit formatters (`Formatting`);
- the width partition of the vertical string bar and the eighth-block segments of the colour bar (`VStringBar`, `ColorBar`);
- the task table's reconciliation with each new task list, keeping its cursor (`Tasks`);
- the XML layout loader that turns a node tree into widget specifications (`LayoutLoader`).

The module `Python` holds the substrate every other module relies on:

- plist values as `PValue`;
- dictionaries as ordered association lists, where the last binding of a key wins;
- Python exceptions as `Result` values with an error kind;
- Python truthiness, `dict.get`, subscripting, negative indexing, `int()` and `float()`, and the `[-n:]` slice;
- strict UTF-8 decoding of bytes, which succeeds exactly on well-formed UTF-8 (table 3-7 of the Unicode Standard, section 3.9).

Every parser checks its inputs in the order the source does, so the error it returns is the one Python would raise first. Several things are parameters rather than code:

- clocks are plain `now` / `elapsed` arguments;
- `plistlib.loads` is a partial decoder function given to the framer;
- each psutil reading is a record argument;
- the panel and layout registries are `Registry` values.

Where the code and its documented intent differ, the model follows the code:

- A colour list shorter than the percentage list raises `IndexError` in `ColorBar.render`. It does not produce the error string.
- A `processor` section that has both `package_watts` and `clusters` fills both processor trees, and the type ends up M1.
- In `ColorBar.render`, `previous_taken_units` is never advanced, so each segment's units are computed independently. A partial block costs a whole cell, so the bar may be wider than the widget (`ColorBar.HalvesOverflowOneCell`).
- `streaming_powermetrics` writes the powermetrics attribute directly, not through `set_powermetrics`. The framer therefore updates the powermetrics slot.
- A record the decoder rejects is dumped with `read_content.decode()`. For bytes that are not UTF-8 this raises UnicodeDecodeError, which ends the reader thread (`Framing.UndecodableRecordEndsReader`).

## Model

| member | source | states |
|---|---|---|
| History.Push | mactop/metrics_source/powermetrics.py:76-80 | appending a sample to the old history (or to an empty one) and keeping the last 100 gives a non-empty list of at most 100 entries. Its last entry is the sample and the rest is the tail of the old history. |
| History.PushAllIsLastWindow | mactop/metrics_source/powermetrics.py:76-80 | any number of successive pushes leaves exactly the last 100 samples of the old history followed by all new samples, so the cap is a sliding window |
| History.OneHundredFiftyPushes | mactop/metrics_source/powermetrics.py:39 | pushing 1..150 onto no history keeps 51..150 |
| PowerMetricsParser.ExtendsIsPush | mactop/metrics_source/powermetrics.py:76-80 | the history property used in every parser contract (length, last sample, kept prefix) holds exactly for the pushed history |
| PowerMetricsParser.IfTruthy | mactop/metrics_source/powermetrics.py:240-245 | a reading is kept exactly when it is truthy, and then unchanged |
| PowerMetricsParser.ParseBacklight | mactop/metrics_source/powermetrics.py:233-235 | a missing or falsy backlight gives None. A truthy one succeeds exactly when it is a dict whose `value` converts with `int()`, and the result is that integer. A non-dict document raises AttributeError. |
| PowerMetricsParser.ParseSmc | mactop/metrics_source/powermetrics.py:237-248 | cpu_die, gpu_die and fan are copied only when truthy; a non-dict raises |
| PowerMetricsParser.ParseNetwork | mactop/metrics_source/powermetrics.py:138-168 | the four rates are copied (None when absent), and each of the four histories is the old one extended by its rate even when the rate is None |
| PowerMetricsParser.ParseDisk | mactop/metrics_source/powermetrics.py:106-136 | the four disk rates are copied and each history is extended by its rate |
| PowerMetricsParser.ParseM1Gpu | mactop/metrics_source/powermetrics.py:92-104 | frequency, idle ratio and energy are copied; the energy history is extended even by a missing energy |
| PowerMetricsParser.ParseCpu | mactop/metrics_source/powermetrics.py:210-215 | one cpu record copies cpu, freq_hz and freq_ratio and fails only on a non-dict |
| PowerMetricsParser.ParseCpus | mactop/metrics_source/powermetrics.py:208-217 | a None list raises TypeError. A list fails exactly when some element is not a dict. On success the list is mapped one to one, in order. |
| PowerMetricsParser.ParseCore | mactop/metrics_source/powermetrics.py:199-204 | `core`, `c_state_ratio` and `cpus` are mandatory, and the first one missing raises KeyError. The cpus are parsed one to one. A core with all three keys parses exactly when its cpus parse. |
| PowerMetricsParser.ParsePackage | mactop/metrics_source/powermetrics.py:187-195 | `c_state_ratio` and `cores` are mandatory, and the cores are parsed one to one in order. A package with both keys parses exactly when `cores` can be iterated and every core parses. |
| PowerMetricsParser.ParseProcessorIntel | mactop/metrics_source/powermetrics.py:170-185 | the package-watts history is extended only when package_watts is truthy and is otherwise None, which drops the old one. Packages are present exactly when the key is, and are parsed one to one. With `packages` present it parses exactly when the list can be iterated and every package parses; without it, it always parses. |
| PowerMetricsParser.ParseCluster | mactop/metrics_source/powermetrics.py:84-90 | name and idle ratio are copied and the cpus are parsed; a cluster without cpus raises TypeError. A dict cluster parses exactly when its cpus parse. |
| PowerMetricsParser.ParseProcessorM1 | mactop/metrics_source/powermetrics.py:68-82 | energies are copied, the clusters are parsed one to one, the cpu-energy history is extended, and a missing `clusters` raises KeyError. With `clusters` present it parses exactly when the list can be iterated and every cluster parses. |
| PowerMetricsParser.ParseProcessor | mactop/metrics_source/powermetrics.py:59-65 | `package_watts` selects the Intel tree and `clusters` the M1 tree. With both keys both trees are filled and the type is M1. With neither, nothing changes. Only the processor fields change. The section parses exactly when both `in` tests apply and each tree whose key is present parses; an `in` test on a number raises TypeError. |
| PowerMetricsParser.WithSmc | mactop/metrics_source/powermetrics.py:45-46 | the smc record is replaced only when the section is present and truthy |
| PowerMetricsParser.WithTasks | mactop/metrics_source/powermetrics.py:48-49 | the task list is stored only when present and truthy |
| PowerMetricsParser.WithNetwork | mactop/metrics_source/powermetrics.py:51-52 | the network record is replaced only when the section is present and truthy |
| PowerMetricsParser.WithDisk | mactop/metrics_source/powermetrics.py:53-54 | the disk record is replaced only when the section is present and truthy |
| PowerMetricsParser.WithGpu | mactop/metrics_source/powermetrics.py:56-57 | the gpu record is replaced only when the section is present and truthy |
| PowerMetricsParser.WithProcessor | mactop/metrics_source/powermetrics.py:59-65 | the processor section is handled only when present and truthy, and only the two trees and the type change. For a dict, `package_watts` sets the Intel tree to its parse, `clusters` sets the M1 tree to its parse, and the type is M1 with `clusters`, Intel with `package_watts` alone, and unchanged with neither. A section that is not a dict changes nothing. |
| PowerMetricsParser.Parse | mactop/metrics_source/powermetrics.py:41-66 | the new snapshot starts fresh. Every absent or falsy section keeps its default record; every present one is its section parser's result. The battery is never filled. For a processor dict, the Intel tree is the Intel parse when `package_watts` is present and fresh otherwise; the M1 tree is the M1 parse when `clusters` is present and fresh otherwise. The type is M1 if and only if `clusters` is present, Intel if and only if only `package_watts` is, and None otherwise. A truthy processor section that is not a dict leaves both trees fresh and the type None. A dict document parses exactly when the backlight, every truthy section and a truthy processor section parse. |
| PowerMetricsParser.ParseSections | mactop/metrics_source/powermetrics.py:41-57 | before the processor section, every present and truthy section is its section parser's result and every other keeps its default; the battery and both processor trees are fresh and the type is None. It succeeds exactly when the backlight and every truthy section among smc, network, disk and gpu parse. |
| PowerMetricsParser.BothTreesFilled | mactop/metrics_source/powermetrics.py:59-65 | a processor section with both keys yields both parsed trees and the M1 type |
| PowerMetricsParser.ParseBatteryData | mactop/metrics_source/powermetrics.py:219-231 | no `battery` key gives None. `plugged_in` is True only when truthy. The discharge rate is present exactly when truthy and is its float value. |
| Framing.ReadLine | mactop/metrics_source/powermetrics.py:261 | `readline` returns a prefix of the stream that ends at its first newline or at the end of the stream, and is non-empty while bytes remain |
| Framing.Drop1 | mactop/metrics_source/powermetrics.py:277 | `read(1)` consumes exactly one byte, or nothing at the end of the stream |
| Framing.Sanitize | mactop/metrics_source/powermetrics.py:266 | no `&` remains, a record without `&` is unchanged, the record never shrinks, and a lone `&` becomes `and` |
| Framing.SanitizeBytes | mactop/metrics_source/powermetrics.py:266 | on one byte, `&` becomes `and` and any other byte is kept; with SanitizeAppend this fixes the output on every input |
| Framing.SanitizeAtAmp | mactop/metrics_source/powermetrics.py:266 | each `&` is replaced in place by `and`, with the bytes on either side sanitised independently |
| Framing.SanitizeAppend | mactop/metrics_source/powermetrics.py:266 | replacing `&` in a concatenation is the concatenation of the replaced parts |
| Framing.SanitizeIdempotent | mactop/metrics_source/powermetrics.py:266 | replacing twice is replacing once, so a retained bad buffer is not altered again |
| Python.Utf8CharLength | mactop/metrics_source/powermetrics.py:273 | the leading UTF-8 sequence that `decode()` accepts is 1 to 4 bytes long, 1 exactly for an ASCII byte, with continuation bytes after the lead |
| Python.AsciiIsUtf8 | mactop/metrics_source/powermetrics.py:273 | a rejected record of ASCII text always dumps without raising |
| Python.Utf8Append | mactop/metrics_source/powermetrics.py:273 | two texts that decode still decode when joined |
| Python.Utf8Rejects | mactop/metrics_source/powermetrics.py:273 | a lone continuation byte, 0xFF, a truncated sequence, an overlong form and an encoded surrogate fail to decode, and `é` decodes |
| Framing.LoopStep | mactop/metrics_source/powermetrics.py:260-290 | one pass consumes at least one byte while input remains. A line without `</plist>` is appended to the buffer. A closing line whose record fails to decode is dumped as text: bytes that are not UTF-8 raise UnicodeDecodeError; otherwise, as written, the sanitised record stays buffered and nothing more is consumed, and with the corrected recovery the buffer is cleared and the separator byte consumed. A decoded record clears the buffer, consumes exactly one more byte, and replaces only the powermetrics slot with the parse result; a parse error escapes. |
| Framing.ReadLineOfLine | mactop/metrics_source/powermetrics.py:261 | reading a stream that starts with a whole line returns exactly that line |
| Framing.RunLine | mactop/metrics_source/powermetrics.py:260-266 | a line without `</plist>` only grows the buffer; a line with it completes the record |
| Framing.RunRecord | mactop/metrics_source/powermetrics.py:260-266 | a record of lines ending in the `</plist>` line is accumulated whole before it is decoded |
| Framing.GoodRecord | mactop/metrics_source/powermetrics.py:265-290 | a record that decodes and parses, followed by its separator byte, sets the powermetrics slot to the parsed snapshot and restarts framing on the rest with an empty buffer |
| Framing.TwoRecords | mactop/metrics_source/powermetrics.py:259-290 | two good records in a row leave the second one's snapshot, parsed against the first one's histories |
| Framing.BadRecordPrefixesNext | mactop/metrics_source/powermetrics.py:267-277 | a record that fails to decode is kept sanitised and its separator byte is not consumed. The next record is decoded as the bad bytes, the separator and the new lines together, and the merged text needs no further `&` replacement. |
| Framing.UndecodableRecordEndsReader | mactop/metrics_source/powermetrics.py:265-274 | a whole record that the decoder rejects and whose sanitised bytes are not UTF-8 ends the reader with UnicodeDecodeError, with the record still buffered, under either recovery |
| Framing.BadRecordLosesNextRecord | mactop/metrics_source/powermetrics.py:259-277 | as written, a rejected record followed by a good record: when the decoder also rejects the merged text, the stream ends with the store unchanged and all bytes read still buffered |
| Framing.BadRecordDropped | mactop/metrics_source/powermetrics.py:265-277 | with the corrected recovery, a rejected record and its separator are skipped. The rest of the stream is read as if they had never been there. |
| Framing.BadThenGoodRecord | mactop/metrics_source/powermetrics.py:259-290 | with the corrected recovery, a rejected record followed by a good one leaves the good one's snapshot, parsed against the snapshot from before the rejected record |
| Snapshots.GetCore | mactop/metrics_store.py:88-98 | no or empty packages, or a first package without cores, gives None. An index below the first package's core count gives that core. An index equal to that count raises IndexError. Any core returned is one of the processor's cores. |
| Snapshots.GetCoreFixed | mactop/metrics_store.py:88-98 | the corrected lookup gives None for no packages and returns only the processor's own cores |
| Snapshots.CoreScanIsFlatIndex | mactop/metrics_store.py:91-98 | the corrected scan over packages that all have cores returns the flat-index core, and None past the end |
| Snapshots.GetCoreFixedIsFlatIndex | mactop/metrics_store.py:88-98 | the corrected lookup is indexing into the concatenation of all packages' cores |
| Snapshots.CoreScanAsWrittenAgrees | mactop/metrics_store.py:91-98 | the as-written scan equals the corrected scan on every index except where a reachable package ends in the flattened core list; there it raises IndexError |
| Snapshots.GetCoreAsWrittenIsFlatIndex | mactop/metrics_store.py:88-98 | for every non-negative index, the code raises IndexError at a package end, returns the flat-index core at every other index within the cores, and returns None past them. The index one past the last core is always a package end, so it raises instead of giving None. |
| Snapshots.GetCoreOffByOne | mactop/metrics_store.py:95 | with packages of 2 and 1 cores, index 2 raises IndexError as written, while the flat index names the third core |
| Store.SetPsutilmetrics | mactop/metrics_store.py:227-231 | the psutil getter returns what was set and the other two slots are unchanged |
| Store.SetIoregmetrics | mactop/metrics_store.py:241-247 | the ioreg getter returns what was set and the other two slots are unchanged |
| Store.SetPowermetrics | mactop/metrics_store.py:233-239 | as written, the snapshot lands in the ioreg slot and the powermetrics slot keeps its old value. The collectors assign the attributes directly and never call it. |
| Store.SetPowermetricsFixed | mactop/metrics_store.py:233-239 | the powermetrics getter returns what was set and the other two slots are unchanged |
| Store.SetPowermetricsLosesSnapshot | mactop/metrics_store.py:237-239 | after the as-written setter a different snapshot is never read back; after the fixed one it always is |
| IOReg.ParseAdapterDetails | mactop/metrics_source/ioreg.py:28-44 | each of the six adapter fields is the dict's value for its key, or None when it is absent or None |
| IOReg.AdapterIgnoresOtherKeys | mactop/metrics_source/ioreg.py:28-44 | adding a key outside the six adapter keys does not change the parsed details |
| IOReg.AdapterWithoutFields | mactop/metrics_source/ioreg.py:28-44 | a dict with none of the six keys gives the all-None details |
| IOReg.NoCharger | mactop/metrics_source/ioreg.py:28-44 | a details dict with only FamilyCode gives the all-None details |
| IOReg.PreviousHistory | mactop/metrics_source/ioreg.py:60 | the old history is read from the ioreg slot, and a PowerMetrics value there raises AttributeError |
| IOReg.ParseAppleSmartBattery | mactop/metrics_source/ioreg.py:46-74 | the eight battery keys are mandatory and copied. The capacity history is the old one plus `(now, current capacity)`, with no cap. Adapter details are parsed if and only if ExternalConnected is truthy (a missing AdapterDetails then raises) and are otherwise all None. |
| IOReg.Parse | mactop/metrics_source/ioreg.py:21-26 | only the first element of the decoded list is parsed; an empty list raises IndexError and a dict raises KeyError |
| IOReg.OnlyFirstElementRead | mactop/metrics_source/ioreg.py:23 | two documents with the same first element parse the same |
| IOReg.RunIORegPeriodic | mactop/metrics_source/ioreg.py:77-94 | the stop flag is checked only at the top of each round. A document that fails to decode ends the loop with ValueError. A parse error ends the loop with that error and the store unchanged. A good parse stores the new snapshot in the ioreg slot, and the loop continues from it with the next round. The loop never touches the powermetrics or psutil slots. |
| IOReg.EndIsFinal | mactop/metrics_source/ioreg.py:77-94 | once the loop has stopped or crashed, later rounds change nothing |
| IOReg.GoodBatteryParses | mactop/metrics_source/ioreg.py:46-74 | a battery dict with the eight keys (and adapter details when connected) always parses |
| IOReg.HistoryGrowsWithoutBound | mactop/metrics_source/ioreg.py:60-65 | n good rounds keep the loop running and lengthen the capacity history by exactly n |
| IOReg.SetPowermetricsBreaksIOReg | mactop/metrics_store.py:237-239 | after the as-written `set_powermetrics`, the next battery parse raises AttributeError. Nothing in the repository calls the setter, so this is latent. |
| Battery.RunStart | mactop/panels/battery.py:140-142 | the run ending at a sample starts where the value last changed: all samples from there on share the value, and the sample before differs |
| Battery.LastChangeSpansAChange | mactop/panels/battery.py:123-128 | the reference result pairs two samples with different values, in history order, the later one carrying the newest value |
| Battery.GetLastChangeAgrees | mactop/panels/battery.py:123-153 | when the third-newest run's value differs from the newest run's, the code returns the earliest samples of the second-newest and the newest runs |
| Battery.GetLastChangeFixedIsLastChange | mactop/panels/battery.py:123-153 | the corrected scan always returns those earliest samples, or nothing when there are fewer than three runs |
| Battery.GetLastChangeReturnsStartAfterLast | mactop/panels/battery.py:140-151 | for values 5, 1, 2, 1 the code returns a "last" sample that is older than its "start" |
| Battery.GetLastChangeLoop | mactop/panels/battery.py:132-153 | the reversed `for` loop with its early return computes the same pair as the recursive scan |
| Battery.SessionLastChange | mactop/panels/battery.py:123-153 | the recorded twenty-sample charging session yields the samples at 3469 and at 3519 |
| Battery.ShortHistoriesHaveNoChange | mactop/panels/battery.py:132-133 | fewer than two samples give no pair |
| Battery.TwoSamplesHaveNoChange | mactop/panels/battery.py:135-153 | two runs alone give no pair |
| Battery.BatteryOf | mactop/panels/battery.py:156-157 | the battery is read from the ioreg slot and a PowerMetrics value there raises AttributeError |
| Battery.Minus | mactop/panels/battery.py:176 | the difference of two capacities exists when both are numbers and adds back to the first |
| Battery.Divide | mactop/panels/battery.py:183-186 | division succeeds exactly for a non-zero divisor, and the quotient times the divisor is the dividend |
| Battery.Estimate | mactop/panels/battery.py:191-195 | a positive rate gives the time to reach max, a negative one the time to reach zero, and a zero rate the default 0. The capacities the branch uses must be numbers, and dividing or subtracting a non-number raises TypeError. |
| Battery.EstimateIsNonNegative | mactop/panels/battery.py:112-113 | with 0 <= current <= max, the estimate exists and is never negative |
| Battery.UpdateChargingHistory | mactop/panels/battery.py:155-201 | not charging resets the state. Missing, falsy or short histories and capacities, or no pair, leave it there. Otherwise total time and accumulated capacity span the history, the minute rate is the pair's slope times 60, and the estimate follows it. The update succeeds exactly when both capacity differences are numbers, the pair's times differ and the estimate exists. A non-number gives TypeError and equal times give ZeroDivisionError. |
| Battery.UpdateAdapter | mactop/panels/battery.py:22-30 | the connected and charging flags are shown, and the adapter is shown if and only if connected |
| Battery.ShownAdapterIsParsed | mactop/panels/battery.py:22-30 | the adapter shown after an ioreg round is the parsed AdapterDetails of that round's document, present exactly when ExternalConnected is truthy |
| Battery.HealthPercent | mactop/panels/battery.py:92-99 | health is `raw_max / design * 100`, computed only when both are present. A non-number raises TypeError; otherwise it raises ZeroDivisionError exactly when the design capacity is zero. |
| Psutil.TotalAppend | mactop/metrics_source/psutil_manager.py:30-33 | the running total of a category over two batches is the sum of their totals |
| Psutil.Copy | mactop/metrics_source/psutil_manager.py:27-29 | a per-cpu record copies user, nice, system and idle |
| Psutil.PerfCpu | mactop/metrics_source/psutil_manager.py:17-43 | the per-cpu list copies the readings one to one, in order. A zero grand total raises ZeroDivisionError. Otherwise each aggregate fraction times the grand total is that category's sum. Nothing else in the snapshot changes. |
| Psutil.FractionsSumToOne | mactop/metrics_source/psutil_manager.py:37-43 | the four aggregate fractions sum to 1 |
| Psutil.FractionsAreShares | mactop/metrics_source/psutil_manager.py:37-43 | with non-negative readings each aggregate fraction lies in [0, 1] |
| Psutil.GetSwapMemory | mactop/metrics_source/psutil_manager.py:46-58 | the six swap fields are copied one to one and nothing else changes |
| Psutil.GetVirtualMemory | mactop/metrics_source/psutil_manager.py:61-75 | the slot receives the raw reading, not the built record, and nothing else changes |
| Psutil.GetVirtualMemoryBuilt | mactop/metrics_source/psutil_manager.py:63-72 | the record the function builds (and drops) is stored as a built record |
| Psutil.RawReadingHasBuiltFields | mactop/metrics_source/psutil_manager.py:63-75 | the raw reading exposes the same eight fields as the built record, though the stored values differ |
| Psutil.GetLoadavg | mactop/metrics_source/psutil_manager.py:78-85 | the three load averages are stored in order and nothing else changes |
| Psutil.GetBootTime | mactop/metrics_source/psutil_manager.py:88-91 | the boot time is stored and nothing else changes |
| Psutil.SleepFor | mactop/metrics_source/psutil_manager.py:103-108 | the loop sleeps exactly when the round was shorter than the interval, and then for the elapsed time itself. A negative elapsed time, from a clock that stepped back, makes `time.sleep` raise ValueError. |
| Psutil.SleepForFixed | mactop/metrics_source/psutil_manager.py:103-108 | the corrected loop sleeps the positive remainder of the interval |
| Psutil.RoundLengths | mactop/metrics_source/psutil_manager.py:103-110 | for a non-negative elapsed time the as-written pause never raises. With the correction a round lasts the interval, or the elapsed time if longer. As written it lasts twice the elapsed time and can stay shorter than the interval. |
| Psutil.ShortRoundSleepsTooLittle | mactop/metrics_source/psutil_manager.py:106-108 | a 0.1 s round with a 1 s interval sleeps 0.1 s as written and 0.9 s when corrected. Such a round needs the sampling call to return early. |
| Psutil.ClockStepBackEndsSampling | mactop/metrics_source/psutil_manager.py:103-123 | when the clock steps back past the round's start, the as-written sleep raises ValueError, which ends the sampling thread. The corrected pause is then longer than the interval. |
| Psutil.BlockingRoundNeverSleeps | mactop/metrics_source/psutil_manager.py:94-110 | a round that includes the blocking `perf_cpu(interval)` lasts at least the interval, so neither the as-written nor the corrected pause is ever taken and both round lengths agree |
| Formatting.Scale | mactop/utils/formatting.py:11-15 | the unit is the first one whose scaled magnitude is below the base, or the overflow unit; the scaled value times base^k is the input |
| Formatting.PadRight | mactop/utils/formatting.py:22 | `{:<n}` left-aligns with spaces up to the width and never truncates |
| Formatting.PadLeft | mactop/utils/formatting.py:65 | `{:>n}` right-aligns with spaces up to the width and never truncates |
| Formatting.SizeofFmtPlain | mactop/utils/formatting.py:4-15 | base-1024 scaling with units "" to Zi then Yi, the number unpadded at one decimal |
| Formatting.SizeofFmt | mactop/utils/formatting.py:18-27 | base-1024 scaling; the number right-aligned in 6, the unit left-aligned in 2 |
| Formatting.SpeedSizeofFmt | mactop/utils/formatting.py:30-39 | base-1024 scaling with a `/s` suffix |
| Formatting.SpeedRestWidth | mactop/utils/formatting.py:31-33 | the text after the number is always 5 characters, so the result is 11 characters wide |
| Formatting.SpeedSizeofBytes | tests/ioreg/test_utils.py:5-7 | 0 and 200.12 stay in B/s |
| Formatting.SpeedSizeofKibibyte | tests/ioreg/test_utils.py:6 | 1024 is 1.0 KiB/s |
| Formatting.SpeedSizeofMebiGibi | tests/ioreg/test_utils.py:8-9 | 4·1024² is 4.0 MiB/s and 4·1024³ is 4.0 GiB/s |
| Formatting.SpeedSizeofTebibytes | tests/ioreg/test_utils.py:10 | 1004·1024⁴ is 1004.0 TiB/s |
| Formatting.PacketSpeedFmt | mactop/utils/formatting.py:42-51 | base-1000 scaling with units "", k, M and then B, the number aligned in 5 |
| Formatting.PacketSpeedThousands | tests/ioreg/test_utils.py:14 | 1024 packets is 1.024 k |
| Formatting.PacketSpeedBillions | tests/ioreg/test_utils.py:17 | 4·1024³ packets falls through to B |
| Formatting.PacketSpeedUnits | tests/ioreg/test_utils.py:15-18 | 200.12 and 0 stay unit-less |
| Formatting.Digits | mactop/utils/formatting.py:65 | the decimal digits of a natural, with no leading zero |
| Formatting.DigitsRoundTrip | mactop/utils/formatting.py:65 | reading the digits back gives the number |
| Formatting.DecimalString | mactop/utils/formatting.py:65 | `{:d}` of an integer is its digits with a minus sign when negative |
| Formatting.HzScale | mactop/utils/formatting.py:66-71 | after truncation, below 1000 in magnitude keeps the value and "". Otherwise one floor-division by 1000 gives k when the result is below 1000 in magnitude, and a second gives M. |
| Formatting.FloorDiv | mactop/utils/formatting.py:70 | Python `//` rounds toward negative infinity |
| Formatting.HzFormat | mactop/utils/formatting.py:64-71 | the scaled integer right-aligned in 4, then the unit in 1, then the suffix |
| Formatting.HzFormatWidth | mactop/utils/formatting.py:64-71 | frequencies below 10 GHz always render in 7 characters |
| Formatting.HzFormat2604 | tests/ioreg/test_utils.py:22 | 2604490000.0 renders as `2604Mhz` |
| Formatting.HzFormat2804 | tests/ioreg/test_utils.py:23 | 2804490000.0 renders as `2804Mhz` |
| Formatting.RenderCpuPercentage1 | mactop/utils/formatting.py:54-56 | busy is 100 minus 100 times the last idle fraction; an empty list raises |
| Formatting.RenderCpuPercentage100 | mactop/utils/formatting.py:59-61 | busy is 100 minus the last idle percentage; an empty list raises |
| Formatting.CpuRenderersAgree | mactop/utils/formatting.py:54-61 | a fraction and its percentage render the same busy value |
| VStringBar.Normalise | mactop/widgets/vstringbar.py:48 | each share times the total is its percentage, so the shares sum to the sum over the total |
| VStringBar.BarCounts | mactop/widgets/vstringbar.py:64 | each segment's bar count is `int(width * share)` |
| VStringBar.RunsColors | mactop/widgets/vstringbar.py:56 | the segments are as many as the shorter of the two lists, each in its own colour |
| VStringBar.RunsBars | mactop/widgets/vstringbar.py:64-66 | every segment but the last is its bar count of `|` |
| VStringBar.RunsFill | mactop/widgets/vstringbar.py:57-63 | the last segment fills what is left with spaces or bars according to `last_empty` |
| VStringBar.RenderContent | mactop/widgets/vstringbar.py:40-70 | None, empty or zero-sum percentages give `width` spaces. The error string appears exactly for a missing or empty colour list. Otherwise the segments are those runs over the normalised shares. With a non-zero sum and a non-empty colour list the content is always styled runs. |
| VStringBar.RenderContentFixed | mactop/widgets/vstringbar.py:50-51 | the corrected check reports exactly a colour list of a different length, and is otherwise the same rendering |
| VStringBar.Render | mactop/widgets/vstringbar.py:30-38 | the content for `width - 2` between brackets |
| VStringBar.NormalisedShares | mactop/widgets/vstringbar.py:44-48 | non-negative percentages normalise to non-negative shares summing to 1 |
| VStringBar.EarlierRunsFit | mactop/widgets/vstringbar.py:64-66 | the non-last segments never take more than the width |
| VStringBar.RunsLength | mactop/widgets/vstringbar.py:54-66 | when the earlier segments fit, the segments fill exactly the space left |
| VStringBar.ContentFillsWidth | mactop/widgets/vstringbar.py:53-66 | with non-negative percentages and enough colours the content is exactly `width` long |
| VStringBar.RenderFillsWidth | mactop/widgets/vstringbar.py:30-38 | the bracketed bar is exactly the widget width |
| VStringBar.ColorCheckMissesShortList | mactop/widgets/vstringbar.py:50 | as written, two shares and one colour render half the width without the error; corrected, they render the error |
| VStringBar.FixedContentFillsWidth | mactop/widgets/vstringbar.py:53-66 | every styled rendering of the corrected check fills exactly the width |
| ColorBar.RunUnits | mactop/widgets/colorbar.py:59 | a segment's eighths are `units * share` clamped at 0 |
| ColorBar.Split | mactop/widgets/colorbar.py:60-61 | eighths split into full blocks and a remainder below 8 |
| ColorBar.DisplayWidth | mactop/widgets/colorbar.py:60-68 | a segment is as many characters as its eighths rounded up to cells |
| ColorBar.DisplayEighths | mactop/widgets/colorbar.py:12-21 | the characters of a segment draw exactly its whole eighths |
| ColorBar.Displays | mactop/widgets/colorbar.py:58-68 | one text per share, each the display of its own units, independently of earlier segments |
| ColorBar.Cells | mactop/widgets/colorbar.py:70-75 | looking up the next colour raises IndexError exactly when the colour list is non-empty but shorter than the texts |
| ColorBar.CellsColors | mactop/widgets/colorbar.py:58-75 | with enough colours, segment k has colour k as foreground and colour k+1 as background, and the last one its own colour |
| ColorBar.RenderColorBar | mactop/widgets/colorbar.py:37-79 | None or empty percentages give `width` spaces and a zero sum a single space. A missing or empty colour list gives the error string, a short one raises IndexError, and otherwise the cells of the normalised shares are rendered. |
| ColorBar.RenderColorBarFixed | mactop/widgets/colorbar.py:50-51 | the corrected check never raises, reports exactly a colour list of a different length, and otherwise renders as before |
| ColorBar.SharesWithinUnits | mactop/widgets/colorbar.py:55-68 | shares summing to 1 never draw more eighths than the units |
| ColorBar.BarWithinWidthInEighths | mactop/widgets/colorbar.py:37-79 | with non-negative percentages and enough colours, the bar draws at most `8 * width` eighths |
| ColorBar.RenderedBlocks | mactop/widgets/colorbar.py:47-77 | with enough colours a non-zero bar renders as the cells of its normalised shares |
| ColorBar.HalvesOverflowOneCell | mactop/widgets/colorbar.py:55-68 | two equal shares in a one-cell bar render two half blocks, two characters wide |
| ColorBar.ShortColorListRaises | mactop/widgets/colorbar.py:50-51 | two shares and one colour raise IndexError as written and give the error string corrected |
| Tasks.RowIndex | mactop/panels/tasks.py:64 | `get_row_index` finds the first row with the key, and nothing exactly when no row has it |
| Tasks.TaskKey | mactop/panels/tasks.py:68 | a task's row key is `str(task["pid"])`, and a task without a pid raises |
| Tasks.TaskCells | mactop/panels/tasks.py:73-76 | a row's cells are the task's values for pid, name, energy_impact and cputime_ns, in that order; any missing one raises |
| Tasks.TaskRow | mactop/panels/tasks.py:67-76 | a task's row is its key and its shown cells |
| Tasks.SetCells | mactop/panels/tasks.py:75-76 | updating a key replaces that row's cells and leaves every other row alone |
| Tasks.NewKeys | mactop/panels/tasks.py:47 | the new key set is exactly the string pids of the task list |
| Tasks.CursorKey | mactop/panels/tasks.py:56-61 | row 0 gives no key, and any other row gives its first cell, the pid as stored. Past the last row there is no key either, and a row without cells raises IndexError. |
| Tasks.ResetCursor | mactop/panels/tasks.py:63-65 | the cursor moves to the row with the key and the rows stay; a key without a row raises KeyError |
| Tasks.WatchTasks | mactop/panels/tasks.py:33-54 | an empty list changes nothing. Otherwise the rows become the reconciliation. When the stored pid is a truthy string among the new keys, the cursor lands on that pid's row; otherwise it keeps its index. A non-empty list goes through exactly when the cursor key can be read and the reconciliation goes through; restoring never fails, because every new key keeps a row. |
| Tasks.WatchTasksFixed | mactop/panels/tasks.py:53-54 | the corrected restore compares `str(pid)` with the new keys and, when the pid survives, puts the cursor on its row. It goes through exactly when the cursor key can be read and the reconciliation goes through. |
| Tasks.UpdateTasks | mactop/panels/tasks.py:29-31 | only a truthy task list reaches the table. The update fails exactly when the watcher fails, with the same error. |
| Tasks.ReconcileIsReconciled | mactop/panels/tasks.py:43-51 | the row loop, the new keys and the removal compute the reference: surviving rows refreshed in place, then new tasks appended in order |
| Tasks.ReconciledRowsAreTaskRows | mactop/panels/tasks.py:43-51 | every row after reconciliation is the row of some new task |
| Tasks.ReconciledKeys | mactop/panels/tasks.py:43-51 | after reconciliation the row keys are exactly the new pids |
| Tasks.ReconcileCoversNewKeys | mactop/panels/tasks.py:43-54 | after a round that goes through, every key in `new_keys` has a row, so `reset_cursor` finds the row it looks for |
| Tasks.UpdateAllKeepsKeys | mactop/panels/tasks.py:43-45 | the row loop keeps every key it found and leaves each task's pid among the old keys or on a row |
| Tasks.RemoveStaleKeeps | mactop/panels/tasks.py:49-51 | a row whose key is a new key is not removed |
| Tasks.WatchTasksReconciles | mactop/panels/tasks.py:33-54 | with distinct pids the table's rows become the reference reconciliation, keyed exactly by the new pids |
| Tasks.DuplicateNewPidRaises | mactop/panels/tasks.py:72-73 | a new pid appearing twice in one list raises, because the second `add_row` reuses a key |
| Tasks.FixedCursorFollowsPid | mactop/panels/tasks.py:53-65 | with the correction, a cursor whose pid survives ends on that pid's row |
| Tasks.AsWrittenIntPidKeepsIndex | mactop/panels/tasks.py:53 | as written, an integer pid under the cursor never matches the string keys, so the cursor index stays put |
| Tasks.CursorJumpsOnSamplePids | mactop/panels/tasks.py:53-54 | when the first process exits, the cursor on the second stays at index 1 and lands on the third as written; corrected, it follows the second |
| LayoutLoader.Find | mactop/layout_loader.py:57-64 | a keyword lookup finds the binding of a name that occurs |
| LayoutLoader.SetItem | mactop/layout_loader.py:61 | `kwargs[k] = v` binds k to v and leaves every other name alone |
| LayoutLoader.Pop | mactop/layout_loader.py:60 | `kwargs.pop(k, None)` returns k's value and removes k only |
| LayoutLoader.DictOf | mactop/layout_loader.py:57 | `dict(node.items())` binds each attribute name to its value |
| LayoutLoader.KwargsAsExpected | mactop/layout_loader.py:57-64 | `class` never reaches the widget. A non-empty class becomes `classes`. A panel without its own refresh_interval gets the loader's. Every other attribute passes unchanged. |
| LayoutLoader.ChildrenSupportedAll | mactop/layout_loader.py:38-55 | the recursive support check of the children is the check of each child |
| LayoutLoader.ComposeChild | mactop/layout_loader.py:40-73 | a child fails only with "Unsupported node" for a tag in neither registry |
| LayoutLoader.ComposeFrom | mactop/layout_loader.py:38-75 | the remaining children give as many widgets, or fail with an unsupported tag |
| LayoutLoader.ComposeChildShaped | mactop/layout_loader.py:46-73 | a composed widget carries the node's tag, is a panel exactly when the tag is a panel, gets no positional arguments as a panel, and carries the node's keyword arguments |
| LayoutLoader.ComposeFromShaped | mactop/layout_loader.py:38-75 | each composed widget has the shape of its node, in order |
| LayoutLoader.ComposeBody | mactop/layout_loader.py:36-75 | one widget per child node, or an unsupported-node error |
| LayoutLoader.ComposeBodyShaped | mactop/layout_loader.py:36-75 | widget k is the composition of child k, in document order |
| LayoutLoader.ComposeBodySupported | mactop/layout_loader.py:36-75 | composition succeeds exactly when every node in the tree has a registered tag |
| LayoutLoader.PanelFirst | mactop/layout_loader.py:46-48 | a panel tag is composed as a panel even if it also names a layout |
| LayoutLoader.LayoutArgsComposed | mactop/layout_loader.py:50-52 | a layout widget's positional arguments are its own children composed recursively |
| LayoutLoader.FindChild | mactop/layout_loader.py:26 | `root.find(tag)` returns the first child with the tag, and None exactly when there is none |
| LayoutLoader.Css | mactop/layout_loader.py:25-29 | the css is the text of the first `<style>` child, or "" when that child has no text or there is none |
| LayoutLoader.Load | mactop/layout_loader.py:21-34 | the result is the composed `<layout>` body and the css; a missing layout raises TypeError. With a layout it succeeds exactly when the body composes, and otherwise carries the composition error. |

## Left out

- Subprocesses, daemon threads, `terminate`, `time.sleep` and the `RWLock` are I/O and concurrency. The store is a record with three slots, and the clock and elapsed time are parameters.
- `plistlib.loads`, `ET.parse` and the `psutil` calls belong to foreign libraries. The decoder is a partial function parameter of the framer. The decoded plist and the psutil readings are inputs. The XML is a `Node` tree whose attributes are assumed to have distinct names, as XML requires.
- Logging and the debug JSON dumps are file I/O with no effect on the model.
- Framing.LoopStep: of the failure dump, only `read_content.decode()` is modelled; it raises for bytes that are not UTF-8. `open()` or `write()` failing, and a locale encoding that cannot hold the text, are file-system conditions and are not modelled, although each would also end the reader thread.
- Framing.LoopStep: the loop is modelled until the stream runs out. The real loop blocks on `readline` for more output, and the sleep between records is not modelled.
- Formatting.SizeofFmt: the decimal rendering of the scaled float (`.1f`) is not modelled, and neither is the rich/Textual markup. The number is kept as a value with its alignment, width and precision. The same holds for SizeofFmtPlain, SpeedSizeofFmt, PacketSpeedFmt, RenderCpuPercentage1 and RenderCpuPercentage100. Only `hz_format`'s integer output is exact text.
- Battery.UpdateChargingHistory: capacities and times are exact reals, not IEEE doubles, so rounding is not modelled.
- Battery.GetLastChangeAgrees: runs of samples are told apart by structural equality of the capacity values, so `PInt(1)` differs from `PReal(1.0)`, where Python's `==` is numeric. ioreg reports capacities as integers, so the two agree on the histories the collector builds.
- Psutil.RoundLengths: the elapsed time is a free parameter. In the program it includes the blocking `perf_cpu(interval)`, so it is at least the interval; Psutil.BlockingRoundNeverSleeps states what that leaves of the pause.
- VStringBar.RenderContent: percentages and shares are exact reals, not IEEE doubles. Rounding of `p / _total` and of `width * percent` is not modelled, so a bar count can differ by one at a truncation boundary. With percentages `[0.3, 0.1]` and width 4, Python computes `0.3 / 0.4` as 0.7499999999999999 and draws 2 bars, where the model draws 3.
- ColorBar.RenderColorBar: the same holds for the shares and the eighths of a segment. At a boundary the model can draw a block one eighth wider than Python does, for instance 6 eighths where the double product `8 * q` is 5.999999999999999.
- Psutil.PerfCpu: the fractions are exact quotients of reals, so FractionsSumToOne holds exactly. With doubles the four fractions need only sum to 1 within rounding.
- Python.IntOf: `int()` and `float()` (Python.FloatOf) of any string raise ValueError in the model, so a numeric string such as `"12"` is not parsed. Arithmetic on a string (Battery.Minus, Estimate, HealthPercent) raises TypeError, as in Python.
- Tasks.TaskKey: `str()` is exact for int, str and bool pids; other pid kinds map to the empty string.
- Tasks.WatchTasks: Textual's clamping of the cursor to the table, and the reactive attribute skipping an equal value, are not modelled. An exception part-way through the row loop leaves the rows as they were, where Textual would keep the rows already added. A pid cell that is unhashable, such as a list, would make `in new_keys` raise TypeError; the model only tests string pids for membership.
- PowerMetricsParser.Parse: the source appends to the old history list in place before slicing. A later exception in the same parse therefore leaves the old snapshot's list one sample longer. The model treats histories as values and does not model this aliasing. IOReg.ParseAppleSmartBattery likewise shares its history list with the previous snapshot.
- LayoutLoader.Load: the contents of `PANELS` and `LAYOUTS` (mactop/panels/__init__.py:33) are a `Registry` parameter, and widget constructors are not run. A widget is its tag, kind, positional arguments and keyword arguments.
- ColorBar.RenderColorBar: Textual does not clip a bar wider than the widget, and neither does the model (see HalvesOverflowOneCell).
- Sparkline rendering, the `labeled_*` wrappers, `dynamic_text`, the header, panels that only read one store field, and the CLI, theme and path handling in main.py are UI glue with no logic beyond a field access.
- The snapshot dataclasses' defaults are the `Fresh…` constants of Snapshots. They are definitions rather than operations, and the parsers' contracts use them (for example, a fresh `PowerMetrics` keeps its default battery).

## Findings

| source | as written | input that shows it | evidently intended | confidence | as-written member | corrected member |
|---|---|---|---|---|---|---|
| mactop/metrics_store.py:95 | `if total_cores < core_index` skips a package only when the index is strictly past its core count, so every index that ends a package raises (Snapshots.GetCoreAsWrittenIsFlatIndex) | packages of 2 and 1 cores, index 2: `package.cores[2]` raises IndexError | `<=`, so index 2 is the third core overall | high, not executed | Snapshots.GetCoreOffByOne | Snapshots.GetCoreFixedIsFlatIndex |
| mactop/metrics_store.py:237-239 | `set_powermetrics` assigns `self.ioregmetrics` | any call: the powermetrics getter still returns the old snapshot, and the next ioreg parse raises AttributeError. The defect is latent: nothing in the repository calls the setter, since powermetrics.py:288 and ioreg.py:92 assign the attributes directly. | assign `self.powermetrics` | high, not executed | Store.SetPowermetricsLosesSnapshot | Store.SetPowermetricsFixed |
| mactop/panels/battery.py:140-151 | each sample is compared with the newest run's value before the start run is checked | capacities 5, 1, 2, 1 at times 0-3: returns start (2.0, 2) and last (1.0, 1), so the last precedes the start | stop at the end of the second-newest run, returning (2.0, 2) and (3.0, 1) | high, not executed | Battery.GetLastChangeReturnsStartAfterLast | Battery.GetLastChangeFixedIsLastChange |
| mactop/metrics_source/psutil_manager.py:106-108 | `time.sleep(wait_time)` sleeps the elapsed time | a round of 0.1 s with interval 1 s would sleep 0.1 s and repeat every 0.2 s. The defect is latent: `perf_cpu` blocks for the interval (psutil_manager.py:18), so the branch does not run (Psutil.BlockingRoundNeverSleeps) unless the sampling returns early or the wall clock steps back by less than the round took. A clock that steps back further makes `time.sleep` raise, and the thread ends (Psutil.ClockStepBackEndsSampling). | sleep `interval - wait_time` | medium, not executed | Psutil.ShortRoundSleepsTooLittle | Psutil.RoundLengths |
| mactop/widgets/vstringbar.py:50 | `len(self.color_choices) != len(self.color_choices)` compares the list with itself | percentages [1, 1], one colour, width 10: five bars and no error | compare with `len(self.percentages)` | high, not executed | VStringBar.ColorCheckMissesShortList | VStringBar.FixedContentFillsWidth |
| mactop/widgets/colorbar.py:50 | the same self-comparison | percentages [1, 1], one colour: `self.color_choices[1]` at line 71 raises IndexError | compare with `len(self.percentages)` and return the error string | high, not executed | ColorBar.ShortColorListRaises | ColorBar.RenderColorBarFixed |
| mactop/panels/tasks.py:53-54 | `old_cursor_row_key in new_keys` tests the pid cell (an int from the plist) against string keys | rows with pids a, b, c, cursor on b, new tasks b and c: the cursor stays at index 1, now on c | compare `str(old_cursor_row_key)`, so the cursor follows b to index 0 | medium, not executed | Tasks.CursorJumpsOnSamplePids | Tasks.FixedCursorFollowsPid |
| mactop/metrics_source/powermetrics.py:268-276 | after a record fails to decode, `continue` runs before `read_content = b""` and `stdout_fd.read(1)` | a rejected record, its NUL separator, then a good record: the two are decoded as one text, and while the decoder rejects the merged text no later record reaches the store | clear the buffer and consume the separator, so the next record is decoded alone | high, not executed | Framing.BadRecordLosesNextRecord | Framing.BadThenGoodRecord |

=== FILE: battery.dfy ===
/** The battery panel's logic: which adapter to show, the health percentage, and the
    charging rate, which is measured between the starts of the two most recent runs of
    equal capacity readings in the capacity history. */
module Battery {
  import opened Python
  import opened Snapshots
  import IOReg
  import Store

  // ---------------------------------------------------------------------------------
  // Runs in the capacity history

  /** The index where the run of equal values ending at `j` begins. */
  function RunStart<V(==)>(h: seq<(real, V)>, j: nat): (i: nat)
    requires j < |h|
    ensures i <= j
    ensures forall t :: i <= t <= j ==> h[t].1 == h[j].1
    ensures i == 0 || h[i - 1].1 != h[j].1
    decreases j
  {
    if j == 0 || h[j - 1].1 != h[j].1 then j else RunStart(h, j - 1)
  }

  /** What `_get_last_change` is documented to return: the first samples of the
      second-newest and of the newest run, provided an older third run exists. */
  function LastChange<V(==)>(h: seq<(real, V)>): Option<((real, V), (real, V))> {
    if h == [] then None
    else
      var a := RunStart(h, |h| - 1);
      if a == 0 then None
      else
        var b := RunStart(h, a - 1);
        if b == 0 then None else Some((h[b], h[a]))
  }

  /** The documented pair, when there is one, spans a change: the start is older than
      the last, their values differ, and the last carries the newest value. */
  lemma LastChangeSpansAChange<V>(h: seq<(real, V)>)
    requires LastChange(h).Some?
    ensures exists b, a :: 0 < b < a < |h| && LastChange(h) == Some((h[b], h[a]))
                           && h[b].1 != h[a].1 && h[a].1 == h[|h| - 1].1
  {
    var a := RunStart(h, |h| - 1);
    var b := RunStart(h, a - 1);
    assert 0 < b < a < |h| && LastChange(h) == Some((h[b], h[a]));
  }

  /** The loop of `_get_last_change` over `h[..k]` newest first, with `last` and `start`
      the samples it holds. A sample equal in value to `last` replaces it whether or not
      a `start` has been found. */
  function Scan<V(==)>(h: seq<(real, V)>, k: nat, last: Option<(real, V)>, start: Option<(real, V)>)
    : Option<((real, V), (real, V))>
    requires k <= |h|
    decreases k
  {
    if k == 0 then None
    else
      var item := h[k - 1];
      if last.None? || last.value.1 == item.1 then Scan(h, k - 1, Some(item), start)
      else if start.None? || start.value.1 == item.1 then Scan(h, k - 1, last, Some(item))
      else Some((start.value, last.value))
  }

  /** `_get_last_change` as written. */
  function GetLastChange<V(==)>(h: seq<(real, V)>): Option<((real, V), (real, V))> {
    if |h| < 2 then None else Scan(h, |h|, None, None)
  }

  /** The same loop with the newest run closed once a second run has begun: a sample
      equal to `last` after `start` was set starts a third run. */
  function ScanFixed<V(==)>(h: seq<(real, V)>, k: nat, last: Option<(real, V)>, start: Option<(real, V)>)
    : Option<((real, V), (real, V))>
    requires k <= |h|
    requires start.Some? ==> last.Some?
    decreases k
  {
    if k == 0 then None
    else
      var item := h[k - 1];
      if start.None? && (last.None? || last.value.1 == item.1) then ScanFixed(h, k - 1, Some(item), start)
      else if start.None? || start.value.1 == item.1 then ScanFixed(h, k - 1, last, Some(item))
      else Some((start.value, last.value))
  }

  /** `_get_last_change` as evidently intended. */
  function GetLastChangeFixed<V(==)>(h: seq<(real, V)>): Option<((real, V), (real, V))> {
    if |h| < 2 then None else ScanFixed(h, |h|, None, None)
  }

  /** Scanning the second run: once the scan is inside the run that ends at `k - 1`, it
      returns that run's first sample paired with `last`, or nothing if the run reaches
      the oldest sample. */
  lemma {:induction false} ScanFixedSecondRun<V>(h: seq<(real, V)>, k: nat, last: (real, V), j: nat)
    requires 0 < k <= j < |h| && h[k].1 == h[j].1 && last.1 != h[j].1
    requires forall t :: k <= t <= j ==> h[t].1 == h[j].1
    ensures ScanFixed(h, k, Some(last), Some(h[k]))
            == (var b := RunStart(h, j); if b == 0 then None else Some((h[b], last)))
    decreases k
  {
    var item := h[k - 1];
    if item.1 == h[j].1 {
      if k - 1 > 0 {
        ScanFixedSecondRun(h, k - 1, last, j);
      } else {
        assert RunStart(h, j) == 0;
      }
    } else {
      assert RunStart(h, j) == k;
    }
  }

  /** Scanning the newest run. */
  lemma {:induction false} ScanFixedNewestRun<V>(h: seq<(real, V)>, k: nat)
    requires 0 <= k < |h|
    requires forall t :: k <= t < |h| ==> h[t].1 == h[|h| - 1].1
    ensures ScanFixed(h, k, Some(h[k]), None) == LastChange(h)
    decreases k
  {
    var n := |h|;
    if k == 0 {
      assert RunStart(h, n - 1) == 0;
    } else {
      var item := h[k - 1];
      if item.1 == h[n - 1].1 {
        ScanFixedNewestRun(h, k - 1);
      } else {
        var a := RunStart(h, n - 1);
        assert a == k;
        if k - 1 == 0 {
          assert RunStart(h, a - 1) == 0;
        } else {
          ScanFixedSecondRun(h, k - 1, h[k], k - 1);
        }
      }
    }
  }

  /** The corrected loop returns exactly the documented pair. */
  lemma GetLastChangeFixedIsLastChange<V>(h: seq<(real, V)>)
    ensures GetLastChangeFixed(h) == LastChange(h)
  {
    var n := |h|;
    if n >= 2 {
      ScanFixedNewestRun(h, n - 1);
    } else if n == 1 {
      assert RunStart(h, 0) == 0;
    }
  }

  /** As written, the loop inside the second run. */
  lemma {:induction false} ScanSecondRun<V>(h: seq<(real, V)>, k: nat, last: (real, V), j: nat)
    requires 0 < k <= j < |h| && h[k].1 == h[j].1 && last.1 != h[j].1
    requires forall t :: k <= t <= j ==> h[t].1 == h[j].1
    requires var b := RunStart(h, j); b == 0 || h[b - 1].1 != last.1
    ensures Scan(h, k, Some(last), Some(h[k]))
            == (var b := RunStart(h, j); if b == 0 then None else Some((h[b], last)))
    decreases k
  {
    var item := h[k - 1];
    if item.1 == h[j].1 {
      if k - 1 > 0 {
        ScanSecondRun(h, k - 1, last, j);
      } else {
        assert RunStart(h, j) == 0;
      }
    } else {
      assert RunStart(h, j) == k;
    }
  }

  /** As written, the loop inside the newest run. */
  lemma {:induction false} ScanNewestRun<V>(h: seq<(real, V)>, k: nat)
    requires 0 <= k < |h|
    requires forall t :: k <= t < |h| ==> h[t].1 == h[|h| - 1].1
    requires ThirdRunIsNew(h)
    ensures Scan(h, k, Some(h[k]), None) == LastChange(h)
    decreases k
  {
    var n := |h|;
    if k == 0 {
      assert RunStart(h, n - 1) == 0;
    } else {
      var item := h[k - 1];
      if item.1 == h[n - 1].1 {
        ScanNewestRun(h, k - 1);
      } else {
        var a := RunStart(h, n - 1);
        assert a == k;
        if k - 1 == 0 {
          assert RunStart(h, a - 1) == 0;
        } else {
          ScanSecondRun(h, k - 1, h[k], k - 1);
        }
      }
    }
  }

  /** The run before the second-newest one, if any, does not repeat the newest value. */
  predicate ThirdRunIsNew<V(==)>(h: seq<(real, V)>) {
    h != [] &&
    var a := RunStart(h, |h| - 1);
    a == 0 ||
    var b := RunStart(h, a - 1);
    b == 0 || h[b - 1].1 != h[|h| - 1].1
  }

  /** As written, the loop returns the documented pair whenever the run before the
      second-newest one does not repeat the newest value. */
  lemma GetLastChangeAgrees<V>(h: seq<(real, V)>)
    requires h == [] || ThirdRunIsNew(h)
    ensures GetLastChange(h) == LastChange(h)
  {
    var n := |h|;
    if n >= 2 {
      ScanNewestRun(h, n - 1);
    } else if n == 1 {
      assert RunStart(h, 0) == 0;
    }
  }

  /** Capacity readings 5, 1, 2, 1 at minutes 0 to 3: the sample at minute 1 repeats the
      newest value, so the loop as written pairs the sample at minute 2 with the older
      one at minute 1, a pair whose start is after its last; the documented pair is the
      samples at minutes 2 and 3. */
  lemma GetLastChangeReturnsStartAfterLast()
    ensures var h := [(0.0, 5), (1.0, 1), (2.0, 2), (3.0, 1)];
      && GetLastChange(h) == Some(((2.0, 2), (1.0, 1)))
      && GetLastChangeFixed(h) == Some(((2.0, 2), (3.0, 1)))
  {
    var h := [(0.0, 5), (1.0, 1), (2.0, 2), (3.0, 1)];
    assert GetLastChange(h) == Scan(h, 4, None, None) == Scan(h, 3, Some(h[3]), None)
        == Scan(h, 2, Some(h[3]), Some(h[2])) == Scan(h, 1, Some(h[1]), Some(h[2]))
        == Some((h[2], h[1]));
    assert GetLastChangeFixed(h) == ScanFixed(h, 4, None, None) == ScanFixed(h, 3, Some(h[3]), None)
        == ScanFixed(h, 2, Some(h[3]), Some(h[2])) == Some((h[2], h[3]));
  }

  /** `_get_last_change` as a loop over the history, newest sample first. */
  method GetLastChangeLoop<V(==)>(h: seq<(real, V)>) returns (r: Option<((real, V), (real, V))>)
    ensures r == GetLastChange(h)
  {
    if |h| < 2 {
      return None;
    }
    var last: Option<(real, V)> := None;
    var start: Option<(real, V)> := None;
    var k := |h|;
    while k > 0
      invariant 0 <= k <= |h|
      invariant Scan(h, k, last, start) == GetLastChange(h)
    {
      var item := h[k - 1];
      k := k - 1;
      if last.None? || last.value.1 == item.1 {
        last := Some(item);
        continue;
      }
      if start.None? || start.value.1 == item.1 {
        start := Some(item);
      } else {
        return Some((start.value, last.value));
      }
    }
    return None;
  }

  /** The recorded charging session of the panel's tests: one reading of 3461 mAh, sixteen
      of 3469 mAh, then three of 3519 mAh, one second apart. */
  const SESSION: seq<(real, int)> := [
    (1693963302.615168, 3461), (1693963303.615168, 3469), (1693963304.654001, 3469),
    (1693963305.694818, 3469), (1693963306.738291, 3469), (1693963307.7792552, 3469),
    (1693963308.820713, 3469), (1693963309.862436, 3469), (1693963310.9057229, 3469),
    (1693963311.9352791, 3469), (1693963312.973173, 3469), (1693963314.013309, 3469),
    (1693963315.055441, 3469), (1693963316.09519, 3469), (1693963317.1332538, 3469),
    (1693963318.187357, 3469), (1693963319.230877, 3469), (1693963320.277039, 3519),
    (1693963321.313658, 3519), (1693963322.361393, 3519)]

  /** The recorded session yields the first 3469 mAh and the first 3519 mAh samples. */
  lemma SessionLastChange()
    ensures GetLastChange(SESSION) == Some(((1693963303.615168, 3469), (1693963320.277039, 3519)))
  {
    var h := SESSION;
    SessionRunStarts();
    assert |h| == 20 && h[0].1 == 3461 && h[19].1 == 3519;
    assert ThirdRunIsNew(h);
    GetLastChangeAgrees(h);
    assert LastChange(h) == Some((h[1], h[17]));
  }

  /** Where the session's last two runs start: the 3519 mAh run at sample 17 and the
      3469 mAh run before it at sample 1. */
  lemma SessionRunStarts()
    ensures RunStart(SESSION, 19) == 17 && RunStart(SESSION, 16) == 1
  {
    var h := SESSION;
    assert RunStart(h, 19) == RunStart(h, 18) == RunStart(h, 17) == 17;
    SessionMiddleRun();
  }

  lemma SessionMiddleRun()
    ensures RunStart(SESSION, 16) == 1
  {
    var h := SESSION;
    assert RunStart(h, 16) == RunStart(h, 15) == RunStart(h, 14) == RunStart(h, 13) == RunStart(h, 12)
        == RunStart(h, 11) == RunStart(h, 10) == RunStart(h, 9);
    assert RunStart(h, 9) == RunStart(h, 8) == RunStart(h, 7)
        == RunStart(h, 6) == RunStart(h, 5) == RunStart(h, 4) == RunStart(h, 3) == RunStart(h, 2)
        == RunStart(h, 1) == 1;
  }

  /** One sample, or none, has no change. */
  lemma ShortHistoriesHaveNoChange()
    ensures GetLastChange([(1693963322.361393, 3519)]) == None
    ensures GetLastChange<int>([]) == None
  {
  }

  /** Two samples make only two runs, which is not enough. */
  lemma TwoSamplesHaveNoChange()
    ensures GetLastChange([(1693963317.1332538, 3469), (1693963322.361393, 3519)]) == None
  {
    var h := [(1693963317.1332538, 3469), (1693963322.361393, 3519)];
    assert Scan(h, 1, Some(h[1]), None) == Scan(h, 0, Some(h[1]), Some(h[0]));
  }

  // ---------------------------------------------------------------------------------
  // Charging rate and estimate

  /** `BatteryState`; the estimate is documented as always positive. */
  datatype BatteryState = BatteryState(
    totalTime: real,
    historyAccumulated: real,
    minuteRate: real,
    estimateMinutes: real)

  const FreshBatteryState := BatteryState(0.0, 0.0, 0.0, 0.0)

  /** `ioreg_metrics.apple_smart_battery` on whatever the ioreg slot of the store holds. */
  function BatteryOf(slot: Store.IORegSlot): (r: Result<AppleSmartBattery>)
    ensures slot.IORegHeld? <==> r.Ok?
    ensures r.Ok? ==> r.value == slot.io.appleSmartBattery
    ensures slot.PowerHeld? ==> r == Err(AttributeError)
  {
    match slot
    case IORegHeld(io) => Ok(io.appleSmartBattery)
    case PowerHeld(_) => Err(AttributeError)
  }

  /** Python `a - b` on two decoded readings. */
  function Minus(a: PValue, b: PValue): (r: Result<real>)
    ensures r.Ok? <==> NumOf(a).Some? && NumOf(b).Some?
    ensures r.Ok? ==> r.value + NumOf(b).value == NumOf(a).value
  {
    match (NumOf(a), NumOf(b))
    case (Some(x), Some(y)) => Ok(x - y)
    case _ => Err(TypeError)
  }

  /** Python `x / y` on reals. */
  function Divide(x: real, y: real): (r: Result<real>)
    ensures r.Ok? <==> y != 0.0
    ensures r.Ok? ==> r.value * y == x
  {
    if y == 0.0 then Err(ZeroDivisionError) else Ok(x / y)
  }

  /** Minutes until the battery is full (positive rate) or empty (negative rate); zero
      when the capacity is not changing. Only the capacities the branch uses are read. */
  function Estimate(maxCap: PValue, currCap: PValue, minuteRate: real): (r: Result<real>)
    ensures minuteRate > 0.0 ==> (r.Ok? <==> NumOf(maxCap).Some? && NumOf(currCap).Some?)
    ensures minuteRate > 0.0 && r.Ok? ==>
      NumOf(currCap).value + minuteRate * r.value == NumOf(maxCap).value
    ensures minuteRate < 0.0 ==> (r.Ok? <==> NumOf(currCap).Some?)
    ensures minuteRate < 0.0 && r.Ok? ==> NumOf(currCap).value + minuteRate * r.value == 0.0
    ensures minuteRate == 0.0 ==> r == Ok(0.0)
    ensures r.Err? ==> r.error == TypeError
  {
    if minuteRate > 0.0 then
      var gap :- Minus(maxCap, currCap);
      Ok(gap / minuteRate)
    else if minuteRate < 0.0 then
      match NumOf(currCap)
      case Some(c) => Ok(-(c / minuteRate))
      case None => Err(TypeError)
    else Ok(0.0)
  }

  /** The estimate is never negative while the current capacity lies between zero and
      the maximum. */
  lemma EstimateIsNonNegative(maxCap: PValue, currCap: PValue, minuteRate: real)
    requires NumOf(maxCap).Some? && NumOf(currCap).Some?
    requires 0.0 <= NumOf(currCap).value <= NumOf(maxCap).value
    ensures Estimate(maxCap, currCap, minuteRate).Ok?
    ensures Estimate(maxCap, currCap, minuteRate).value >= 0.0
  {
    var e := Estimate(maxCap, currCap, minuteRate).value;
    if minuteRate > 0.0 {
      assert minuteRate * e == NumOf(maxCap).value - NumOf(currCap).value;
    } else if minuteRate < 0.0 {
      assert minuteRate * e == -NumOf(currCap).value;
    }
  }

  /** The history is too short, or the capacities unknown, to measure a rate. */
  predicate NoRate(b: AppleSmartBattery) {
    b.batteryCapacityHistory.None? || |b.batteryCapacityHistory.value| < 2
    || !TruthyOpt(b.appleRawMaxCapacity) || !TruthyOpt(b.appleRawCurrentCapacity)
  }

  /** `update_charing_history`: the next state of the charging-rate display. A battery
      that is not charging first resets the state; without two samples, both capacities
      and a change pair the state is then left as it is. Otherwise the new state spans the
      whole history and takes its rate from the last change. */
  function UpdateChargingHistory(state: BatteryState, slot: Store.IORegSlot): (r: Result<BatteryState>)
    ensures slot.PowerHeld? ==> r == Err(AttributeError)
    ensures slot.IORegHeld? && NoRate(slot.io.appleSmartBattery) ==>
      r == Ok(if TruthyOpt(slot.io.appleSmartBattery.isCharging) then state else FreshBatteryState)
    ensures slot.IORegHeld? && !NoRate(slot.io.appleSmartBattery) ==>
      var b := slot.io.appleSmartBattery;
      var h := b.batteryCapacityHistory.value;
      var first := h[0];
      var last := h[|h| - 1];
      && (r.Ok? ==> Minus(last.1, first.1).Ok?)
      && (Minus(last.1, first.1).Err? ==> r == Err(TypeError))
      && (GetLastChange(h).None? && Minus(last.1, first.1).Ok? ==>
            r == Ok(if TruthyOpt(b.isCharging) then state else FreshBatteryState))
      && (GetLastChange(h).Some? && Minus(last.1, first.1).Ok? ==>
            var (start, newest) := GetLastChange(h).value;
            var delta := Minus(newest.1, start.1);
            && (delta.Err? ==> r == Err(TypeError))
            && (delta.Ok? && newest.0 == start.0 ==> r == Err(ZeroDivisionError))
            && (delta.Ok? && newest.0 != start.0 ==>
                  var rate := delta.value / (newest.0 - start.0) * 60.0;
                  var e := Estimate(b.appleRawMaxCapacity.value, b.appleRawCurrentCapacity.value, rate);
                  (r.Ok? <==> e.Ok?) && (e.Err? ==> r == Err(TypeError))))
      && (GetLastChange(h).Some? && r.Ok? ==>
            var (start, newest) := GetLastChange(h).value;
            && r.value.totalTime == last.0 - first.0
            && r.value.historyAccumulated + NumOf(first.1).value == NumOf(last.1).value
            && newest.0 != start.0
            && Minus(newest.1, start.1).Ok?
            && r.value.minuteRate * (newest.0 - start.0) == Minus(newest.1, start.1).value * 60.0
            && Estimate(b.appleRawMaxCapacity.value, b.appleRawCurrentCapacity.value, r.value.minuteRate)
               == Ok(r.value.estimateMinutes))
  {
    var b :- BatteryOf(slot);
    var s := if TruthyOpt(b.isCharging) then state else FreshBatteryState;
    if NoRate(b) then Ok(s)
    else
      var h := b.batteryCapacityHistory.value;
      var totalTime := h[|h| - 1].0 - h[0].0;
      var accumulated :- Minus(h[|h| - 1].1, h[0].1);
      match GetLastChange(h)
      case None => Ok(s)
      case Some((start, last)) =>
        var delta :- Minus(last.1, start.1);
        var perSecond :- Divide(delta, last.0 - start.0);
        var minuteRate := perSecond * 60.0;
        var estimate :- Estimate(b.appleRawMaxCapacity.value, b.appleRawCurrentCapacity.value, minuteRate);
        Ok(BatteryState(totalTime, accumulated, minuteRate, estimate))
  }

  // ---------------------------------------------------------------------------------
  // Adapter and health

  /** What `ChargerDispaly` shows. */
  datatype ChargerView = ChargerView(connected: Sample, charging: Sample, adapter: Option<AdapterDetails>)

  /** `update_adapter`: the adapter is shown only while one is connected. */
  function UpdateAdapter(slot: Store.IORegSlot): (r: Result<ChargerView>)
    ensures r.Ok? <==> slot.IORegHeld?
    ensures r.Ok? ==>
      var b := slot.io.appleSmartBattery;
      && r.value.connected == b.externalConnected && r.value.charging == b.isCharging
      && (r.value.adapter.Some? <==> TruthyOpt(b.externalConnected))
      && (r.value.adapter.Some? ==> r.value.adapter.value == b.adapterDetails)
  {
    var b :- BatteryOf(slot);
    Ok(ChargerView(b.externalConnected, b.isCharging,
                   if TruthyOpt(b.externalConnected) then Some(b.adapterDetails) else None))
  }

  /** Once the ioreg source has stored a parsed battery record, the panel shows the
      adapter details parsed from that record exactly when it says an adapter is
      connected. */
  lemma ShownAdapterIsParsed(raw: PValue, prev: Store.IORegSlot, now: real, a: AppleSmartBattery, m: Store.Metrics)
    requires IOReg.ParseAppleSmartBattery(raw, prev, now) == Ok(a)
    ensures var v := UpdateAdapter(Store.SetIoregmetrics(m, IORegMetrics(a)).ioregmetrics);
      && v.Ok?
      && (v.value.adapter.Some? <==> TruthyOpt(Lookup(raw.entries, "ExternalConnected")))
      && (v.value.adapter.Some? ==>
            IOReg.ParseAdapterDetails(Lookup(raw.entries, "AdapterDetails").value) == Ok(v.value.adapter.value))
  {
  }

  /** `BatteryHealthInfo`: the maximum capacity as a percentage of the design capacity,
      shown only when both are known. */
  function HealthPercent(b: AppleSmartBattery): (r: Result<Option<real>>)
    ensures b.appleRawMaxCapacity.None? || b.designCapacity.None? ==> r == Ok(None)
    ensures r.Ok? && r.value.Some? ==>
      && NumOf(b.appleRawMaxCapacity.value).Some? && NumOf(b.designCapacity.value).Some?
      && r.value.value * NumOf(b.designCapacity.value).value == NumOf(b.appleRawMaxCapacity.value).value * 100.0
    ensures b.appleRawMaxCapacity.Some? && b.designCapacity.Some?
            && NumOf(b.appleRawMaxCapacity.value).Some? && NumOf(b.designCapacity.value).Some? ==>
      && (r.Ok? <==> NumOf(b.designCapacity.value).value != 0.0)
      && (r.Ok? ==> r.value.Some?)
      && (r.Err? ==> r.error == ZeroDivisionError)
    ensures b.appleRawMaxCapacity.Some? && b.designCapacity.Some?
            && (NumOf(b.appleRawMaxCapacity.value).None? || NumOf(b.designCapacity.value).None?) ==>
      r == Err(TypeError)
  {
    match (b.appleRawMaxCapacity, b.designCapacity)
    case (Some(maxCap), Some(design)) =>
      (match (NumOf(maxCap), NumOf(design))
       case (Some(m), Some(d)) =>
         var ratio :- Divide(m, d);
         Ok(Some(ratio * 100.0))
       case _ => Err(TypeError))
    case _ => Ok(None)
  }
}

=== FILE: colorbar.dfy ===
/** The colour bar: every percentage drawn as full blocks plus one partial block in
    eighths of a cell, in its own colour on the background of the next run's colour. */
module ColorBar {
  import opened Python
  import VStringBar

  type Color = string

  /** The partial blocks, a left eighth to a full block; `BLOCKS[k]` covers `k + 1`
      eighths of a cell. */
  const BLOCKS: seq<char> :=
    ['\U{258F}', '\U{258E}', '\U{258D}', '\U{258C}', '\U{258B}', '\U{258A}', '\U{2589}', '\U{2588}']
  const FULL: char := '\U{2588}'

  /** A run of blocks with its foreground and background colours. */
  datatype Cell = Cell(text: string, fg: Color, bg: Color)

  /** What the bar draws: plain text, or coloured runs of blocks. */
  datatype Bar = Text(s: string) | Blocks(cells: seq<Cell>)

  /** The eighths of a cell one run covers: `max(units * percent - previous_taken_units,
      0)`, where the count of units already taken is never advanced from zero. */
  function RunUnits(units: int, q: real): (u: real)
    ensures u >= 0.0 && u >= units as real * q
    ensures u == units as real * q || u == 0.0
  {
    var current := units as real * q - 0.0;
    if current >= 0.0 then current else 0.0
  }

  /** `int(u // 8)` full blocks and `int(u % 8)` eighths left over. */
  function Split(u: real): (r: (int, int))
    requires u >= 0.0
    ensures r.0 >= 0 && 0 <= r.1 < 8
    ensures 8 * r.0 + r.1 == u.Floor
  {
    var full := (u / 8.0).Floor;
    var rem := Trunc(u - 8.0 * full as real);
    (full, rem)
  }

  /** The blocks of one run: its full blocks, then the partial block if any eighths are
      left over. */
  function Display(u: real): string
    requires u >= 0.0
  {
    var (full, rem) := Split(u);
    RepeatChar(FULL, full) + (if rem > 0 then [BLOCKS[rem - 1]] else [])
  }

  /** A run takes one cell per eight whole eighths, and one more for any left over. */
  lemma DisplayWidth(u: real)
    requires u >= 0.0
    ensures |Display(u)| == (u.Floor + 7) / 8
  {
  }

  /** The blocks of every run, `texts[k]` drawing run `k`'s units. */
  function Displays(qs: seq<real>, units: int): (texts: seq<string>)
    ensures |texts| == |qs| && forall k :: 0 <= k < |qs| ==> texts[k] == Display(RunUnits(units, qs[k]))
  {
    seq(|qs|, k requires 0 <= k < |qs| => Display(RunUnits(units, qs[k])))
  }

  /** The runs from `i` on, zipped with their colours. A run before the last takes the
      next colour as its background, which does not exist once the colours run out
      first. */
  function Cells(texts: seq<string>, colors: seq<Color>, i: nat): (r: Result<seq<Cell>>)
    requires i <= |texts|
    ensures r.Err? <==> i < |colors| < |texts|
    ensures r.Err? ==> r.error == IndexError
    decreases |texts| - i
  {
    if i >= |texts| || i >= |colors| then Ok([])
    else if i < |texts| - 1 && i + 1 >= |colors| then Err(IndexError)
    else
      var bg := if i < |texts| - 1 then colors[i + 1] else colors[i];
      var cell := Cell(texts[i], colors[i], bg);
      match Cells(texts, colors, i + 1)
      case Ok(rest) => Ok([cell] + rest)
      case Err(e) => Err(e)
  }

  /** `ColorBar.render` as written. The colour check compares the colour list with
      itself, so a colour list shorter than the percentages raises IndexError. */
  function RenderColorBar(percentages: Option<seq<real>>, colors: Option<seq<Color>>, width: int)
    : (r: Result<Bar>)
    ensures percentages.None? || percentages.value == [] ==> r == Ok(Text(RepeatChar(' ', width)))
    ensures percentages.Some? && percentages.value != [] && Sum(percentages.value) == 0.0 ==> r == Ok(Text(" "))
    ensures percentages.Some? && percentages.value != [] && Sum(percentages.value) != 0.0 ==>
      && (r == Ok(Text(VStringBar.COLOR_ERROR)) <==> colors.None? || colors.value == [])
      && (r.Err? <==> colors.Some? && 0 < |colors.value| < |percentages.value|)
    ensures r.Err? ==> r.error == IndexError
    ensures r.Ok? && r.value.Blocks? ==>
      && percentages.Some? && colors.Some? && Sum(percentages.value) != 0.0
      && Cells(Displays(VStringBar.Normalise(percentages.value, Sum(percentages.value)), width * 8), colors.value, 0)
         == Ok(r.value.cells)
  {
    if percentages.None? || percentages.value == [] then Ok(Text(RepeatChar(' ', width)))
    else
      var ps := percentages.value;
      var total := Sum(ps);
      if total == 0.0 then Ok(Text(" "))
      else
        var qs := VStringBar.Normalise(ps, total);
        var units := width * 8;
        if colors.None? || colors.value == [] then Ok(Text(VStringBar.COLOR_ERROR))
        else
          match Cells(Displays(qs, units), colors.value, 0)
          case Ok(cells) => Ok(Blocks(cells))
          case Err(e) => Err(e)
  }

  /** `ColorBar.render` with the colour check evidently intended: one colour per
      percentage. It never raises. */
  function RenderColorBarFixed(percentages: Option<seq<real>>, colors: Option<seq<Color>>, width: int)
    : (r: Result<Bar>)
    ensures r.Ok?
    ensures percentages.Some? && percentages.value != [] && Sum(percentages.value) != 0.0 ==>
      (r == Ok(Text(VStringBar.COLOR_ERROR)) <==> colors.None? || |colors.value| != |percentages.value|)
    ensures r != Ok(Text(VStringBar.COLOR_ERROR)) ==> r == RenderColorBar(percentages, colors, width)
  {
    if percentages.Some? && percentages.value != [] && Sum(percentages.value) != 0.0
       && (colors.None? || |colors.value| != |percentages.value|)
    then Ok(Text(VStringBar.COLOR_ERROR))
    else RenderColorBar(percentages, colors, width)
  }

  // ---------------------------------------------------------------------------------
  // Eighths: what the blocks are worth

  /** The eighths of a cell one character covers: `k + 1` for `BLOCKS[k]`, none for
      anything else. */
  function EighthsOf(c: char): nat {
    if c == BLOCKS[7] then 8
    else if c == BLOCKS[6] then 7
    else if c == BLOCKS[5] then 6
    else if c == BLOCKS[4] then 5
    else if c == BLOCKS[3] then 4
    else if c == BLOCKS[2] then 3
    else if c == BLOCKS[1] then 2
    else if c == BLOCKS[0] then 1
    else 0
  }

  function Eighths(s: string): nat
    decreases |s|
  {
    if s == [] then 0 else EighthsOf(s[0]) + Eighths(s[1..])
  }

  lemma BlockEighths(k: int)
    requires 0 <= k < 8
    ensures EighthsOf(BLOCKS[k]) == k + 1
  {
  }

  lemma {:induction false} EighthsAppend(a: string, b: string)
    ensures Eighths(a + b) == Eighths(a) + Eighths(b)
    decreases |a|
  {
    if a == [] {
      assert a + b == b;
    } else {
      assert (a + b)[1..] == a[1..] + b;
      EighthsAppend(a[1..], b);
    }
  }

  lemma {:induction false} FullBlocksEighths(n: nat)
    ensures Eighths(RepeatChar(FULL, n)) == 8 * n
    decreases n
  {
    if n > 0 {
      var s := RepeatChar(FULL, n);
      assert s[1..] == RepeatChar(FULL, n - 1);
      FullBlocksEighths(n - 1);
    }
  }

  /** A run's blocks cover exactly the whole eighths of its units. */
  lemma DisplayEighths(u: real)
    requires u >= 0.0
    ensures Eighths(Display(u)) == u.Floor
  {
    var (full, rem) := Split(u);
    var tail: string := if rem > 0 then [BLOCKS[rem - 1]] else [];
    FullBlocksEighths(full);
    EighthsAppend(RepeatChar(FULL, full), tail);
    if rem > 0 {
      BlockEighths(rem - 1);
      assert Eighths(tail) == EighthsOf(tail[0]) + Eighths([]);
    }
  }

  /** The cell run `i` draws, when there is a colour for each run. */
  function CellAt(texts: seq<string>, colors: seq<Color>, i: nat): Cell
    requires i < |texts| <= |colors|
  {
    Cell(texts[i], colors[i], if i < |texts| - 1 then colors[i + 1] else colors[i])
  }

  /** With a colour for every run, no run raises and the runs from `i` on each draw their
      own cell. */
  lemma {:induction false} CellsShape(texts: seq<string>, colors: seq<Color>, i: nat)
    requires i <= |texts| <= |colors|
    ensures Cells(texts, colors, i).Ok?
    ensures var cs := Cells(texts, colors, i).value;
      && |cs| == |texts| - i
      && forall k :: 0 <= k < |cs| ==> cs[k] == CellAt(texts, colors, i + k)
    decreases |texts| - i
  {
    if i < |texts| {
      CellsShape(texts, colors, i + 1);
      var cs := Cells(texts, colors, i).value;
      var rest := Cells(texts, colors, i + 1).value;
      assert cs == [CellAt(texts, colors, i)] + rest;
      forall k | 1 <= k < |cs|
        ensures cs[k] == CellAt(texts, colors, i + k)
      {
        assert cs[k] == rest[k - 1];
      }
    }
  }

  /** Each run is drawn in its own colour on the next run's, the last on its own; its
      blocks are its units. */
  lemma CellsColors(qs: seq<real>, colors: seq<Color>, units: int)
    requires |qs| <= |colors|
    ensures Cells(Displays(qs, units), colors, 0).Ok?
    ensures var cs := Cells(Displays(qs, units), colors, 0).value;
      && |cs| == |qs|
      && (forall k :: 0 <= k < |cs| ==> cs[k].fg == colors[k] && cs[k].text == Display(RunUnits(units, qs[k])))
      && (forall k :: 0 <= k < |cs| - 1 ==> cs[k].bg == colors[k + 1])
      && (|cs| > 0 ==> cs[|cs| - 1].bg == colors[|cs| - 1])
  {
    CellsShape(Displays(qs, units), colors, 0);
  }

  function CellEighths(cs: seq<Cell>): nat
    decreases |cs|
  {
    if cs == [] then 0 else Eighths(cs[0].text) + CellEighths(cs[1..])
  }

  /** The whole eighths the runs from `i` on are owed. */
  function OwedEighths(qs: seq<real>, units: int, i: nat): int
    requires i <= |qs|
    decreases |qs| - i
  {
    if i == |qs| then 0 else RunUnits(units, qs[i]).Floor + OwedEighths(qs, units, i + 1)
  }

  /** The runs from `i` on draw exactly the whole eighths they are owed. */
  lemma {:induction false} CellsDrawOwed(qs: seq<real>, colors: seq<Color>, units: int, i: nat)
    requires i <= |qs| <= |colors|
    ensures Cells(Displays(qs, units), colors, i).Ok?
    ensures CellEighths(Cells(Displays(qs, units), colors, i).value) == OwedEighths(qs, units, i)
    decreases |qs| - i
  {
    var texts := Displays(qs, units);
    CellsShape(texts, colors, i);
    if i < |qs| {
      CellsDrawOwed(qs, colors, units, i + 1);
      var cs := Cells(texts, colors, i).value;
      assert cs == [CellAt(texts, colors, i)] + Cells(texts, colors, i + 1).value;
      assert cs[1..] == Cells(texts, colors, i + 1).value;
      DisplayEighths(RunUnits(units, qs[i]));
    }
  }

  lemma RunUnitsBound(units: int, q: real)
    requires units >= 0 && q >= 0.0
    ensures RunUnits(units, q).Floor as real <= units as real * q
  {
    VStringBar.MulNonNegative(units as real, q);
  }

  /** With non-negative shares, the runs from `i` on are owed at most their shares of
      the units. */
  lemma {:induction false} OwedEighthsBound(qs: seq<real>, units: int, i: nat)
    requires i <= |qs| && units >= 0 && VStringBar.NonNegative(qs)
    ensures OwedEighths(qs, units, i) as real <= units as real * Sum(qs[i..])
    decreases |qs| - i
  {
    if i < |qs| {
      OwedEighthsBound(qs, units, i + 1);
      RunUnitsBound(units, qs[i]);
      assert qs[i..] == [qs[i]] + qs[i + 1..];
      SumAppend([qs[i]], qs[i + 1..]);
      assert Sum([qs[i]]) == qs[i] + Sum([]);
    } else {
      assert qs[i..] == [];
    }
  }

  /** Shares summing to one are owed at most all the units. */
  lemma OwedAtMostUnits(qs: seq<real>, units: int)
    requires units >= 0 && VStringBar.NonNegative(qs) && Sum(qs) == 1.0
    ensures OwedEighths(qs, units, 0) <= units
  {
    OwedEighthsBound(qs, units, 0);
    assert qs[0..] == qs;
    VStringBar.RealBoundToInt(OwedEighths(qs, units, 0), units, Sum(qs));
  }

  /** With non-negative percentages and a colour for each, the bar covers at most its
      width, counted in eighths of a cell. */
  lemma BarWithinWidthInEighths(ps: seq<real>, colors: seq<Color>, width: int)
    requires ps != [] && VStringBar.NonNegative(ps) && Sum(ps) != 0.0 && |colors| >= |ps| && width >= 0
    ensures var r := RenderColorBar(Some(ps), Some(colors), width);
      r.Ok? && r.value.Blocks? && CellEighths(r.value.cells) <= 8 * width
  {
    var qs := VStringBar.Normalise(ps, Sum(ps));
    RenderedBlocks(ps, colors, width);
    VStringBar.NormalisedShares(ps, Sum(ps));
    SharesWithinUnits(qs, colors, width * 8);
  }

  /** With a colour for each of some percentages that do not sum to zero, the bar is the
      runs' blocks. */
  lemma RenderedBlocks(ps: seq<real>, colors: seq<Color>, width: int)
    requires ps != [] && Sum(ps) != 0.0 && |colors| >= |ps|
    ensures var cells := Cells(Displays(VStringBar.Normalise(ps, Sum(ps)), width * 8), colors, 0);
      cells.Ok? && RenderColorBar(Some(ps), Some(colors), width) == Ok(Blocks(cells.value))
  {
  }

  lemma SharesWithinUnits(qs: seq<real>, colors: seq<Color>, units: int)
    requires |qs| <= |colors| && VStringBar.NonNegative(qs) && Sum(qs) == 1.0 && units >= 0
    ensures Cells(Displays(qs, units), colors, 0).Ok?
    ensures CellEighths(Cells(Displays(qs, units), colors, 0).value) <= units
  {
    CellsDrawOwed(qs, colors, units, 0);
    OwedAtMostUnits(qs, units);
  }

  /** Two halves of a one-cell bar each draw a half block: the bar is two cells wide,
      one more than its width. */
  lemma HalvesOverflowOneCell()
    ensures var r := RenderColorBar(Some([1.0, 1.0]), Some(["red", "blue"]), 1);
      r.Ok? && r.value.Blocks? && |r.value.cells| == 2
      && |r.value.cells[0].text| + |r.value.cells[1].text| == 2
  {
    var ps := [1.0, 1.0];
    assert Sum(ps) == 2.0 by {
      assert ps[1..] == [1.0] && [1.0][1..] == [];
    }
    var qs := VStringBar.Normalise(ps, 2.0);
    assert qs[0] == 0.5 && qs[1] == 0.5;
    assert RunUnits(8, 0.5) == 4.0;
    assert (4.0).Floor == 4;
    DisplayWidth(4.0);
    CellsColors(qs, ["red", "blue"], 8);
  }

  /** A single colour for two percentages passes the colour check as written and
      raises IndexError looking up the second run's colour; the corrected check reports
      the mismatch. */
  lemma ShortColorListRaises()
    ensures RenderColorBar(Some([1.0, 1.0]), Some(["red"]), 10) == Err(IndexError)
    ensures RenderColorBarFixed(Some([1.0, 1.0]), Some(["red"]), 10) == Ok(Text(VStringBar.COLOR_ERROR))
  {
    var ps := [1.0, 1.0];
    assert Sum(ps) == 2.0 by {
      assert ps[1..] == [1.0] && [1.0][1..] == [];
    }
  }
}

=== FILE: formatting.dfy ===
/** Human-readable numbers for the panels: byte sizes and rates in binary units, packet
    rates in decimal units, clock frequencies as exact integers, and CPU busy
    percentages. Decimal rendering of reals is not modelled: a formatted real is kept as
    the value together with its alignment, width and precision. */
module Formatting {
  import opened Python

  function Abs(x: real): real {
    if x < 0.0 then -x else x
  }

  /** `x` multiplied `k` times by `base`: what a value divided `k` times stood for. */
  function Unscale(x: real, base: real, k: nat): real {
    if k == 0 then x else Unscale(x, base, k - 1) * base
  }

  lemma DivAtLeastOne(x: real, b: real)
    requires b > 0.0 && x >= b
    ensures x / b >= 1.0
  {
  }

  // ---------------------------------------------------------------------------------
  // Unit selection

  /** Division by `base` until the magnitude is below `base` or the units run out: the
      scaled value, its unit (`overflow` once every unit was passed) and the number of
      divisions. The unit is the first for which the scaled magnitude is below `base`:
      a value that was divided at all had a magnitude of at least `base` before the last
      division, and so before every earlier one. */
  function Scale(num: real, base: real, units: seq<string>, overflow: string): (r: (real, string, nat))
    requires base > 1.0
    ensures r.2 <= |units|
    ensures Unscale(r.0, base, r.2) == num
    ensures r.1 == if r.2 < |units| then units[r.2] else overflow
    ensures r.2 < |units| ==> Abs(r.0) < base
    ensures r.2 > 0 ==> Abs(r.0) >= 1.0
    decreases |units|
  {
    if units == [] || Abs(num) < base then
      (num, if units == [] then overflow else units[0], 0)
    else
      var r := Scale(num / base, base, units[1..], overflow);
      ScaleStep(num, base, r.0, r.2);
      (r.0, r.1, r.2 + 1)
  }

  /** One division by the base, undone. */
  lemma ScaleStep(num: real, base: real, scaled: real, k: nat)
    requires base > 1.0
    requires Unscale(scaled, base, k) == num / base
    ensures Unscale(scaled, base, k + 1) == num
    ensures Abs(num) >= base ==> Abs(num / base) >= 1.0
  {
    assert (num / base) * base == num;
    if num >= base {
      DivAtLeastOne(num, base);
    } else if num <= -base {
      DivAtLeastOne(-num, base);
      assert -num / base == -(num / base);
    }
  }

  const BINARY_UNITS: seq<string> := ["", "Ki", "Mi", "Gi", "Ti", "Pi", "Ei", "Zi"]
  const PACKET_UNITS: seq<string> := ["", "k", "M"]

  /** A real formatted with `{value:<align><width>.<precision>f}`. */
  datatype Fixed = Fixed(value: real, align: char, width: nat, precision: nat)

  /** Formatted text: a real followed by plain text (markup styles dropped). */
  datatype Line = Line(number: Fixed, rest: string)

  /** `s` left-aligned in a field of `width` characters. */
  function PadRight(s: string, width: nat): (r: string)
    ensures |r| == if |s| < width then width else |s|
    ensures r[..|s|] == s && forall i :: |s| <= i < |r| ==> r[i] == ' '
  {
    if |s| < width then s + seq(width - |s|, _ => ' ') else s
  }

  /** `s` right-aligned in a field of `width` characters. */
  function PadLeft(s: string, width: nat): (r: string)
    ensures |r| == if |s| < width then width else |s|
    ensures r[|r| - |s|..] == s && forall i :: 0 <= i < |r| - |s| ==> r[i] == ' '
  {
    if |s| < width then seq(width - |s|, _ => ' ') + s else s
  }

  /** `sizeof_fmt_plain`: one decimal, then the binary unit and the suffix. */
  function SizeofFmtPlain(num: real, suffix: string): (l: Line)
    ensures var r := Scale(num, 1024.0, BINARY_UNITS, "Yi");
      l == Line(Fixed(r.0, '<', 0, 1), r.1 + suffix)
  {
    var r := Scale(num, 1024.0, BINARY_UNITS, "Yi");
    Line(Fixed(r.0, '<', 0, 1), r.1 + suffix)
  }

  /** `sizeof_fmt`: six characters of number, the unit padded to two, the suffix. */
  function SizeofFmt(num: real, suffix: string): (l: Line)
    ensures var r := Scale(num, 1024.0, BINARY_UNITS, "Yi");
      l.number == Fixed(r.0, '>', 6, 1) && l.rest == PadRight(r.1, 2) + suffix
  {
    var r := Scale(num, 1024.0, BINARY_UNITS, "Yi");
    Line(Fixed(r.0, '>', 6, 1), PadRight(r.1, 2) + suffix)
  }

  /** `speed_sizeof_fmt`: as `sizeof_fmt`, per second. */
  function SpeedSizeofFmt(num: real, suffix: string): (l: Line)
    ensures var r := Scale(num, 1024.0, BINARY_UNITS, "Yi");
      l.number == Fixed(r.0, '>', 6, 1) && l.rest == PadRight(r.1, 2) + suffix + "/s"
  {
    var r := Scale(num, 1024.0, BINARY_UNITS, "Yi");
    Line(Fixed(r.0, '>', 6, 1), PadRight(r.1, 2) + suffix + "/s")
  }

  /** The text after the number is always five characters for a one-letter suffix. */
  lemma SpeedRestWidth(num: real)
    ensures |SpeedSizeofFmt(num, "B").rest| == 5
  {
    var r := Scale(num, 1024.0, BINARY_UNITS, "Yi");
    assert |r.1| <= 2;
  }

  /** The rate examples of the formatting tests that stay in bytes. */
  lemma SpeedSizeofBytes()
    ensures SpeedSizeofFmt(0.0, "B") == Line(Fixed(0.0, '>', 6, 1), "  B/s")
    ensures SpeedSizeofFmt(200.12, "B") == Line(Fixed(200.12, '>', 6, 1), "  B/s")
  {
  }

  /** 1024 bytes per second is one kibibyte per second. */
  lemma SpeedSizeofKibibyte()
    ensures SpeedSizeofFmt(1024.0, "B") == Line(Fixed(1.0, '>', 6, 1), "KiB/s")
  {
    assert Scale(1024.0, 1024.0, BINARY_UNITS, "Yi") == (1.0, "Ki", 1) by {
      assert BINARY_UNITS[1..][0] == "Ki";
      assert Scale(1.0, 1024.0, BINARY_UNITS[1..], "Yi") == (1.0, "Ki", 0);
    }
  }

  /** Four mebibytes and four gibibytes per second. */
  lemma SpeedSizeofMebiGibi()
    ensures SpeedSizeofFmt(4194304.0, "B") == Line(Fixed(4.0, '>', 6, 1), "MiB/s")
    ensures SpeedSizeofFmt(4294967296.0, "B") == Line(Fixed(4.0, '>', 6, 1), "GiB/s")
  {
    var u := BINARY_UNITS;
    assert u[1..][1..] == u[2..] && u[2..][1..] == u[3..] && u[2..][0] == "Mi" && u[3..][0] == "Gi";
    assert Scale(4.0, 1024.0, u[2..], "Yi") == (4.0, "Mi", 0);
    assert Scale(4096.0, 1024.0, u[1..], "Yi") == (4.0, "Mi", 1);
    assert Scale(4194304.0, 1024.0, u, "Yi") == (4.0, "Mi", 2);
    assert Scale(4.0, 1024.0, u[3..], "Yi") == (4.0, "Gi", 0);
    assert Scale(4096.0, 1024.0, u[2..], "Yi") == (4.0, "Gi", 1);
    assert Scale(4194304.0, 1024.0, u[1..], "Yi") == (4.0, "Gi", 2);
    assert Scale(4294967296.0, 1024.0, u, "Yi") == (4.0, "Gi", 3);
  }

  /** 1004 tebibytes per second stays below the next unit. */
  lemma SpeedSizeofTebibytes()
    ensures SpeedSizeofFmt(1103909674287104.0, "B") == Line(Fixed(1004.0, '>', 6, 1), "TiB/s")
  {
    var u := BINARY_UNITS;
    assert u[1..][1..] == u[2..] && u[2..][1..] == u[3..] && u[3..][1..] == u[4..] && u[4..][0] == "Ti";
    assert Scale(1004.0, 1024.0, u[4..], "Yi") == (1004.0, "Ti", 0);
    assert Scale(1028096.0, 1024.0, u[3..], "Yi") == (1004.0, "Ti", 1);
    assert Scale(1052770304.0, 1024.0, u[2..], "Yi") == (1004.0, "Ti", 2);
    assert Scale(1078036791296.0, 1024.0, u[1..], "Yi") == (1004.0, "Ti", 3);
    assert Scale(1103909674287104.0, 1024.0, u, "Yi") == (1004.0, "Ti", 4);
  }

  /** `packet_speed_fmt`: base 1000, units "", k and M, then B. */
  function PacketSpeedFmt(num: real, suffix: string, align: char): (l: Line)
    ensures var r := Scale(num, 1000.0, PACKET_UNITS, "B");
      l.number == Fixed(r.0, align, 5, 1) && l.rest == PadRight(r.1, 1) + suffix
  {
    var r := Scale(num, 1000.0, PACKET_UNITS, "B");
    Line(Fixed(r.0, align, 5, 1), PadRight(r.1, 1) + suffix)
  }

  /** 1024 packets per second with a leading-space suffix is shown in thousands. */
  lemma PacketSpeedThousands()
    ensures PacketSpeedFmt(1024.0, " packets/s", '>') == Line(Fixed(1.024, '>', 5, 1), "k packets/s")
  {
    assert PACKET_UNITS[1..][0] == "k";
    assert Scale(1.024, 1000.0, PACKET_UNITS[1..], "B") == (1.024, "k", 0);
  }

  /** 4·1024³ packets per second passes every unit and is shown in billions. */
  lemma PacketSpeedBillions()
    ensures PacketSpeedFmt(4294967296.0, "packets/s", '>') == Line(Fixed(4.294967296, '>', 5, 1), "Bpackets/s")
  {
    var u := PACKET_UNITS;
    assert u[1..][1..] == u[2..] && u[2..][1..] == [];
    assert Scale(4.294967296, 1000.0, [], "B") == (4.294967296, "B", 0);
    assert Scale(4294.967296, 1000.0, u[2..], "B") == (4.294967296, "B", 1);
    assert Scale(4294967.296, 1000.0, u[1..], "B") == (4.294967296, "B", 2);
  }

  /** Rates below a thousand keep no unit. */
  lemma PacketSpeedUnits()
    ensures PacketSpeedFmt(200.12, "packets/s", '>') == Line(Fixed(200.12, '>', 5, 1), " packets/s")
    ensures PacketSpeedFmt(0.0, "packets/s", '>') == Line(Fixed(0.0, '>', 5, 1), " packets/s")
  {
  }

  // ---------------------------------------------------------------------------------
  // Frequencies

  /** The decimal digits of a natural number, most significant first, without leading
      zeros. */
  function Digits(n: nat): (s: string)
    ensures |s| >= 1 && (n == 0 <==> s == "0") && (|s| > 1 ==> s[0] != '0')
    ensures forall i :: 0 <= i < |s| ==> '0' <= s[i] <= '9'
    decreases n
  {
    if n < 10 then [DigitChar(n)] else Digits(n / 10) + [DigitChar(n % 10)]
  }

  function DigitChar(d: nat): (c: char)
    requires d < 10
    ensures '0' <= c <= '9' && (c as int) - ('0' as int) == d
  {
    ('0' as int + d) as char
  }

  /** The number a string of decimal digits denotes. */
  function DigitsValue(s: string): nat
    requires forall i :: 0 <= i < |s| ==> '0' <= s[i] <= '9'
    decreases |s|
  {
    if s == [] then 0
    else DigitsValue(s[..|s| - 1]) * 10 + ((s[|s| - 1] as int) - ('0' as int))
  }

  /** Reading the digits back gives the number. */
  lemma {:induction false} DigitsRoundTrip(n: nat)
    ensures DigitsValue(Digits(n)) == n
    decreases n
  {
    if n >= 10 {
      var s := Digits(n);
      assert s[..|s| - 1] == Digits(n / 10);
      DigitsRoundTrip(n / 10);
    }
  }

  /** Python `str(n)` of an integer. */
  function DecimalString(n: int): (s: string)
    ensures n >= 0 ==> s == Digits(n)
    ensures n < 0 ==> s == "-" + Digits(-n)
  {
    if n < 0 then "-" + Digits(-n) else Digits(n)
  }

  /** The integer and unit `hz_format` shows: the value truncated toward zero, then
      floor-divided by 1000 while its magnitude is at least 1000, at most twice. The
      shown integer is the number of whole units, and it is below 1000 in magnitude
      unless the unit is already M. */
  function HzScale(num: real): (r: (int, string))
    ensures r.1 == "" <==> -1000 < Trunc(num) < 1000
    ensures r.1 == "" ==> r.0 == Trunc(num)
    ensures r.1 == "k" ==> -1000 < r.0 < 1000 && r.0 * 1000 <= Trunc(num) < r.0 * 1000 + 1000
    ensures r.1 == "M" ==> (r.0 <= -1 || r.0 >= 1) && r.0 * 1000000 <= Trunc(num) < r.0 * 1000000 + 1000000
    ensures r.1 == "" || r.1 == "k" || r.1 == "M"
  {
    var n0 := Trunc(num);
    if -1000 < n0 < 1000 then (n0, "")
    else
      var n1 := FloorDiv(n0, 1000);
      if -1000 < n1 < 1000 then (n1, "k")
      else
        var n2 := FloorDiv(n1, 1000);
        assert n2 * 1000000 <= n0 < n2 * 1000000 + 1000000 by {
          assert n1 * 1000 <= n0 < n1 * 1000 + 1000;
          assert n2 * 1000 <= n1 < n2 * 1000 + 1000;
          assert n1 * 1000 + 1000 <= (n2 * 1000 + 999) * 1000 + 1000;
        }
        (n2, "M")
  }

  /** Python `a // b`, which rounds toward negative infinity. */
  function FloorDiv(a: int, b: int): (q: int)
    requires b > 0
    ensures q * b <= a < q * b + b
  {
    a / b
  }

  /** `hz_format`: the number right-aligned in four characters, the unit in one, then the
      suffix. */
  function HzFormat(num: real, suffix: string): (s: string)
    ensures var (n, unit) := HzScale(num);
      s == PadLeft(DecimalString(n), 4) + PadRight(unit, 1) + suffix
  {
    var (n, unit) := HzScale(num);
    PadLeft(DecimalString(n), 4) + PadRight(unit, 1) + suffix
  }

  function Pow10(k: nat): nat {
    if k == 0 then 1 else 10 * Pow10(k - 1)
  }

  /** A number below 10^k has at most k digits. */
  lemma {:induction false} DigitsFit(n: nat, k: nat)
    requires 1 <= k && n < Pow10(k)
    ensures |Digits(n)| <= k
    decreases k
  {
    if n >= 10 {
      assert k >= 2;
      DigitsFit(n / 10, k - 1);
    }
  }

  /** Up to 9999 MHz the frequency text is seven characters with the "hz" suffix. */
  lemma HzFormatWidth(num: real)
    requires 0.0 <= num < 10000000000.0
    ensures |HzFormat(num, "hz")| == 7
  {
    var (n, unit) := HzScale(num);
    assert 0 <= n < 10000;
    DigitsFit(n, 4);
  }

  /** 2604490000 Hz is shown as 2604 MHz. */
  lemma HzFormat2604()
    ensures HzFormat(2604490000.0, "hz") == "2604Mhz"
  {
    assert Trunc(2604490000.0) == 2604490000;
    assert HzScale(2604490000.0) == (2604, "M");
    assert Digits(2604) == "2604" by {
      assert Digits(2) == "2";
      assert Digits(26) == "26";
      assert Digits(260) == "260";
    }
  }

  /** 2804490000 Hz is shown as 2804 MHz. */
  lemma HzFormat2804()
    ensures HzFormat(2804490000.0, "hz") == "2804Mhz"
  {
    assert Trunc(2804490000.0) == 2804490000;
    assert HzScale(2804490000.0) == (2804, "M");
    assert Digits(2804) == "2804" by {
      assert Digits(2) == "2";
      assert Digits(28) == "28";
      assert Digits(280) == "280";
    }
  }

  // ---------------------------------------------------------------------------------
  // CPU busy percentage

  /** `render_cpu_percentage_1`: busy percent from the latest idle fraction. */
  function RenderCpuPercentage1(percentages: seq<real>): (r: Result<Line>)
    ensures r.Err? <==> percentages == []
    ensures r.Ok? ==>
      && r.value.rest == "%" && r.value.number.width == 5 && r.value.number.precision == 2
      && r.value.number.value + percentages[|percentages| - 1] * 100.0 == 100.0
  {
    if percentages == [] then Err(IndexError)
    else Ok(Line(Fixed((1.0 - percentages[|percentages| - 1]) * 100.0, '>', 5, 2), "%"))
  }

  /** `render_cpu_percentage_100`: busy percent from the latest idle percentage. */
  function RenderCpuPercentage100(percentages: seq<real>): (r: Result<Line>)
    ensures r.Err? <==> percentages == []
    ensures r.Ok? ==>
      && r.value.rest == "%" && r.value.number.width == 2 && r.value.number.precision == 0
      && r.value.number.value + percentages[|percentages| - 1] == 100.0
  {
    if percentages == [] then Err(IndexError)
    else Ok(Line(Fixed(100.0 - percentages[|percentages| - 1], '>', 2, 0), "%"))
  }

  /** Only the latest sample matters, and an idle fraction and the same idle percentage
      give the same busy value. */
  lemma CpuRenderersAgree(fractions: seq<real>, percents: seq<real>)
    requires fractions != [] && percents != []
    requires percents[|percents| - 1] == fractions[|fractions| - 1] * 100.0
    ensures RenderCpuPercentage1(fractions).value.number.value
            == RenderCpuPercentage100(percents).value.number.value
  {
  }
}

=== FILE: framing.dfy ===
/** The reader of the powermetrics output stream (`streaming_powermetrics`): it reads the
    stream line by line into a buffer, and a line containing `</plist>` closes a record.
    The record is sanitised (every `&` becomes `and`) and handed to the property-list
    decoder, which is a parameter here because it is a foreign library. A document the
    decoder rejects is dumped to a file as text, which raises when it is not UTF-8, and
    otherwise stays in the buffer; a decoded one is parsed against the current
    power-metrics snapshot, after which one separator byte is consumed. */
module Framing {
  import opened Python
  import opened Snapshots
  import opened Store
  import PowerMetricsParser

  const NL: byte := 10
  const AMP: byte := 38
  /** The bytes of `and`. */
  const AND: seq<byte> := [97, 110, 100]
  /** The bytes of `</plist>`. */
  const PLIST_END: seq<byte> := [60, 47, 112, 108, 105, 115, 116, 62]

  /** `readline()`: everything up to and including the first newline, or the whole rest of
      the stream when it holds no newline (empty at the end of the stream). */
  function ReadLine(s: seq<byte>): (l: seq<byte>)
    ensures l <= s
    ensures s != [] ==> l != []
    ensures l == s || l[|l| - 1] == NL
    ensures forall i :: 0 <= i < |l| - 1 ==> l[i] != NL
  {
    if s == [] then []
    else if s[0] == NL then [NL]
    else [s[0]] + ReadLine(s[1..])
  }

  /** `read(1)`: one byte, or nothing at the end of the stream. */
  function Drop1(s: seq<byte>): (r: seq<byte>)
    ensures s != [] ==> r == s[1..]
    ensures s == [] ==> r == []
  {
    if s == [] then [] else s[1..]
  }

  /** `replace(b"&", b"and")`. */
  function Sanitize(s: seq<byte>): (r: seq<byte>)
    ensures forall i :: 0 <= i < |r| ==> r[i] != AMP
    ensures (forall i :: 0 <= i < |s| ==> s[i] != AMP) ==> r == s
    ensures |r| >= |s|
    ensures s == [AMP] ==> r == AND
  {
    if s == [] then []
    else (if s[0] == AMP then AND else [s[0]]) + Sanitize(s[1..])
  }

  /** Sanitising works byte by byte, so it distributes over concatenation. */
  lemma {:induction false} SanitizeAppend(a: seq<byte>, b: seq<byte>)
    ensures Sanitize(a + b) == Sanitize(a) + Sanitize(b)
    decreases |a|
  {
    if a != [] {
      var h := if a[0] == AMP then AND else [a[0]];
      SanitizeAppend(a[1..], b);
      assert (a + b)[0] == a[0];
      assert (a + b)[1..] == a[1..] + b;
      assert Sanitize(a + b) == h + Sanitize(a[1..] + b);
      assert Sanitize(a) == h + Sanitize(a[1..]);
    } else {
      assert a + b == b;
    }
  }

  /** On a single byte, `&` becomes `and` and every other byte stays as it is. With
      SanitizeAppend this fixes the output for every input. */
  lemma SanitizeBytes()
    ensures Sanitize([AMP]) == AND
    ensures forall b: byte :: b != AMP ==> Sanitize([b]) == [b]
  {
  }

  /** Every `&` of the record is replaced in place by `and`: the bytes on either side of it
      are sanitised on their own. */
  lemma {:induction false} SanitizeAtAmp(a: seq<byte>, b: seq<byte>)
    ensures Sanitize(a + [AMP] + b) == Sanitize(a) + AND + Sanitize(b)
  {
    SanitizeAppend(a + [AMP], b);
    SanitizeAppend(a, [AMP]);
    SanitizeBytes();
  }

  /** Sanitising twice is sanitising once: the output holds no `&` left to replace. */
  lemma SanitizeIdempotent(s: seq<byte>)
    ensures Sanitize(Sanitize(s)) == Sanitize(s)
  {
  }

  /** The record parser the loop applies: `PowerMetricsParser(data, previous).parse()`. */
  type Parser = (PValue, PowerMetrics) -> Result<PowerMetrics>

  /** What the loop does with a record the decoder rejects once it has been dumped: as
      written it keeps the record in the buffer, so the next record is appended to it; the
      evident intent is to drop the record together with its separator byte. */
  datatype Recovery = KeepBadRecord | DropBadRecord

  /** The reader's state: the bytes buffered so far, the unread stream and the store. */
  datatype Framer = Framer(buffer: seq<byte>, rest: seq<byte>, store: Metrics)

  /** One pass of the loop either continues or raises out of the reader thread. */
  datatype Step = Next(f: Framer) | Raised(error: PyError, f: Framer)

  /** How a run over a finite stream ends: at the end of the stream the loop keeps reading
      empty lines forever, so the state is final; or a parse error ends the thread. */
  datatype Outcome = Waiting(f: Framer) | Crashed(error: PyError, f: Framer)

  /** One loop iteration. A decoded record is parsed with the current snapshot as the
      previous one, and the result is stored in the power-metrics slot. A rejected record
      is written to the dump file with `decode()`, which raises for bytes that are not
      UTF-8; otherwise the record is kept or dropped as `rec` says. */
  function LoopStep(f: Framer, decode: seq<byte> -> Option<PValue>, parse: Parser, rec: Recovery): (r: Step)
    ensures |r.f.rest| <= |f.rest| && (f.rest != [] ==> |r.f.rest| < |f.rest|)
    ensures var line := ReadLine(f.rest);
      !Occurs(PLIST_END, line) ==> r == Next(Framer(f.buffer + line, f.rest[|line|..], f.store))
    ensures var line := ReadLine(f.rest);
      var record := Sanitize(f.buffer + line);
      Occurs(PLIST_END, line) && decode(record).None? && !Utf8(record) ==>
        r == Raised(UnicodeDecodeError, Framer(record, f.rest[|line|..], f.store))
    ensures var line := ReadLine(f.rest);
      var record := Sanitize(f.buffer + line);
      Occurs(PLIST_END, line) && decode(record).None? && Utf8(record) && rec == KeepBadRecord ==>
        r == Next(Framer(record, f.rest[|line|..], f.store))
    ensures var line := ReadLine(f.rest);
      var record := Sanitize(f.buffer + line);
      Occurs(PLIST_END, line) && decode(record).None? && Utf8(record) && rec == DropBadRecord ==>
        r == Next(Framer([], Drop1(f.rest[|line|..]), f.store))
    ensures var line := ReadLine(f.rest);
      var record := Sanitize(f.buffer + line);
      Occurs(PLIST_END, line) && decode(record).Some? ==>
        && r.f.buffer == []
        && r.f.rest == Drop1(f.rest[|line|..])
        && (r.Next? <==> parse(decode(record).value, f.store.powermetrics).Ok?)
        && (r.Next? ==> Ok(r.f.store.powermetrics)
                        == parse(decode(record).value, f.store.powermetrics))
        && r.f.store.ioregmetrics == f.store.ioregmetrics
        && r.f.store.psutilmetrics == f.store.psutilmetrics
  {
    var line := ReadLine(f.rest);
    var after := f.rest[|line|..];
    var buffer := f.buffer + line;
    if !Occurs(PLIST_END, line) then Next(Framer(buffer, after, f.store))
    else
      var record := Sanitize(buffer);
      match decode(record)
      case None =>
        if !Utf8(record) then Raised(UnicodeDecodeError, Framer(record, after, f.store))
        else if rec == KeepBadRecord then Next(Framer(record, after, f.store))
        else Next(Framer([], Drop1(after), f.store))
      case Some(data) =>
        match parse(data, f.store.powermetrics)
        case Ok(pm) => Next(Framer([], Drop1(after), f.store.(powermetrics := pm)))
        case Err(e) => Raised(e, Framer([], Drop1(after), f.store))
  }

  /** The loop run until the stream is exhausted or a parse error escapes. */
  function Run(f: Framer, decode: seq<byte> -> Option<PValue>, parse: Parser, rec: Recovery): Outcome
    decreases |f.rest|
  {
    if f.rest == [] then Waiting(f)
    else
      match LoopStep(f, decode, parse, rec)
      case Next(f') => Run(f', decode, parse, rec)
      case Raised(e, f') => Crashed(e, f')
  }

  /** `streaming_powermetrics` over the whole stream `stream`, from an empty buffer. */
  function StreamingPowermetrics(stream: seq<byte>, m: Metrics, decode: seq<byte> -> Option<PValue>): Outcome {
    Run(Framer([], stream, m), decode, PowerMetricsParser.Parse, KeepBadRecord)
  }

  /** What happens once the record `record` (buffered bytes and its closing line) has been
      read and `tail` is the rest of the stream. */
  function AfterRecord(record: seq<byte>, tail: seq<byte>, m: Metrics,
                       decode: seq<byte> -> Option<PValue>, parse: Parser, rec: Recovery): Outcome
  {
    var s := Sanitize(record);
    match decode(s)
    case None =>
      if !Utf8(s) then Crashed(UnicodeDecodeError, Framer(s, tail, m))
      else if rec == KeepBadRecord then Run(Framer(s, tail, m), decode, parse, rec)
      else Run(Framer([], Drop1(tail), m), decode, parse, rec)
    case Some(data) =>
      match parse(data, m.powermetrics)
      case Ok(pm) => Run(Framer([], Drop1(tail), m.(powermetrics := pm)), decode, parse, rec)
      case Err(e) => Crashed(e, Framer([], Drop1(tail), m))
  }

  /** A newline-terminated line holding no other newline. */
  predicate IsLine(l: seq<byte>) {
    && |l| > 0
    && l[|l| - 1] == NL
    && forall i :: 0 <= i < |l| - 1 ==> l[i] != NL
  }

  /** A record as powermetrics prints it: lines of which only the last contains `</plist>`. */
  predicate IsRecord(ls: seq<seq<byte>>) {
    && |ls| > 0
    && (forall i :: 0 <= i < |ls| ==> IsLine(ls[i]))
    && (forall i :: 0 <= i < |ls| - 1 ==> !Occurs(PLIST_END, ls[i]))
    && Occurs(PLIST_END, ls[|ls| - 1])
  }

  function Flatten(ls: seq<seq<byte>>): seq<byte> {
    if ls == [] then [] else ls[0] + Flatten(ls[1..])
  }

  /** `readline` returns exactly one whole line. */
  lemma {:induction false} ReadLineOfLine(l: seq<byte>, tail: seq<byte>)
    requires IsLine(l)
    ensures ReadLine(l + tail) == l
    decreases |l|
  {
    if l[0] != NL {
      assert |l| > 1;
      ReadLineOfLine(l[1..], tail);
      assert (l + tail)[1..] == l[1..] + tail;
    }
  }

  /** Running over one whole line: it is appended to the buffer, and when it closes a
      record the record is handled at once. */
  lemma RunLine(buf: seq<byte>, l: seq<byte>, tail: seq<byte>, m: Metrics,
                decode: seq<byte> -> Option<PValue>, parse: Parser, rec: Recovery)
    requires IsLine(l)
    ensures Occurs(PLIST_END, l) ==>
      Run(Framer(buf, l + tail, m), decode, parse, rec) == AfterRecord(buf + l, tail, m, decode, parse, rec)
    ensures !Occurs(PLIST_END, l) ==>
      Run(Framer(buf, l + tail, m), decode, parse, rec) == Run(Framer(buf + l, tail, m), decode, parse, rec)
  {
    var f := Framer(buf, l + tail, m);
    ReadLineOfLine(l, tail);
    assert f.rest[|l|..] == tail;
  }

  /** Reading a whole record from any buffer yields the buffer and the record, sanitised
      together, as the decoder's input. */
  lemma {:induction false} RunRecord(buf: seq<byte>, ls: seq<seq<byte>>, tail: seq<byte>, m: Metrics,
                                     decode: seq<byte> -> Option<PValue>, parse: Parser, rec: Recovery)
    requires IsRecord(ls)
    ensures Run(Framer(buf, Flatten(ls) + tail, m), decode, parse, rec)
            == AfterRecord(buf + Flatten(ls), tail, m, decode, parse, rec)
    decreases |ls|
  {
    var l := ls[0];
    var rest := Flatten(ls[1..]) + tail;
    assert Flatten(ls) + tail == l + rest;
    RunLine(buf, l, rest, m, decode, parse, rec);
    if |ls| == 1 {
      assert ls[1..] == [];
      assert rest == tail;
      assert Flatten(ls) == l;
    } else {
      assert !Occurs(PLIST_END, l);
      RecordTail(ls);
      calc {
        Run(Framer(buf, Flatten(ls) + tail, m), decode, parse, rec);
        Run(Framer(buf, l + rest, m), decode, parse, rec);
        Run(Framer(buf + l, rest, m), decode, parse, rec);
        { RunRecord(buf + l, ls[1..], tail, m, decode, parse, rec); }
        AfterRecord(buf + l + Flatten(ls[1..]), tail, m, decode, parse, rec);
        { assert buf + l + Flatten(ls[1..]) == buf + Flatten(ls); }
        AfterRecord(buf + Flatten(ls), tail, m, decode, parse, rec);
      }
    }
  }

  /** A record of several lines without its first line is still a record. */
  lemma RecordTail(ls: seq<seq<byte>>)
    requires IsRecord(ls) && |ls| > 1
    ensures IsRecord(ls[1..])
  {
    assert forall i :: 0 <= i < |ls| - 1 ==> ls[1..][i] == ls[i + 1];
  }

  /** A record that decodes and parses, followed by its separator byte, ends with an empty
      buffer, the separator consumed and the parsed snapshot in the store. */
  lemma GoodRecord(ls: seq<seq<byte>>, sep: byte, tail: seq<byte>, m: Metrics,
                   decode: seq<byte> -> Option<PValue>, parse: Parser, rec: Recovery)
    requires IsRecord(ls)
    requires decode(Sanitize(Flatten(ls))).Some?
    requires parse(decode(Sanitize(Flatten(ls))).value, m.powermetrics).Ok?
    ensures var pm := parse(decode(Sanitize(Flatten(ls))).value, m.powermetrics).value;
      Run(Framer([], Flatten(ls) + ([sep] + tail), m), decode, parse, rec) == Run(Framer([], tail, m.(powermetrics := pm)), decode, parse, rec)
  {
    RunRecord([], ls, [sep] + tail, m, decode, parse, rec);
    assert [] + Flatten(ls) == Flatten(ls);
  }

  /** Two well-formed records in a row are parsed in order: the second is parsed with the
      first one's snapshot as its previous snapshot, so histories carry across. */
  lemma TwoRecords(ls1: seq<seq<byte>>, ls2: seq<seq<byte>>, sep1: byte, sep2: byte, m: Metrics,
                   decode: seq<byte> -> Option<PValue>, parse: Parser, rec: Recovery)
    requires IsRecord(ls1) && IsRecord(ls2)
    requires decode(Sanitize(Flatten(ls1))).Some? && decode(Sanitize(Flatten(ls2))).Some?
    requires parse(decode(Sanitize(Flatten(ls1))).value, m.powermetrics).Ok?
    requires
      var pm1 := parse(decode(Sanitize(Flatten(ls1))).value, m.powermetrics).value;
      parse(decode(Sanitize(Flatten(ls2))).value, pm1).Ok?
    ensures
      var pm1 := parse(decode(Sanitize(Flatten(ls1))).value, m.powermetrics).value;
      var pm2 := parse(decode(Sanitize(Flatten(ls2))).value, pm1).value;
      Run(Framer([], Flatten(ls1) + [sep1] + Flatten(ls2) + [sep2], m), decode, parse, rec)
        == Waiting(Framer([], [], m.(powermetrics := pm2)))
  {
    var pm1 := parse(decode(Sanitize(Flatten(ls1))).value, m.powermetrics).value;
    var tail2 := Flatten(ls2) + [sep2];
    assert Flatten(ls1) + [sep1] + Flatten(ls2) + [sep2] == Flatten(ls1) + ([sep1] + tail2);
    GoodRecord(ls1, sep1, tail2, m, decode, parse, rec);
    GoodRecord(ls2, sep2, [], m.(powermetrics := pm1), decode, parse, rec);
    assert Flatten(ls2) + ([sep2] + []) == tail2;
  }

  /** A byte other than `<` in front of a line cannot start or complete `</plist>`. */
  lemma OccursAfterByte(b: byte, l: seq<byte>)
    requires b != PLIST_END[0]
    ensures Occurs(PLIST_END, [b] + l) <==> Occurs(PLIST_END, l)
  {
    var n := |PLIST_END|;
    if Occurs(PLIST_END, [b] + l) {
      var i :| 0 <= i <= |[b] + l| - n && OccursAt(PLIST_END, [b] + l, i);
      assert ([b] + l)[i] == PLIST_END[0];
      assert i >= 1;
      assert l[i - 1..i - 1 + n] == ([b] + l)[i..i + n];
      assert OccursAt(PLIST_END, l, i - 1);
    }
    if Occurs(PLIST_END, l) {
      var i :| 0 <= i <= |l| - n && OccursAt(PLIST_END, l, i);
      assert ([b] + l)[i + 1..i + 1 + n] == l[i..i + n];
      assert OccursAt(PLIST_END, [b] + l, i + 1);
    }
  }

  /** A record the decoder rejects and that dumps as text is not dropped: it stays,
      sanitised, in the buffer, the separator after it is not consumed, and the next record
      is decoded with the rejected bytes and the separator in front of it. */
  lemma BadRecordPrefixesNext(ls1: seq<seq<byte>>, ls2: seq<seq<byte>>, sep: byte, tail: seq<byte>,
                              m: Metrics, decode: seq<byte> -> Option<PValue>, parse: Parser)
    requires IsRecord(ls1) && IsRecord(ls2)
    requires sep != NL && sep != AMP && sep != PLIST_END[0]
    requires decode(Sanitize(Flatten(ls1))).None? && Utf8(Sanitize(Flatten(ls1)))
    ensures Run(Framer([], Flatten(ls1) + [sep] + Flatten(ls2) + tail, m), decode, parse, KeepBadRecord)
            == AfterRecord(Sanitize(Flatten(ls1)) + [sep] + Flatten(ls2), tail, m, decode, parse, KeepBadRecord)
    ensures Sanitize(Sanitize(Flatten(ls1)) + [sep] + Flatten(ls2))
            == Sanitize(Flatten(ls1)) + [sep] + Sanitize(Flatten(ls2))
  {
    var bad := Sanitize(Flatten(ls1));
    var rest := [sep] + Flatten(ls2) + tail;
    var ls2' := SeparatorJoinsRecord(ls2, sep);
    calc {
      Run(Framer([], Flatten(ls1) + [sep] + Flatten(ls2) + tail, m), decode, parse, KeepBadRecord);
      { assert Flatten(ls1) + [sep] + Flatten(ls2) + tail == Flatten(ls1) + rest; }
      Run(Framer([], Flatten(ls1) + rest, m), decode, parse, KeepBadRecord);
      { RunRecord([], ls1, rest, m, decode, parse, KeepBadRecord);
        assert [] + Flatten(ls1) == Flatten(ls1); }
      AfterRecord(Flatten(ls1), rest, m, decode, parse, KeepBadRecord);
      { RejectedRecordStays(Flatten(ls1), rest, m, decode, parse); }
      Run(Framer(bad, rest, m), decode, parse, KeepBadRecord);
      { assert rest == Flatten(ls2') + tail; }
      Run(Framer(bad, Flatten(ls2') + tail, m), decode, parse, KeepBadRecord);
      { RunRecord(bad, ls2', tail, m, decode, parse, KeepBadRecord); }
      AfterRecord(bad + Flatten(ls2'), tail, m, decode, parse, KeepBadRecord);
      { assert bad + Flatten(ls2') == bad + [sep] + Flatten(ls2); }
      AfterRecord(bad + [sep] + Flatten(ls2), tail, m, decode, parse, KeepBadRecord);
    }
    SanitizeAfterBad(ls1, ls2, sep);
  }

  /** A record the decoder rejects goes back, sanitised, into the buffer. */
  lemma RejectedRecordStays(record: seq<byte>, tail: seq<byte>, m: Metrics,
                            decode: seq<byte> -> Option<PValue>, parse: Parser)
    requires decode(Sanitize(record)).None? && Utf8(Sanitize(record))
    ensures AfterRecord(record, tail, m, decode, parse, KeepBadRecord) == Run(Framer(Sanitize(record), tail, m), decode, parse, KeepBadRecord)
  {
  }

  /** The separator byte left in the buffer becomes the start of the next record's first
      line. */
  lemma SeparatorJoinsRecord(ls2: seq<seq<byte>>, sep: byte) returns (ls2': seq<seq<byte>>)
    requires IsRecord(ls2)
    requires sep != NL && sep != PLIST_END[0]
    ensures IsRecord(ls2') && Flatten(ls2') == [sep] + Flatten(ls2)
  {
    ls2' := [[sep] + ls2[0]] + ls2[1..];
    OccursAfterByte(sep, ls2[0]);
    assert IsLine([sep] + ls2[0]);
    assert forall i :: 1 <= i < |ls2'| ==> ls2'[i] == ls2[i];
    assert IsRecord(ls2');
    assert Flatten(ls2') == [sep] + Flatten(ls2) by {
      assert ls2'[1..] == ls2[1..];
    }
  }

  lemma SanitizeAfterBad(ls1: seq<seq<byte>>, ls2: seq<seq<byte>>, sep: byte)
    requires sep != AMP
    ensures Sanitize(Sanitize(Flatten(ls1)) + [sep] + Flatten(ls2))
            == Sanitize(Flatten(ls1)) + [sep] + Sanitize(Flatten(ls2))
  {
    var bad := Sanitize(Flatten(ls1));
    SanitizeAppend(bad + [sep], Flatten(ls2));
    SanitizeAppend(bad, [sep]);
    SanitizeIdempotent(Flatten(ls1));
    assert Sanitize([sep]) == [sep];
  }

  /** A rejected record that is not UTF-8 cannot be dumped as text: `decode()` raises
      and ends the reader, with the record still in the buffer, however bad records are
      recovered from. */
  lemma UndecodableRecordEndsReader(ls: seq<seq<byte>>, tail: seq<byte>, m: Metrics,
                                    decode: seq<byte> -> Option<PValue>, parse: Parser, rec: Recovery)
    requires IsRecord(ls)
    requires decode(Sanitize(Flatten(ls))).None? && !Utf8(Sanitize(Flatten(ls)))
    ensures Run(Framer([], Flatten(ls) + tail, m), decode, parse, rec)
            == Crashed(UnicodeDecodeError, Framer(Sanitize(Flatten(ls)), tail, m))
  {
    RunRecord([], ls, tail, m, decode, parse, rec);
    assert [] + Flatten(ls) == Flatten(ls);
  }

  /** As written, a rejected record followed by a good one loses the good one: the two
      are decoded together, and when the decoder rejects the merged text too, the stream
      ends with the store untouched and everything read still in the buffer. */
  lemma BadRecordLosesNextRecord(ls1: seq<seq<byte>>, ls2: seq<seq<byte>>, sep1: byte, sep2: byte,
                                 m: Metrics, decode: seq<byte> -> Option<PValue>, parse: Parser)
    requires IsRecord(ls1) && IsRecord(ls2)
    requires sep1 != NL && sep1 != AMP && sep1 != PLIST_END[0] && sep2 != NL
    requires decode(Sanitize(Flatten(ls1))).None? && Utf8(Sanitize(Flatten(ls1)))
    requires var merged := Sanitize(Flatten(ls1)) + [sep1] + Sanitize(Flatten(ls2));
      decode(merged).None? && Utf8(merged)
    ensures var merged := Sanitize(Flatten(ls1)) + [sep1] + Sanitize(Flatten(ls2));
      Run(Framer([], Flatten(ls1) + [sep1] + Flatten(ls2) + [sep2], m), decode, parse, KeepBadRecord)
        == Waiting(Framer(merged + [sep2], [], m))
  {
    var merged := Sanitize(Flatten(ls1)) + [sep1] + Sanitize(Flatten(ls2));
    BadRecordPrefixesNext(ls1, ls2, sep1, [sep2], m, decode, parse);
    calc {
      Run(Framer([], Flatten(ls1) + [sep1] + Flatten(ls2) + [sep2], m), decode, parse, KeepBadRecord);
      AfterRecord(Sanitize(Flatten(ls1)) + [sep1] + Flatten(ls2), [sep2], m, decode, parse, KeepBadRecord);
      Run(Framer(merged, [sep2], m), decode, parse, KeepBadRecord);
      { SeparatorOnlyLine(merged, sep2, m, decode, parse); }
      Run(Framer(merged + [sep2], [], m), decode, parse, KeepBadRecord);
    }
  }

  /** A last byte that is not a newline is read as a line of its own and buffered. */
  lemma SeparatorOnlyLine(buf: seq<byte>, sep: byte, m: Metrics,
                          decode: seq<byte> -> Option<PValue>, parse: Parser)
    requires sep != NL
    ensures Run(Framer(buf, [sep], m), decode, parse, KeepBadRecord)
            == Run(Framer(buf + [sep], [], m), decode, parse, KeepBadRecord)
  {
    assert ReadLine([sep]) == [sep];
    assert !OccursAt(PLIST_END, [sep], 0);
    assert !Occurs(PLIST_END, [sep]);
  }

  /** With the corrected recovery a rejected record is dropped with its separator: the
      stream after it is read from an empty buffer, as if the record had not been there. */
  lemma BadRecordDropped(ls: seq<seq<byte>>, sep: byte, tail: seq<byte>, m: Metrics,
                         decode: seq<byte> -> Option<PValue>, parse: Parser)
    requires IsRecord(ls)
    requires decode(Sanitize(Flatten(ls))).None? && Utf8(Sanitize(Flatten(ls)))
    ensures Run(Framer([], Flatten(ls) + ([sep] + tail), m), decode, parse, DropBadRecord)
            == Run(Framer([], tail, m), decode, parse, DropBadRecord)
  {
    RunRecord([], ls, [sep] + tail, m, decode, parse, DropBadRecord);
    assert [] + Flatten(ls) == Flatten(ls);
  }

  /** With the corrected recovery a rejected record followed by a good one leaves the
      good one's snapshot, parsed against the snapshot from before the rejected record. */
  lemma BadThenGoodRecord(ls1: seq<seq<byte>>, ls2: seq<seq<byte>>, sep1: byte, sep2: byte,
                          m: Metrics, decode: seq<byte> -> Option<PValue>, parse: Parser)
    requires IsRecord(ls1) && IsRecord(ls2)
    requires decode(Sanitize(Flatten(ls1))).None? && Utf8(Sanitize(Flatten(ls1)))
    requires decode(Sanitize(Flatten(ls2))).Some?
    requires parse(decode(Sanitize(Flatten(ls2))).value, m.powermetrics).Ok?
    ensures var pm := parse(decode(Sanitize(Flatten(ls2))).value, m.powermetrics).value;
      Run(Framer([], Flatten(ls1) + [sep1] + Flatten(ls2) + [sep2], m), decode, parse, DropBadRecord)
        == Waiting(Framer([], [], m.(powermetrics := pm)))
  {
    var pm := parse(decode(Sanitize(Flatten(ls2))).value, m.powermetrics).value;
    var tail2 := Flatten(ls2) + ([sep2] + []);
    calc {
      Run(Framer([], Flatten(ls1) + [sep1] + Flatten(ls2) + [sep2], m), decode, parse, DropBadRecord);
      { assert Flatten(ls1) + [sep1] + Flatten(ls2) + [sep2] == Flatten(ls1) + ([sep1] + tail2); }
      Run(Framer([], Flatten(ls1) + ([sep1] + tail2), m), decode, parse, DropBadRecord);
      { BadRecordDropped(ls1, sep1, tail2, m, decode, parse); }
      Run(Framer([], tail2, m), decode, parse, DropBadRecord);
      { GoodRecord(ls2, sep2, [], m, decode, parse, DropBadRecord); }
      Run(Framer([], [], m.(powermetrics := pm)), decode, parse, DropBadRecord);
    }
  }
}

=== FILE: history.dfy ===
/** The rolling history every rate and energy field of the power-metrics snapshot carries:
    the previous history (or an empty one) with the new sample appended, keeping only the
    most recent MAX_HISTORY_COUNT samples. */
module History {
  import opened Python

  /** `PowerMetricsParser.max_history_count`. */
  const MAX_HISTORY_COUNT: nat := 100

  /** `old or []`: an absent or empty history starts afresh. */
  function Prior<T>(prev: Option<seq<T>>): seq<T> {
    prev.GetOr([])
  }

  /** One history update: `(old or []) + [sample]`, cut to its last 100 entries. */
  function Push<T>(prev: Option<seq<T>>, sample: T): (h: seq<T>)
    ensures 0 < |h| <= MAX_HISTORY_COUNT
    ensures |h| == Min(|Prior(prev)| + 1, MAX_HISTORY_COUNT)
    ensures h[|h| - 1] == sample
    ensures h[..|h| - 1] == Prior(prev)[|Prior(prev)| + 1 - |h|..]
  {
    LastN(Prior(prev) + [sample], MAX_HISTORY_COUNT)
  }

  /** The history after pushing each of `xs` in turn, one parse cycle per sample. */
  function PushAll<T>(prev: Option<seq<T>>, xs: seq<T>): Option<seq<T>>
    decreases |xs|
  {
    if xs == [] then prev else PushAll(Some(Push(prev, xs[0])), xs[1..])
  }

  /** Cutting to the last n elements before appending more changes nothing. */
  lemma LastNAbsorbs<T>(a: seq<T>, b: seq<T>, n: nat)
    requires n > 0
    ensures LastN(LastN(a, n) + b, n) == LastN(a + b, n)
  {
    var a' := LastN(a, n);
    assert a' == a[|a| - |a'|..];
    var k := |a| - |a'|;
    assert a + b == a[..k] + (a' + b);
  }

  /** After any number of cycles the history is exactly the last 100 of everything
      pushed since it was last empty, so it never exceeds its capacity and ends with the
      newest sample. */
  lemma {:induction false} PushAllIsLastWindow<T>(prev: Option<seq<T>>, xs: seq<T>)
    requires xs != []
    ensures PushAll(prev, xs) == Some(LastN(Prior(prev) + xs, MAX_HISTORY_COUNT))
    decreases |xs|
  {
    var h := Push(prev, xs[0]);
    assert h == LastN(Prior(prev) + [xs[0]], MAX_HISTORY_COUNT);
    if |xs| == 1 {
      assert Prior(prev) + xs == Prior(prev) + [xs[0]];
    } else {
      calc {
        PushAll(prev, xs);
        PushAll(Some(h), xs[1..]);
        { PushAllIsLastWindow(Some(h), xs[1..]); }
        Some(LastN(h + xs[1..], MAX_HISTORY_COUNT));
        { LastNAbsorbs(Prior(prev) + [xs[0]], xs[1..], MAX_HISTORY_COUNT); }
        Some(LastN(Prior(prev) + [xs[0]] + xs[1..], MAX_HISTORY_COUNT));
        { assert Prior(prev) + [xs[0]] + xs[1..] == Prior(prev) + xs; }
        Some(LastN(Prior(prev) + xs, MAX_HISTORY_COUNT));
      }
    }
  }

  /** Pushing the samples 1..150 into an absent history leaves 51..150. */
  lemma OneHundredFiftyPushes()
    ensures PushAll(None, seq(150, i => i + 1)) == Some(seq(100, i => i + 51))
  {
    var xs := seq(150, i => i + 1);
    PushAllIsLastWindow(None, xs);
    assert Prior<int>(None) + xs == xs;
    assert xs[50..] == seq(100, i => i + 51);
  }
}

=== FILE: ioreg.dfy ===
/** The ioreg collector (`IORegParser` and `run_ioreg_periodic`): the battery record is
    the first element of the decoded document; eight of its keys are mandatory, the
    capacity history grows by one timestamped sample per parse, and the adapter details
    are read only while an adapter is connected. */
module IOReg {
  import opened Python
  import opened Snapshots
  import opened Store
  import opened History

  /** The keys `parse_apple_smart_battery` subscripts, in order. */
  const BATTERY_KEYS: seq<string> := [
    "AppleRawCurrentCapacity", "AppleRawMaxCapacity", "DesignCapacity", "Temperature",
    "CycleCount", "ExternalChargeCapable", "ExternalConnected", "IsCharging"]

  /** The keys `parse_apple_smart_battery_adapter_details` copies. */
  const ADAPTER_KEYS: seq<string> := [
    "AdapterVoltage", "Current", "Watts", "Description", "Manufacturer", "Name"]

  /** `parse_apple_smart_battery_adapter_details`: each of the six fields is copied when
      its key is present (a property list holds no None), and every other key is ignored. */
  function ParseAdapterDetails(details: PValue): (r: Result<AdapterDetails>)
    ensures r.Ok? <==> details.PDict?
    ensures r.Ok? ==> r.value.adapterVoltage == Lookup(details.entries, "AdapterVoltage")
    ensures r.Ok? ==> r.value.current == Lookup(details.entries, "Current")
    ensures r.Ok? ==> r.value.watts == Lookup(details.entries, "Watts")
    ensures r.Ok? ==> r.value.description == Lookup(details.entries, "Description")
    ensures r.Ok? ==> r.value.manufacturer == Lookup(details.entries, "Manufacturer")
    ensures r.Ok? ==> r.value.name == Lookup(details.entries, "Name")
  {
    match details
    case PDict(es) =>
      Ok(AdapterDetails(
        Lookup(es, "AdapterVoltage"), Lookup(es, "Current"), Lookup(es, "Watts"),
        Lookup(es, "Description"), Lookup(es, "Manufacturer"), Lookup(es, "Name")))
    case _ => Err(AttributeError)
  }

  /** Keys other than the six adapter fields (AdapterID, FamilyCode, ...) do not change
      the parsed adapter details. */
  lemma AdapterIgnoresOtherKeys(es: seq<(string, PValue)>, k: string, v: PValue)
    requires k !in ADAPTER_KEYS
    ensures ParseAdapterDetails(PDict(es + [(k, v)])) == ParseAdapterDetails(PDict(es))
  {
    forall a | a in ADAPTER_KEYS
      ensures Lookup(es + [(k, v)], a) == Lookup(es, a)
    {
      LookupAppendOther(es, k, v, a);
    }
  }

  /** An adapter record holding none of the six fields parses to the all-None record. */
  lemma AdapterWithoutFields(es: seq<(string, PValue)>)
    requires forall i :: 0 <= i < |es| ==> es[i].0 !in ADAPTER_KEYS
    ensures ParseAdapterDetails(PDict(es)) == Ok(FreshAdapterDetails)
  {
    forall a | a in ADAPTER_KEYS
      ensures !HasKey(es, a)
    {
    }
  }

  /** The record of a machine with no charger attached, `{"FamilyCode": 0}`, parses to
      the all-None adapter details. */
  lemma NoCharger()
    ensures ParseAdapterDetails(PDict([("FamilyCode", PInt(0))])) == Ok(FreshAdapterDetails)
  {
    AdapterWithoutFields([("FamilyCode", PInt(0))]);
  }

  /** The previous capacity history, read through the previous snapshot's
      `apple_smart_battery`; a power-metrics snapshot in the slot has no such attribute. */
  function PreviousHistory(prev: IORegSlot): (r: Result<Option<seq<(real, PValue)>>>)
    ensures prev.IORegHeld? ==> r == Ok(prev.io.appleSmartBattery.batteryCapacityHistory)
    ensures prev.PowerHeld? ==> r == Err(AttributeError)
  {
    match prev
    case IORegHeld(io) => Ok(io.appleSmartBattery.batteryCapacityHistory)
    case PowerHeld(_) => Err(AttributeError)
  }

  /** All eight mandatory keys are present. */
  predicate HasBatteryKeys(es: seq<(string, PValue)>) {
    forall k :: k in BATTERY_KEYS ==> HasKey(es, k)
  }

  /** `parse_apple_smart_battery` with the clock reading `now`. */
  function ParseAppleSmartBattery(battery: PValue, prev: IORegSlot, now: real): (r: Result<AppleSmartBattery>)
    ensures !battery.PDict? ==> r == Err(TypeError)
    ensures battery.PDict? && !HasBatteryKeys(battery.entries) ==> r == Err(KeyError)
    ensures r.Ok? ==> battery.PDict? && HasBatteryKeys(battery.entries) && prev.IORegHeld?
    ensures battery.PDict? && HasBatteryKeys(battery.entries) && prev.IORegHeld?
            && !TruthyOpt(Lookup(battery.entries, "ExternalConnected")) ==>
      r.Ok?
    ensures r.Ok? ==>
      && r.value.appleRawCurrentCapacity == Lookup(battery.entries, "AppleRawCurrentCapacity")
      && r.value.appleRawMaxCapacity == Lookup(battery.entries, "AppleRawMaxCapacity")
      && r.value.designCapacity == Lookup(battery.entries, "DesignCapacity")
      && r.value.temperature == Lookup(battery.entries, "Temperature")
      && r.value.cycleCount == Lookup(battery.entries, "CycleCount")
      && r.value.externalChargeCable == Lookup(battery.entries, "ExternalChargeCapable")
      && r.value.externalConnected == Lookup(battery.entries, "ExternalConnected")
      && r.value.isCharging == Lookup(battery.entries, "IsCharging")
    ensures r.Ok? ==>
      var before := Prior(prev.io.appleSmartBattery.batteryCapacityHistory);
      && r.value.batteryCapacityHistory.Some?
      && |r.value.batteryCapacityHistory.value| == |before| + 1
      && r.value.batteryCapacityHistory.value[..|before|] == before
      && r.value.batteryCapacityHistory.value[|before|]
         == (now, Lookup(battery.entries, "AppleRawCurrentCapacity").value)
    ensures r.Ok? && TruthyOpt(Lookup(battery.entries, "ExternalConnected")) ==>
      && HasKey(battery.entries, "AdapterDetails")
      && ParseAdapterDetails(Lookup(battery.entries, "AdapterDetails").value) == Ok(r.value.adapterDetails)
    ensures r.Ok? && !TruthyOpt(Lookup(battery.entries, "ExternalConnected")) ==>
      r.value.adapterDetails == FreshAdapterDetails
    ensures battery.PDict? && HasBatteryKeys(battery.entries) && prev.IORegHeld?
            && TruthyOpt(Lookup(battery.entries, "ExternalConnected"))
            && !HasKey(battery.entries, "AdapterDetails") ==>
      r == Err(KeyError)
  {
    match battery
    case PDict(es) =>
      // Every missing key raises the same KeyError, so checking them together is
      // checking them one after the other.
      if !HasBatteryKeys(es) then Err(KeyError)
      else
        var current := Lookup(es, "AppleRawCurrentCapacity");
        var connected := Lookup(es, "ExternalConnected");
        assert BATTERY_KEYS[0] == "AppleRawCurrentCapacity";
        var old_history :- PreviousHistory(prev);
        var history := Prior(old_history) + [(now, current.value)];
        var a := AppleSmartBattery(
          current, Lookup(es, "AppleRawMaxCapacity"), Lookup(es, "DesignCapacity"),
          Lookup(es, "Temperature"), Lookup(es, "CycleCount"), Lookup(es, "ExternalChargeCapable"),
          connected, Lookup(es, "IsCharging"), FreshAdapterDetails, Some(history));
        if TruthyOpt(connected) then
          var detailsRaw :- Subscript(battery, "AdapterDetails");
          var details :- ParseAdapterDetails(detailsRaw);
          Ok(a.(adapterDetails := details))
        else Ok(a)
    case _ => Err(TypeError)
  }

  /** `IORegParser.parse`: the battery is the first element of the decoded document. */
  function Parse(raw: PValue, prev: IORegSlot, now: real): (r: Result<IORegMetrics>)
    ensures raw.PArray? && raw.items == [] ==> r == Err(IndexError)
    ensures raw.PDict? ==> r == Err(KeyError)
    ensures r.Ok? ==> SubscriptIndex(raw, 0).Ok?
                      && ParseAppleSmartBattery(SubscriptIndex(raw, 0).value, prev, now) == Ok(r.value.appleSmartBattery)
    ensures raw.PArray? && raw.items != [] ==>
      r == (var b :- ParseAppleSmartBattery(raw.items[0], prev, now); Ok(IORegMetrics(b)))
  {
    var batteryRaw :- SubscriptIndex(raw, 0);
    var battery :- ParseAppleSmartBattery(batteryRaw, prev, now);
    Ok(IORegMetrics(battery))
  }

  /** Two documents whose first elements agree parse alike: later elements are ignored. */
  lemma OnlyFirstElementRead(xs: seq<PValue>, ys: seq<PValue>, prev: IORegSlot, now: real)
    requires xs != [] && ys != [] && xs[0] == ys[0]
    ensures Parse(PArray(xs), prev, now) == Parse(PArray(ys), prev, now)
  {
  }

  /** One pass of `run_ioreg_periodic` as the loop sees it: whether the stop event is set
      when the loop tests it, the decoded ioreg output (None when the decoder raises), and
      the clock reading. */
  datatype Cycle = Cycle(stopSet: bool, document: Option<PValue>, now: real)

  /** How the collector thread ends over a finite sequence of passes. */
  datatype LoopEnd =
    | Stopped(m: Metrics)                // the stop event was seen at the top of a pass
    | Crashed(error: PyError, m: Metrics) // an exception escaped and ended the thread
    | Running(m: Metrics)                // the passes ran out with the loop still going

  /** `run_ioreg_periodic`: the stop event is tested only at the top of each pass; each
      pass decodes, parses against the stored snapshot and assigns the ioreg slot. */
  function RunIORegPeriodic(cycles: seq<Cycle>, m: Metrics): (r: LoopEnd)
    ensures cycles == [] ==> r == Running(m)
    ensures cycles != [] && cycles[0].stopSet ==> r == Stopped(m)
    ensures cycles != [] && !cycles[0].stopSet && cycles[0].document.None? ==> r == Crashed(ValueError, m)
    ensures cycles != [] && !cycles[0].stopSet && cycles[0].document.Some? ==>
      var io := Parse(cycles[0].document.value, m.ioregmetrics, cycles[0].now);
      && (io.Err? ==> r == Crashed(io.error, m))
      && (io.Ok? ==> r == RunIORegPeriodic(cycles[1..], m.(ioregmetrics := IORegHeld(io.value))))
    ensures r.m.powermetrics == m.powermetrics && r.m.psutilmetrics == m.psutilmetrics
    decreases |cycles|
  {
    if cycles == [] then Running(m)
    else
      var c := cycles[0];
      if c.stopSet then Stopped(m)
      else match c.document
        case None => Crashed(ValueError, m)
        case Some(doc) =>
          match Parse(doc, m.ioregmetrics, c.now)
          case Err(e) => Crashed(e, m)
          case Ok(io) => RunIORegPeriodic(cycles[1..], m.(ioregmetrics := IORegHeld(io)))
  }

  /** Once the thread has stopped or crashed, no later pass has any effect. */
  lemma {:induction false} EndIsFinal(cycles: seq<Cycle>, extra: seq<Cycle>, m: Metrics)
    requires !RunIORegPeriodic(cycles, m).Running?
    ensures RunIORegPeriodic(cycles + extra, m) == RunIORegPeriodic(cycles, m)
    decreases |cycles|
  {
    var c := cycles[0];
    if !c.stopSet && c.document.Some? && Parse(c.document.value, m.ioregmetrics, c.now).Ok? {
      var m' := m.(ioregmetrics := IORegHeld(Parse(c.document.value, m.ioregmetrics, c.now).value));
      FirstPassContinues(cycles, extra, m);
      EndIsFinal(cycles[1..], extra, m');
    } else {
      FirstPassEnds(cycles, extra, m);
    }
  }

  /** A first pass that stops or raises decides the run, whatever follows it. */
  lemma FirstPassEnds(cycles: seq<Cycle>, extra: seq<Cycle>, m: Metrics)
    requires cycles != []
    requires var c := cycles[0];
      c.stopSet || c.document.None? || Parse(c.document.value, m.ioregmetrics, c.now).Err?
    ensures RunIORegPeriodic(cycles + extra, m) == RunIORegPeriodic(cycles, m)
  {
    assert (cycles + extra)[0] == cycles[0];
  }

  /** A first pass that parses hands on the same store to the rest, whatever follows. */
  lemma FirstPassContinues(cycles: seq<Cycle>, extra: seq<Cycle>, m: Metrics)
    requires cycles != []
    requires var c := cycles[0];
      !c.stopSet && c.document.Some? && Parse(c.document.value, m.ioregmetrics, c.now).Ok?
    ensures var c := cycles[0];
      var m' := m.(ioregmetrics := IORegHeld(Parse(c.document.value, m.ioregmetrics, c.now).value));
      && RunIORegPeriodic(cycles, m) == RunIORegPeriodic(cycles[1..], m')
      && RunIORegPeriodic(cycles + extra, m) == RunIORegPeriodic(cycles[1..] + extra, m')
  {
    var c := cycles[0];
    var all := cycles + extra;
    var io := Parse(c.document.value, m.ioregmetrics, c.now);
    assert all != [] && all[0] == c;
    assert all[1..] == cycles[1..] + extra;
    assert RunIORegPeriodic(all, m) == RunIORegPeriodic(all[1..], m.(ioregmetrics := IORegHeld(io.value)));
  }

  /** A battery record that parses against any previous ioreg snapshot. */
  predicate GoodBattery(b: PValue) {
    && b.PDict?
    && HasBatteryKeys(b.entries)
    && (TruthyOpt(Lookup(b.entries, "ExternalConnected")) ==>
          HasKey(b.entries, "AdapterDetails") && Lookup(b.entries, "AdapterDetails").value.PDict?)
  }

  /** A pass that runs and parses: not stopped, and a non-empty list whose first element
      is a good battery record. */
  predicate GoodCycle(c: Cycle) {
    && !c.stopSet
    && c.document.Some? && c.document.value.PArray? && c.document.value.items != []
    && GoodBattery(c.document.value.items[0])
  }

  lemma GoodBatteryParses(b: PValue, prev: IORegSlot, now: real)
    requires GoodBattery(b) && prev.IORegHeld?
    ensures ParseAppleSmartBattery(b, prev, now).Ok?
  {
  }

  function HistoryLength(m: Metrics): nat {
    match m.ioregmetrics
    case IORegHeld(io) => |Prior(io.appleSmartBattery.batteryCapacityHistory)|
    case PowerHeld(_) => 0
  }

  /** The capacity history has no cap: after n passes that parse, it is exactly n samples
      longer than before. */
  lemma {:induction false} HistoryGrowsWithoutBound(cycles: seq<Cycle>, m: Metrics)
    requires m.ioregmetrics.IORegHeld?
    requires forall i :: 0 <= i < |cycles| ==> GoodCycle(cycles[i])
    ensures RunIORegPeriodic(cycles, m).Running?
    ensures HistoryLength(RunIORegPeriodic(cycles, m).m) == HistoryLength(m) + |cycles|
    decreases |cycles|
  {
    if cycles != [] {
      var c := cycles[0];
      var b := c.document.value.items[0];
      GoodBatteryParses(b, m.ioregmetrics, c.now);
      var io := Parse(c.document.value, m.ioregmetrics, c.now).value;
      var m' := m.(ioregmetrics := IORegHeld(io));
      assert HistoryLength(m') == HistoryLength(m) + 1;
      assert forall i :: 0 <= i < |cycles| - 1 ==> cycles[1..][i] == cycles[i + 1];
      HistoryGrowsWithoutBound(cycles[1..], m');
    }
  }

  /** With the power-metrics setter as written, the ioreg slot holds a power-metrics
      snapshot and the next ioreg parse raises AttributeError. */
  lemma SetPowermetricsBreaksIOReg(m: Metrics, p: PowerMetrics, b: PValue, now: real)
    requires b.PDict? && HasBatteryKeys(b.entries)
    ensures ParseAppleSmartBattery(b, SetPowermetrics(m, p).ioregmetrics, now) == Err(AttributeError)
  {
  }
}

=== FILE: layout.dfy ===
/** The XML layout loader: the layout file's tree of tagged elements becomes a tree of
    widgets to construct, each tag looked up first among the panels, then among the
    layouts. */
module LayoutLoader {
  import opened Python

  /** An XML element: its tag, its attributes in document order, its text (None when it
      has none) and its child elements. */
  datatype Node = Node(tag: string, attrs: seq<(string, string)>, text: Option<string>, children: seq<Node>)

  /** A keyword argument: an attribute's text, or the loader's refresh interval. */
  datatype Arg = Attr(s: string) | Interval(seconds: real)

  /** Keyword arguments as a Python dict: names and values in insertion order. */
  type Kwargs = seq<(string, Arg)>

  datatype Kind = Panel | Layout

  /** A widget to construct: the class registered for `tag`, its positional arguments
      (a layout's composed children) and its keyword arguments. */
  datatype Widget = Widget(tag: string, kind: Kind, args: seq<Widget>, kwargs: Kwargs)

  /** The tags registered in `PANELS` and in `LAYOUTS`. */
  datatype Registry = Registry(panels: set<string>, layouts: set<string>)

  const CLASS := "class"
  const CLASSES := "classes"
  const REFRESH_INTERVAL := "refresh_interval"

  // ---------------------------------------------------------------------------------
  // Python dict operations on the keyword arguments

  predicate DistinctNames(d: Kwargs) {
    forall i, j :: 0 <= i < j < |d| ==> d[i].0 != d[j].0
  }

  predicate HasName(d: Kwargs, k: string) {
    exists i :: 0 <= i < |d| && d[i].0 == k
  }

  /** `d.get(k)`. */
  function Find(d: Kwargs, k: string): (r: Option<Arg>)
    ensures r.Some? <==> HasName(d, k)
    ensures r.Some? ==> (k, r.value) in d
    ensures DistinctNames(d) ==> forall i :: 0 <= i < |d| && d[i].0 == k ==> r == Some(d[i].1)
    decreases |d|
  {
    if d == [] then None
    else if d[0].0 == k then Some(d[0].1)
    else
      assert forall i :: 1 <= i < |d| ==> d[i] == d[1..][i - 1];
      Find(d[1..], k)
  }

  /** `d[k] = v`: the value replaced in place when `k` is there, appended otherwise. */
  function SetItem(d: Kwargs, k: string, v: Arg): (r: Kwargs)
    requires DistinctNames(d)
    ensures DistinctNames(r)
    ensures Find(r, k) == Some(v)
    ensures forall k' :: k' != k ==> Find(r, k') == Find(d, k')
  {
    if HasName(d, k) then
      var r := seq(|d|, i requires 0 <= i < |d| => if d[i].0 == k then (k, v) else d[i]);
      assert forall i :: 0 <= i < |d| ==> r[i].0 == d[i].0;
      assert forall k' :: k' != k ==> (HasName(r, k') <==> HasName(d, k')) by {
        forall k' | k' != k
          ensures HasName(r, k') <==> HasName(d, k')
        {
          if HasName(d, k') {
            var i :| 0 <= i < |d| && d[i].0 == k';
            assert r[i].0 == k';
          }
        }
      }
      var i :| 0 <= i < |d| && d[i].0 == k;
      assert r[i] == (k, v);
      r
    else
      var r := d + [(k, v)];
      assert r[|d|] == (k, v);
      assert forall k' :: k' != k ==> (HasName(r, k') <==> HasName(d, k')) by {
        forall k' | k' != k
          ensures HasName(r, k') <==> HasName(d, k')
        {
          if HasName(d, k') {
            var i :| 0 <= i < |d| && d[i].0 == k';
            assert r[i].0 == k';
          }
        }
      }
      r
  }

  /** `d.pop(k, None)`: the value `k` had, and the dict without it. */
  function Pop(d: Kwargs, k: string): (r: (Option<Arg>, Kwargs))
    requires DistinctNames(d)
    ensures r.0 == Find(d, k)
    ensures DistinctNames(r.1)
    ensures Find(r.1, k).None?
    ensures forall k' :: k' != k ==> Find(r.1, k') == Find(d, k')
  {
    (Find(d, k), Remove(d, k))
  }

  function Remove(d: Kwargs, k: string): (r: Kwargs)
    requires DistinctNames(d)
    ensures DistinctNames(r)
    ensures forall i :: 0 <= i < |r| ==> r[i] in d && r[i].0 != k
    ensures forall i :: 0 <= i < |d| && d[i].0 != k ==> d[i] in r
    decreases |d|
  {
    if d == [] then []
    else
      assert forall i :: 1 <= i < |d| ==> d[i] == d[1..][i - 1];
      var rest := Remove(d[1..], k);
      if d[0].0 == k then rest
      else
        assert forall i :: 0 <= i < |rest| ==> rest[i].0 != d[0].0 by {
          forall i | 0 <= i < |rest|
            ensures rest[i].0 != d[0].0
          {
            var j :| 0 <= j < |d[1..]| && d[1..][j] == rest[i];
            assert d[j + 1] == rest[i];
          }
        }
        [d[0]] + rest
  }

  /** The value an element gives attribute `k`: the last one, as a dict built from the
      attributes keeps it. */
  function AttrValue(attrs: seq<(string, string)>, k: string): (r: Option<string>)
    ensures r.None? <==> forall i :: 0 <= i < |attrs| ==> attrs[i].0 != k
    decreases |attrs|
  {
    if attrs == [] then None
    else if attrs[|attrs| - 1].0 == k then Some(attrs[|attrs| - 1].1)
    else
      assert forall i :: 0 <= i < |attrs| - 1 ==> attrs[..|attrs| - 1][i] == attrs[i];
      AttrValue(attrs[..|attrs| - 1], k)
  }

  function AttrArg(v: Option<string>): Option<Arg> {
    match v
    case Some(s) => Some(Attr(s))
    case None => None
  }

  /** `dict(node.items())`. */
  function DictOf(attrs: seq<(string, string)>): (r: Kwargs)
    ensures DistinctNames(r)
    ensures forall k :: Find(r, k) == AttrArg(AttrValue(attrs, k))
    decreases |attrs|
  {
    if attrs == [] then []
    else
      var n := |attrs| - 1;
      SetItem(DictOf(attrs[..n]), attrs[n].0, Attr(attrs[n].1))
  }

  // ---------------------------------------------------------------------------------
  // One node's keyword arguments

  /** The node's attributes as keyword arguments: `class` renamed to `classes` when it is
      non-empty and dropped when empty; a panel without its own `refresh_interval` gets
      the loader's. */
  function KwargsOf(n: Node, isPanel: bool, interval: real): (r: Kwargs)
    ensures DistinctNames(r)
  {
    var (cls, d) := Pop(DictOf(n.attrs), CLASS);
    var d1 := if cls.Some? && cls.value.Attr? && cls.value.s != "" then SetItem(d, CLASSES, cls.value) else d;
    if !HasName(d1, REFRESH_INTERVAL) && isPanel then SetItem(d1, REFRESH_INTERVAL, Interval(interval)) else d1
  }

  /** The keyword argument a node's widget receives for each name, stated from the
      attributes alone. */
  function ExpectedArg(n: Node, isPanel: bool, interval: real, k: string): Option<Arg> {
    var cls := AttrValue(n.attrs, CLASS);
    if k == CLASS then None
    else if k == CLASSES && cls.Some? && cls.value != "" then Some(Attr(cls.value))
    else if k == REFRESH_INTERVAL && isPanel && AttrValue(n.attrs, k).None? then Some(Interval(interval))
    else AttrArg(AttrValue(n.attrs, k))
  }

  lemma KwargsAsExpected(n: Node, isPanel: bool, interval: real, k: string)
    ensures Find(KwargsOf(n, isPanel, interval), k) == ExpectedArg(n, isPanel, interval, k)
  {
    var d0 := DictOf(n.attrs);
    var (cls, d) := Pop(d0, CLASS);
    assert cls == AttrArg(AttrValue(n.attrs, CLASS));
    var truthy := cls.Some? && cls.value.Attr? && cls.value.s != "";
    var d1 := if truthy then SetItem(d, CLASSES, cls.value) else d;
    assert Find(d1, REFRESH_INTERVAL) == Find(d0, REFRESH_INTERVAL);
    assert HasName(d1, REFRESH_INTERVAL) <==> AttrValue(n.attrs, REFRESH_INTERVAL).Some?;
    if k != CLASS && k != CLASSES {
      assert Find(d1, k) == Find(d0, k);
    }
  }

  // ---------------------------------------------------------------------------------
  // Composition

  /** A node the loader can compose as a child: a panel, or a layout whose children are
      all such nodes. */
  predicate SupportedNode(reg: Registry, c: Node)
    decreases c, 1
  {
    c.tag in reg.panels || (c.tag in reg.layouts && ChildrenSupported(reg, c, 0))
  }

  /** Every child of `n` from the `i`-th on is supported. */
  predicate ChildrenSupported(reg: Registry, n: Node, i: nat)
    requires i <= |n.children|
    decreases n, 0, |n.children| - i
  {
    i == |n.children| || (SupportedNode(reg, n.children[i]) && ChildrenSupported(reg, n, i + 1))
  }

  lemma {:induction false} ChildrenSupportedAll(reg: Registry, n: Node, i: nat)
    requires i <= |n.children|
    ensures ChildrenSupported(reg, n, i) <==> forall k :: i <= k < |n.children| ==> SupportedNode(reg, n.children[k])
    decreases |n.children| - i
  {
    if i < |n.children| {
      ChildrenSupportedAll(reg, n, i + 1);
    }
  }

  /** What a composed child's widget holds, apart from a layout's arguments: the child's
      tag, its kind (a panel whenever the tag is a panel's, even when it is a layout's
      too), no positional arguments for a panel, and the node's keyword arguments. */
  predicate Shaped(reg: Registry, interval: real, c: Node, w: Widget) {
    && w.tag == c.tag
    && (w.kind == Panel <==> c.tag in reg.panels)
    && (c.tag in reg.panels ==> w.args == [])
    && w.kwargs == KwargsOf(c, c.tag in reg.panels, interval)
  }

  /** One child: a panel takes no positional arguments and its children are never looked
      at; a layout takes its own children composed; any other tag raises. */
  function ComposeChild(reg: Registry, interval: real, c: Node): (r: Result<Widget>)
    ensures r.Err? ==> r.error.UnsupportedNode? && r.error.tag !in reg.panels && r.error.tag !in reg.layouts
    decreases c, 1
  {
    var isPanel := c.tag in reg.panels;
    var args: Result<seq<Widget>> :=
      if isPanel then Ok([])
      else if c.tag in reg.layouts then ComposeFrom(reg, interval, c, 0)
      else Err(UnsupportedNode(c.tag));
    match args
    case Err(e) => Err(e)
    case Ok(a) => Ok(Widget(c.tag, if isPanel then Panel else Layout, a, KwargsOf(c, isPanel, interval)))
  }

  /** `compose_body` from the `i`-th child of `layout` on: the children in order; the
      first that raises ends it. */
  function ComposeFrom(reg: Registry, interval: real, layout: Node, i: nat): (r: Result<seq<Widget>>)
    requires i <= |layout.children|
    ensures r.Ok? ==> |r.value| == |layout.children| - i
    ensures r.Err? ==> r.error.UnsupportedNode? && r.error.tag !in reg.panels && r.error.tag !in reg.layouts
    decreases layout, 0, |layout.children| - i
  {
    if i == |layout.children| then Ok([])
    else
      match ComposeChild(reg, interval, layout.children[i])
      case Err(e) => Err(e)
      case Ok(w) =>
        match ComposeFrom(reg, interval, layout, i + 1)
        case Err(e) => Err(e)
        case Ok(ws) => Ok([w] + ws)
  }

  lemma ComposeChildShaped(reg: Registry, interval: real, c: Node)
    requires ComposeChild(reg, interval, c).Ok?
    ensures Shaped(reg, interval, c, ComposeChild(reg, interval, c).value)
  {
  }

  /** Each widget is shaped by the child at its position, in order. */
  predicate ShapedSeq(reg: Registry, interval: real, cs: seq<Node>, ws: seq<Widget>)
    decreases |cs|
  {
    if cs == [] then ws == []
    else
      && ws != []
      && Shaped(reg, interval, cs[0], ws[0])
      && ShapedSeq(reg, interval, cs[1..], ws[1..])
  }

  lemma {:induction false} ComposeFromShaped(reg: Registry, interval: real, layout: Node, i: nat)
    requires i <= |layout.children|
    requires ComposeFrom(reg, interval, layout, i).Ok?
    ensures ShapedSeq(reg, interval, layout.children[i..], ComposeFrom(reg, interval, layout, i).value)
    decreases |layout.children| - i
  {
    if i < |layout.children| {
      var c := layout.children[i];
      var w := ComposeChild(reg, interval, c).value;
      var rest := ComposeFrom(reg, interval, layout, i + 1).value;
      var ws := ComposeFrom(reg, interval, layout, i).value;
      assert ws == [w] + rest;
      assert ws[1..] == rest;
      assert layout.children[i..][1..] == layout.children[i + 1..];
      ComposeChildShaped(reg, interval, c);
      ComposeFromShaped(reg, interval, layout, i + 1);
    }
  }

  /** The recursive shape, pointwise. */
  lemma ShapedSeqAll(reg: Registry, interval: real, cs: seq<Node>, ws: seq<Widget>)
    requires ShapedSeq(reg, interval, cs, ws)
    ensures |ws| == |cs|
    ensures forall k :: 0 <= k < |ws| ==> Shaped(reg, interval, cs[k], ws[k])
  {
    ShapedSeqLength(reg, interval, cs, ws);
    forall k | 0 <= k < |ws|
      ensures Shaped(reg, interval, cs[k], ws[k])
    {
      ShapedSeqAt(reg, interval, cs, ws, k);
    }
  }

  lemma {:induction false} ShapedSeqLength(reg: Registry, interval: real, cs: seq<Node>, ws: seq<Widget>)
    requires ShapedSeq(reg, interval, cs, ws)
    ensures |ws| == |cs|
    decreases |cs|
  {
    if cs != [] {
      ShapedSeqLength(reg, interval, cs[1..], ws[1..]);
    }
  }

  lemma {:induction false} ShapedSeqAt(reg: Registry, interval: real, cs: seq<Node>, ws: seq<Widget>, k: nat)
    requires ShapedSeq(reg, interval, cs, ws) && k < |cs|
    ensures k < |ws| && Shaped(reg, interval, cs[k], ws[k])
    decreases k
  {
    if k > 0 {
      ShapedSeqAt(reg, interval, cs[1..], ws[1..], k - 1);
      assert cs[1..][k - 1] == cs[k] && ws[1..][k - 1] == ws[k];
    }
  }

  /** `compose_body`: one widget per child element, in document order, when every child
      is supported. */
  function ComposeBody(reg: Registry, interval: real, layout: Node): (r: Result<seq<Widget>>)
    ensures r.Ok? ==> |r.value| == |layout.children|
    ensures r.Err? ==> r.error.UnsupportedNode? && r.error.tag !in reg.panels && r.error.tag !in reg.layouts
  {
    ComposeFrom(reg, interval, layout, 0)
  }

  /** The widgets of a composed body, child by child. */
  lemma ComposeBodyShaped(reg: Registry, interval: real, layout: Node)
    requires ComposeBody(reg, interval, layout).Ok?
    ensures var ws := ComposeBody(reg, interval, layout).value;
      forall k :: 0 <= k < |ws| ==> Shaped(reg, interval, layout.children[k], ws[k])
  {
    ComposeFromShaped(reg, interval, layout, 0);
    assert layout.children[0..] == layout.children;
    ShapedSeqAll(reg, interval, layout.children, ComposeBody(reg, interval, layout).value);
  }

  /** A child composes exactly when it is supported: every tag it leads to below a
      layout is registered. */
  lemma {:induction false} ComposeChildSupported(reg: Registry, interval: real, c: Node)
    ensures ComposeChild(reg, interval, c).Ok? <==> SupportedNode(reg, c)
    decreases c, 1
  {
    if c.tag !in reg.panels && c.tag in reg.layouts {
      ComposeFromSupported(reg, interval, c, 0);
    }
  }

  lemma {:induction false} ComposeFromSupported(reg: Registry, interval: real, layout: Node, i: nat)
    requires i <= |layout.children|
    ensures ComposeFrom(reg, interval, layout, i).Ok? <==> ChildrenSupported(reg, layout, i)
    decreases layout, 0, |layout.children| - i
  {
    if i < |layout.children| {
      ComposeChildSupported(reg, interval, layout.children[i]);
      ComposeFromSupported(reg, interval, layout, i + 1);
    }
  }

  /** `compose_body` succeeds exactly when every child is supported. */
  lemma ComposeBodySupported(reg: Registry, interval: real, layout: Node)
    ensures ComposeBody(reg, interval, layout).Ok? <==>
      forall k :: 0 <= k < |layout.children| ==> SupportedNode(reg, layout.children[k])
  {
    ComposeFromSupported(reg, interval, layout, 0);
    ChildrenSupportedAll(reg, layout, 0);
  }

  /** A panel tag wins over a layout tag: the node becomes a panel, and its children are
      never looked at, so it composes whatever they are. */
  lemma PanelFirst(reg: Registry, interval: real, c: Node)
    requires c.tag in reg.panels
    ensures ComposeChild(reg, interval, c).Ok?
    ensures ComposeChild(reg, interval, c).value.kind == Panel && ComposeChild(reg, interval, c).value.args == []
  {
  }

  /** A layout widget's positional arguments are its own node's children composed. */
  lemma LayoutArgsComposed(reg: Registry, interval: real, c: Node)
    requires ComposeChild(reg, interval, c).Ok? && c.tag !in reg.panels
    ensures c.tag in reg.layouts
    ensures ComposeBody(reg, interval, c) == Ok(ComposeChild(reg, interval, c).value.args)
  {
  }

  // ---------------------------------------------------------------------------------
  // Loading a file

  /** `root.find(tag)`: the first child element with the tag. */
  function FindChild(children: seq<Node>, tag: string): (r: Option<Node>)
    ensures r.Some? ==> exists i :: (0 <= i < |children| && children[i] == r.value && r.value.tag == tag
      && forall j :: 0 <= j < i ==> children[j].tag != tag)
    ensures r.None? <==> forall i :: 0 <= i < |children| ==> children[i].tag != tag
    decreases |children|
  {
    if children == [] then None
    else if children[0].tag == tag then Some(children[0])
    else
      var r := FindChild(children[1..], tag);
      assert forall i :: 1 <= i < |children| ==> children[i] == children[1..][i - 1];
      assert r.Some? ==> exists i :: (0 <= i < |children| && children[i] == r.value && r.value.tag == tag
        && forall j :: 0 <= j < i ==> children[j].tag != tag) by {
        if r.Some? {
          var i :| 0 <= i < |children[1..]| && children[1..][i] == r.value && r.value.tag == tag
            && forall j :: 0 <= j < i ==> children[1..][j].tag != tag;
          assert children[i + 1] == r.value;
          assert forall j :: 0 <= j < i + 1 ==> children[j].tag != tag by {
            forall j | 0 <= j < i + 1
              ensures children[j].tag != tag
            {
              if j > 0 {
                assert children[j] == children[1..][j - 1];
              }
            }
          }
        }
      }
      r
  }

  /** The style sheet: the text of the first `style` element, or empty when there is no
      such element or it has no text. */
  function Css(root: Node): (css: string)
    ensures FindChild(root.children, "style").None? ==> css == ""
    ensures FindChild(root.children, "style").Some? ==> css == FindChild(root.children, "style").value.text.GetOr("")
    ensures forall i :: (0 <= i < |root.children| && root.children[i].tag == "style"
                         && forall j :: 0 <= j < i ==> root.children[j].tag != "style") ==>
      css == root.children[i].text.GetOr("")
    ensures css != "" ==> exists i :: (0 <= i < |root.children| && root.children[i].tag == "style"
      && root.children[i].text == Some(css) && forall j :: 0 <= j < i ==> root.children[j].tag != "style")
  {
    match FindChild(root.children, "style")
    case Some(style) => (match style.text case Some(t) => t case None => "")
    case None => ""
  }

  /** `load` after the file is parsed: the widgets of the first `layout` element and the
      style sheet. Without a `layout` element, iterating None raises TypeError. */
  function Load(reg: Registry, interval: real, root: Node): (r: Result<(seq<Widget>, string)>)
    ensures FindChild(root.children, "layout").None? ==> r == Err(TypeError)
    ensures r.Ok? ==> r.value.1 == Css(root)
    ensures r.Ok? ==> ComposeBody(reg, interval, FindChild(root.children, "layout").value) == Ok(r.value.0)
    ensures FindChild(root.children, "layout").Some? ==>
      var body := ComposeBody(reg, interval, FindChild(root.children, "layout").value);
      && (r.Ok? <==> body.Ok?)
      && (body.Err? ==> r == Err(body.error))
  {
    var css := Css(root);
    match FindChild(root.children, "layout")
    case None => Err(TypeError)
    case Some(layout) =>
      match ComposeBody(reg, interval, layout)
      case Err(e) => Err(e)
      case Ok(ws) => Ok((ws, css))
  }
}

=== FILE: powermetrics_parser.dfy ===
/** `PowerMetricsParser`: maps one decoded powermetrics document, together with the
    previous snapshot (whose histories it carries forward), to a new snapshot. */
module PowerMetricsParser {
  import opened Python
  import opened Snapshots
  import opened History

  /** The history `h` is the previous history `prev` (or an empty one) with `sample`
      appended, cut to the last MAX_HISTORY_COUNT entries. */
  predicate Extends<T(==)>(h: Option<seq<T>>, prev: Option<seq<T>>, sample: T) {
    && h.Some?
    && |h.value| == Min(|Prior(prev)| + 1, MAX_HISTORY_COUNT)
    && h.value[|h.value| - 1] == sample
    && h.value[..|h.value| - 1] == Prior(prev)[|Prior(prev)| + 1 - |h.value|..]
  }

  /** A history update is exactly one `Push`: `Extends` holds of it and of nothing else. */
  lemma ExtendsIsPush<T>(h: Option<seq<T>>, prev: Option<seq<T>>, sample: T)
    ensures Extends(h, prev, sample) <==> h == Some(Push(prev, sample))
  {
    if Extends(h, prev, sample) {
      ExtendsOnlyPush(h, prev, sample);
    } else {
      assert Extends(Pushed(prev, sample), prev, sample);
    }
  }

  lemma ExtendsOnlyPush<T>(h: Option<seq<T>>, prev: Option<seq<T>>, sample: T)
    requires Extends(h, prev, sample)
    ensures h == Some(Push(prev, sample))
  {
    SameFrontSameLast(h.value, Push(prev, sample));
  }

  /** Two non-empty sequences of one length that agree on all but the last element and
      on the last element are equal. */
  lemma SameFrontSameLast<T>(a: seq<T>, b: seq<T>)
    requires |a| == |b| > 0
    requires a[..|a| - 1] == b[..|b| - 1] && a[|a| - 1] == b[|b| - 1]
    ensures a == b
  {
    assert a == a[..|a| - 1] + [a[|a| - 1]];
    assert b == b[..|b| - 1] + [b[|b| - 1]];
  }

  /** The history after one update, as the parser stores it. */
  function Pushed<T>(prev: Option<seq<T>>, sample: T): (h: Option<seq<T>>)
    ensures Extends(h, prev, sample)
  {
    Some(Push(prev, sample))
  }

  /** `value` if it is truthy, else None: how `smc` copies its readings. */
  function IfTruthy(v: Sample): (r: Sample)
    ensures r.Some? <==> TruthyOpt(v)
    ensures r.Some? ==> r == v
  {
    if TruthyOpt(v) then v else None
  }

  /** `parse_powermetrics_backlight`: `int(backlight["value"])` when `backlight` is
      present and truthy, else None. */
  function ParseBacklight(raw: PValue): (r: Result<Option<int>>)
    ensures !raw.PDict? ==> r == Err(AttributeError)
    ensures raw.PDict? && !TruthyOpt(Lookup(raw.entries, "backlight")) ==> r == Ok(None)
    ensures raw.PDict? && TruthyOpt(Lookup(raw.entries, "backlight"))
            ==> (var b := Lookup(raw.entries, "backlight").value;
                 r.Ok? <==> b.PDict? && HasKey(b.entries, "value")
                            && IntOf(Lookup(b.entries, "value").value).Ok?)
    ensures r.Ok? && r.value.Some? ==> (var b := Lookup(raw.entries, "backlight").value;
              IntOf(Lookup(b.entries, "value").value) == Ok(r.value.value))
  {
    var backlight :- Get(raw, "backlight");
    if TruthyOpt(backlight) then
      var v :- Subscript(backlight.value, "value");
      var n :- IntOf(v);
      Ok(Some(n))
    else Ok(None)
  }

  /** `parse_smc`: each of cpu_die, gpu_die and fan is copied only when truthy. */
  function ParseSmc(data: PValue): (r: Result<Smc>)
    ensures r.Ok? <==> data.PDict?
    ensures r.Ok? ==> r.value.cpuDie == IfTruthy(Lookup(data.entries, "cpu_die"))
    ensures r.Ok? ==> r.value.gpuDie == IfTruthy(Lookup(data.entries, "gpu_die"))
    ensures r.Ok? ==> r.value.fan == IfTruthy(Lookup(data.entries, "fan"))
  {
    match data
    case PDict(es) =>
      Ok(FreshSmc.(cpuDie := IfTruthy(Lookup(es, "cpu_die")),
                   gpuDie := IfTruthy(Lookup(es, "gpu_die")),
                   fan := IfTruthy(Lookup(es, "fan"))))
    case _ => Err(AttributeError)
  }

  /** `parse_network`: four rates, each appended to its history even when absent. */
  function ParseNetwork(network: PValue, prev: PowerMetrics): (r: Result<Network>)
    ensures r.Ok? <==> network.PDict?
    ensures r.Ok? ==>
      && r.value.ibyteRate == Lookup(network.entries, "ibyte_rate")
      && r.value.obyteRate == Lookup(network.entries, "obyte_rate")
      && r.value.ipacketRate == Lookup(network.entries, "ipacket_rate")
      && r.value.opacketRate == Lookup(network.entries, "opacket_rate")
    ensures r.Ok? ==>
      && Extends(r.value.ibyteRateHistory, prev.network.ibyteRateHistory, r.value.ibyteRate)
      && Extends(r.value.obyteRateHistory, prev.network.obyteRateHistory, r.value.obyteRate)
      && Extends(r.value.ipacketRateHistory, prev.network.ipacketRateHistory, r.value.ipacketRate)
      && Extends(r.value.opacketRateHistory, prev.network.opacketRateHistory, r.value.opacketRate)
  {
    match network
    case PDict(es) =>
      var ibyte := Lookup(es, "ibyte_rate");
      var obyte := Lookup(es, "obyte_rate");
      var ipacket := Lookup(es, "ipacket_rate");
      var opacket := Lookup(es, "opacket_rate");
      var p := prev.network;
      Ok(Network(
        ipacket, opacket, ibyte, obyte,
        Pushed(p.ipacketRateHistory, ipacket),
        Pushed(p.opacketRateHistory, opacket),
        Pushed(p.ibyteRateHistory, ibyte),
        Pushed(p.obyteRateHistory, obyte)))
    case _ => Err(AttributeError)
  }

  /** `parse_disk`: four rates, each appended to its history even when absent. */
  function ParseDisk(disk: PValue, prev: PowerMetrics): (r: Result<Disk>)
    ensures r.Ok? <==> disk.PDict?
    ensures r.Ok? ==>
      && r.value.rbytesPerS == Lookup(disk.entries, "rbytes_per_s")
      && r.value.wbytesPerS == Lookup(disk.entries, "wbytes_per_s")
      && r.value.ropsPerS == Lookup(disk.entries, "rops_per_s")
      && r.value.wopsPerS == Lookup(disk.entries, "wops_per_s")
    ensures r.Ok? ==>
      && Extends(r.value.rbytesPerSHistory, prev.disk.rbytesPerSHistory, r.value.rbytesPerS)
      && Extends(r.value.wbytesPerSHistory, prev.disk.wbytesPerSHistory, r.value.wbytesPerS)
      && Extends(r.value.ropsPerSHistory, prev.disk.ropsPerSHistory, r.value.ropsPerS)
      && Extends(r.value.wopsPerSHistory, prev.disk.wopsPerSHistory, r.value.wopsPerS)
  {
    match disk
    case PDict(es) =>
      var rbytes := Lookup(es, "rbytes_per_s");
      var wbytes := Lookup(es, "wbytes_per_s");
      var rops := Lookup(es, "rops_per_s");
      var wops := Lookup(es, "wops_per_s");
      var p := prev.disk;
      Ok(Disk(
        rops, wops, rbytes, wbytes,
        Pushed(p.ropsPerSHistory, rops),
        Pushed(p.wopsPerSHistory, wops),
        Pushed(p.rbytesPerSHistory, rbytes),
        Pushed(p.wbytesPerSHistory, wbytes)))
    case _ => Err(AttributeError)
  }

  /** `parse_m1_gpu`: frequency, idle ratio and energy; the energy is appended to its
      history even when the document has no `gpu_energy`. */
  function ParseM1Gpu(gpu: PValue, prev: PowerMetrics): (r: Result<M1GPU>)
    ensures r.Ok? <==> gpu.PDict?
    ensures r.Ok? ==>
      && r.value.freqHz == Lookup(gpu.entries, "freq_hz")
      && r.value.idleRatio == Lookup(gpu.entries, "idle_ratio")
      && r.value.gpuEnergyMa == Lookup(gpu.entries, "gpu_energy")
    ensures r.Ok? ==> Extends(r.value.gpuEnergyMaHistory, prev.m1Gpu.gpuEnergyMaHistory, r.value.gpuEnergyMa)
  {
    match gpu
    case PDict(es) =>
      var energy := Lookup(es, "gpu_energy");
      Ok(M1GPU(energy, Pushed(prev.m1Gpu.gpuEnergyMaHistory, energy),
               Lookup(es, "idle_ratio"), Lookup(es, "freq_hz")))
    case _ => Err(AttributeError)
  }

  /** One CPU record: `cpu`, `freq_hz` and `freq_ratio`, each possibly absent. */
  function ParseCpu(cpu: PValue): (r: Result<CPU>)
    ensures r.Ok? <==> cpu.PDict?
    ensures r.Ok? ==> r.value.cpuNumber == Lookup(cpu.entries, "cpu")
    ensures r.Ok? ==> r.value.freqHz == Lookup(cpu.entries, "freq_hz")
    ensures r.Ok? ==> r.value.freqRatio == Lookup(cpu.entries, "freq_ratio")
  {
    match cpu
    case PDict(es) => Ok(CPU(Lookup(es, "cpu"), Lookup(es, "freq_hz"), Lookup(es, "freq_ratio")))
    case _ => Err(AttributeError)
  }

  /** `parse_processor_packages_cores_cpus`: one CPU record per item, in order; iterating
      a missing list raises TypeError. */
  function ParseCpus(cpus: Sample): (r: Result<seq<CPU>>)
    ensures cpus.None? ==> r == Err(TypeError)
    ensures cpus.Some? && cpus.value.PArray? ==>
      (r.Err? <==> exists i :: 0 <= i < |cpus.value.items| && !cpus.value.items[i].PDict?)
    ensures cpus.Some? && cpus.value.PArray? && r.Ok? ==>
      && |r.value| == |cpus.value.items|
      && forall i :: 0 <= i < |r.value| ==> ParseCpu(cpus.value.items[i]) == Ok(r.value[i])
  {
    var items :- IterateOpt(cpus);
    MapResult(items, ParseCpu)
  }

  /** One core: `core`, `c_state_ratio` and `cpus` are required keys. */
  function ParseCore(core: PValue): (r: Result<CPUCore>)
    ensures !core.PDict? ==> r == Err(TypeError)
    ensures core.PDict? && !HasKey(core.entries, "core") ==> r == Err(KeyError)
    ensures r.Ok? ==> core.PDict? && HasKey(core.entries, "core")
    ensures r.Ok? ==> HasKey(core.entries, "c_state_ratio") && HasKey(core.entries, "cpus")
    ensures r.Ok? ==> r.value.cpuCoreIndex == Lookup(core.entries, "core")
    ensures r.Ok? ==> r.value.cStateRatio == Lookup(core.entries, "c_state_ratio")
    ensures r.Ok? ==> r.value.cpus.Some? && ParseCpus(Lookup(core.entries, "cpus")) == Ok(r.value.cpus.value)
    ensures core.PDict? && HasKey(core.entries, "core") && !HasKey(core.entries, "c_state_ratio") ==>
      r == Err(KeyError)
    ensures core.PDict? && HasKey(core.entries, "core") && HasKey(core.entries, "c_state_ratio")
            && !HasKey(core.entries, "cpus") ==>
      r == Err(KeyError)
    ensures core.PDict? && HasKey(core.entries, "core") && HasKey(core.entries, "c_state_ratio")
            && HasKey(core.entries, "cpus") ==>
      (r.Ok? <==> ParseCpus(Lookup(core.entries, "cpus")).Ok?)
  {
    var index :- Subscript(core, "core");
    var ratio :- Subscript(core, "c_state_ratio");
    var cpusRaw :- Subscript(core, "cpus");
    var cpus :- ParseCpus(Some(cpusRaw));
    Ok(CPUCore(Some(index), Some(ratio), Some(cpus)))
  }

  /** One Intel package: `c_state_ratio` and `cores` are required keys; the cores are
      mapped one to one. */
  function ParsePackage(package: PValue): (r: Result<ProcessorPackage>)
    ensures !package.PDict? ==> r == Err(TypeError)
    ensures package.PDict? && !HasKey(package.entries, "c_state_ratio") ==> r == Err(KeyError)
    ensures r.Ok? ==> package.PDict? && HasKey(package.entries, "cores")
    ensures r.Ok? ==> r.value.cStateRatio == Lookup(package.entries, "c_state_ratio")
    ensures r.Ok? && Lookup(package.entries, "cores").value.PArray? ==>
      var items := Lookup(package.entries, "cores").value.items;
      && r.value.cores.Some? && |r.value.cores.value| == |items|
      && forall i :: 0 <= i < |items| ==> ParseCore(items[i]) == Ok(r.value.cores.value[i])
    ensures package.PDict? && HasKey(package.entries, "c_state_ratio") && !HasKey(package.entries, "cores") ==>
      r == Err(KeyError)
    ensures package.PDict? && HasKey(package.entries, "c_state_ratio") && HasKey(package.entries, "cores") ==>
      var items := Iterate(Lookup(package.entries, "cores").value);
      (r.Ok? <==> items.Ok? && forall i :: 0 <= i < |items.value| ==> ParseCore(items.value[i]).Ok?)
  {
    var ratio :- Subscript(package, "c_state_ratio");
    var coresRaw :- Subscript(package, "cores");
    var items :- Iterate(coresRaw);
    var cores :- MapResult(items, ParseCore);
    Ok(ProcessorPackage(Some(cores), Some(ratio)))
  }

  /** `parse_processor_intel`: the package-watts history grows only when `package_watts`
      is truthy; otherwise the new snapshot has no history at all. */
  function ParseProcessorIntel(processor: PValue, prev: PowerMetrics): (r: Result<ProcessorIntel>)
    ensures !processor.PDict? ==> r == Err(AttributeError)
    ensures r.Ok? && TruthyOpt(Lookup(processor.entries, "package_watts")) ==>
      Extends(r.value.packageWattsHistory, prev.processorIntel.packageWattsHistory,
              Lookup(processor.entries, "package_watts").value)
    ensures r.Ok? && !TruthyOpt(Lookup(processor.entries, "package_watts")) ==>
      r.value.packageWattsHistory.None?
    ensures r.Ok? ==> (r.value.packages.Some? <==> HasKey(processor.entries, "packages"))
    ensures processor.PDict? && !HasKey(processor.entries, "packages") ==> r.Ok?
    ensures r.Ok? && HasKey(processor.entries, "packages")
            && Lookup(processor.entries, "packages").value.PArray? ==>
      var items := Lookup(processor.entries, "packages").value.items;
      && |r.value.packages.value| == |items|
      && forall i :: 0 <= i < |items| ==> ParsePackage(items[i]) == Ok(r.value.packages.value[i])
    ensures processor.PDict? && HasKey(processor.entries, "packages") ==>
      var items := Iterate(Lookup(processor.entries, "packages").value);
      (r.Ok? <==> items.Ok? && forall i :: 0 <= i < |items.value| ==> ParsePackage(items.value[i]).Ok?)
  {
    match processor
    case PDict(es) =>
      var watts := Lookup(es, "package_watts");
      var history := if TruthyOpt(watts)
        then Pushed(prev.processorIntel.packageWattsHistory, watts.value)
        else None;
      if HasKey(es, "packages") then
        var items :- Iterate(Lookup(es, "packages").value);
        var packages :- MapResult(items, ParsePackage);
        Ok(ProcessorIntel(history, Some(packages)))
      else
        Ok(ProcessorIntel(history, None))
    case _ => Err(AttributeError)
  }

  /** One Apple-silicon cluster; iterating its missing `cpus` raises TypeError. */
  function ParseCluster(cluster: PValue): (r: Result<M1CPUCluster>)
    ensures !cluster.PDict? ==> r == Err(AttributeError)
    ensures cluster.PDict? && !HasKey(cluster.entries, "cpus") ==> r == Err(TypeError)
    ensures r.Ok? ==> r.value.name == Lookup(cluster.entries, "name")
    ensures r.Ok? ==> r.value.idleRatio == Lookup(cluster.entries, "idle_ratio")
    ensures r.Ok? ==> r.value.cpus.Some? && ParseCpus(Lookup(cluster.entries, "cpus")) == Ok(r.value.cpus.value)
    ensures cluster.PDict? ==> (r.Ok? <==> ParseCpus(Lookup(cluster.entries, "cpus")).Ok?)
  {
    match cluster
    case PDict(es) =>
      var cpus :- ParseCpus(Lookup(es, "cpus"));
      Ok(M1CPUCluster(Lookup(es, "name"), Lookup(es, "idle_ratio"), Some(cpus)))
    case _ => Err(AttributeError)
  }

  /** `parse_processor_m1`: the two energy readings, the clusters one to one, and the CPU
      energy appended to its history even when absent. */
  function ParseProcessorM1(processor: PValue, prev: PowerMetrics): (r: Result<M1ProcessorPackage>)
    ensures !processor.PDict? ==> r == Err(AttributeError)
    ensures processor.PDict? && !HasKey(processor.entries, "clusters") ==> r == Err(KeyError)
    ensures r.Ok? ==> r.value.gpuEnergy == Lookup(processor.entries, "gpu_energy")
    ensures r.Ok? ==> r.value.cpuEnergy == Lookup(processor.entries, "cpu_energy")
    ensures r.Ok? ==>
      Extends(r.value.cpuEnergyHistory, prev.processorM1.cpuEnergyHistory, r.value.cpuEnergy)
    ensures r.Ok? && Lookup(processor.entries, "clusters").value.PArray? ==>
      var items := Lookup(processor.entries, "clusters").value.items;
      && r.value.clusters.Some? && |r.value.clusters.value| == |items|
      && forall i :: 0 <= i < |items| ==> ParseCluster(items[i]) == Ok(r.value.clusters.value[i])
    ensures processor.PDict? && HasKey(processor.entries, "clusters") ==>
      var items := Iterate(Lookup(processor.entries, "clusters").value);
      (r.Ok? <==> items.Ok? && forall i :: 0 <= i < |items.value| ==> ParseCluster(items.value[i]).Ok?)
  {
    match processor
    case PDict(es) =>
      var gpuEnergy := Lookup(es, "gpu_energy");
      var cpuEnergy := Lookup(es, "cpu_energy");
      var clustersRaw :- Subscript(processor, "clusters");
      var items :- Iterate(clustersRaw);
      var clusters :- MapResult(items, ParseCluster);
      Ok(M1ProcessorPackage(cpuEnergy, Pushed(prev.processorM1.cpuEnergyHistory, cpuEnergy),
                            gpuEnergy, Some(clusters)))
    case _ => Err(AttributeError)
  }

  /** When the processor section parses: both `in` tests can be applied to it, and each
      tree whose key is present parses. */
  predicate ProcessorParses(processor: PValue, prev: PowerMetrics) {
    var hasIntel := Contains("package_watts", processor);
    var hasM1 := Contains("clusters", processor);
    && hasIntel.Ok? && hasM1.Ok?
    && (hasIntel.value ==> ParseProcessorIntel(processor, prev).Ok?)
    && (hasM1.value ==> ParseProcessorM1(processor, prev).Ok?)
  }

  /** The processor section: a `package_watts` key fills the Intel tree and a `clusters`
      key the Apple-silicon tree; with both keys both trees are filled and the type ends
      up M1. */
  function ParseProcessor(pm: PowerMetrics, processor: PValue, prev: PowerMetrics): (r: Result<PowerMetrics>)
    ensures r.Ok? ==> r.value == pm.(processorIntel := r.value.processorIntel,
                                     processorM1 := r.value.processorM1,
                                     processorType := r.value.processorType)
    ensures !processor.PDict? && r.Ok? ==> r.value == pm
    ensures processor.PDict? && r.Ok? && HasKey(processor.entries, "clusters") ==>
      r.value.processorType == Some(M1)
    ensures processor.PDict? && r.Ok? && HasKey(processor.entries, "package_watts")
            && !HasKey(processor.entries, "clusters") ==>
      r.value.processorType == Some(Intel)
    ensures processor.PDict? && r.Ok? && !HasKey(processor.entries, "package_watts")
            && !HasKey(processor.entries, "clusters") ==>
      r.value == pm
    ensures processor.PDict? && r.Ok? ==>
      if HasKey(processor.entries, "package_watts")
      then ParseProcessorIntel(processor, prev) == Ok(r.value.processorIntel)
      else r.value.processorIntel == pm.processorIntel
    ensures processor.PDict? && r.Ok? ==>
      if HasKey(processor.entries, "clusters")
      then ParseProcessorM1(processor, prev) == Ok(r.value.processorM1)
      else r.value.processorM1 == pm.processorM1
    ensures r.Ok? <==> ProcessorParses(processor, prev)
    ensures Contains("package_watts", processor).Err? ==> r == Err(TypeError)
  {
    var hasIntel :- Contains("package_watts", processor);
    var hasM1 := Contains("clusters", processor).value;
    var pm1 :- if hasIntel then WithIntel(pm, processor, prev) else Ok(pm);
    if hasM1 then
      var m1 :- ParseProcessorM1(processor, prev);
      Ok(pm1.(processorM1 := m1, processorType := Some(M1)))
    else Ok(pm1)
  }

  /** The Intel half of the processor section. */
  function WithIntel(pm: PowerMetrics, processor: PValue, prev: PowerMetrics): (r: Result<PowerMetrics>)
    ensures r.Ok? ==> r.value == pm.(processorIntel := r.value.processorIntel, processorType := Some(Intel))
    ensures r.Ok? <==> ParseProcessorIntel(processor, prev).Ok?
    ensures r.Ok? ==> ParseProcessorIntel(processor, prev) == Ok(r.value.processorIntel)
  {
    var intel :- ParseProcessorIntel(processor, prev);
    Ok(pm.(processorIntel := intel, processorType := Some(Intel)))
  }

  /** Is the section `key` of the document present and truthy? */
  predicate Section(raw: PValue, key: string)
    requires raw.PDict?
  {
    TruthyOpt(Lookup(raw.entries, key))
  }

  /** `if smc_data := raw.get("smc")`: the smc section replaces the default only when truthy. */
  function WithSmc(pm: PowerMetrics, raw: PValue): (r: Result<PowerMetrics>)
    requires raw.PDict?
    ensures r.Ok? ==> r.value == pm.(smc := r.value.smc)
    ensures !Section(raw, "smc") ==> r == Ok(pm)
    ensures Section(raw, "smc") ==> (r.Ok? <==> ParseSmc(Lookup(raw.entries, "smc").value).Ok?)
    ensures Section(raw, "smc") && r.Ok? ==> ParseSmc(Lookup(raw.entries, "smc").value) == Ok(r.value.smc)
  {
    var v := Lookup(raw.entries, "smc");
    if TruthyOpt(v) then
      var smc :- ParseSmc(v.value);
      Ok(pm.(smc := smc))
    else Ok(pm)
  }

  /** `if tasks := raw.get("tasks")`: the task list is kept as decoded, only when truthy. */
  function WithTasks(pm: PowerMetrics, raw: PValue): (r: PowerMetrics)
    requires raw.PDict?
    ensures r == pm.(tasks := r.tasks)
    ensures Section(raw, "tasks") ==> r.tasks == Lookup(raw.entries, "tasks")
    ensures !Section(raw, "tasks") ==> r == pm
  {
    var v := Lookup(raw.entries, "tasks");
    if TruthyOpt(v) then pm.(tasks := v) else pm
  }

  function WithNetwork(pm: PowerMetrics, raw: PValue, prev: PowerMetrics): (r: Result<PowerMetrics>)
    requires raw.PDict?
    ensures r.Ok? ==> r.value == pm.(network := r.value.network)
    ensures !Section(raw, "network") ==> r == Ok(pm)
    ensures Section(raw, "network") ==>
      (r.Ok? <==> ParseNetwork(Lookup(raw.entries, "network").value, prev).Ok?)
    ensures Section(raw, "network") && r.Ok? ==>
      ParseNetwork(Lookup(raw.entries, "network").value, prev) == Ok(r.value.network)
  {
    var v := Lookup(raw.entries, "network");
    if TruthyOpt(v) then
      var n :- ParseNetwork(v.value, prev);
      Ok(pm.(network := n))
    else Ok(pm)
  }

  function WithDisk(pm: PowerMetrics, raw: PValue, prev: PowerMetrics): (r: Result<PowerMetrics>)
    requires raw.PDict?
    ensures r.Ok? ==> r.value == pm.(disk := r.value.disk)
    ensures !Section(raw, "disk") ==> r == Ok(pm)
    ensures Section(raw, "disk") ==>
      (r.Ok? <==> ParseDisk(Lookup(raw.entries, "disk").value, prev).Ok?)
    ensures Section(raw, "disk") && r.Ok? ==>
      ParseDisk(Lookup(raw.entries, "disk").value, prev) == Ok(r.value.disk)
  {
    var v := Lookup(raw.entries, "disk");
    if TruthyOpt(v) then
      var d :- ParseDisk(v.value, prev);
      Ok(pm.(disk := d))
    else Ok(pm)
  }

  function WithGpu(pm: PowerMetrics, raw: PValue, prev: PowerMetrics): (r: Result<PowerMetrics>)
    requires raw.PDict?
    ensures r.Ok? ==> r.value == pm.(m1Gpu := r.value.m1Gpu)
    ensures !Section(raw, "gpu") ==> r == Ok(pm)
    ensures Section(raw, "gpu") ==>
      (r.Ok? <==> ParseM1Gpu(Lookup(raw.entries, "gpu").value, prev).Ok?)
    ensures Section(raw, "gpu") && r.Ok? ==>
      ParseM1Gpu(Lookup(raw.entries, "gpu").value, prev) == Ok(r.value.m1Gpu)
  {
    var v := Lookup(raw.entries, "gpu");
    if TruthyOpt(v) then
      var g :- ParseM1Gpu(v.value, prev);
      Ok(pm.(m1Gpu := g))
    else Ok(pm)
  }

  function WithProcessor(pm: PowerMetrics, raw: PValue, prev: PowerMetrics): (r: Result<PowerMetrics>)
    requires raw.PDict?
    ensures !Section(raw, "processor") ==> r == Ok(pm)
    ensures Section(raw, "processor") ==> r == ParseProcessor(pm, Lookup(raw.entries, "processor").value, prev)
    ensures r.Ok? ==> SameSections(r.value, pm)
    ensures r.Ok? && Section(raw, "processor") && Lookup(raw.entries, "processor").value.PDict? ==>
      var proc := Lookup(raw.entries, "processor").value;
      && (if HasKey(proc.entries, "package_watts")
          then ParseProcessorIntel(proc, prev) == Ok(r.value.processorIntel)
          else r.value.processorIntel == pm.processorIntel)
      && (if HasKey(proc.entries, "clusters")
          then ParseProcessorM1(proc, prev) == Ok(r.value.processorM1)
          else r.value.processorM1 == pm.processorM1)
      && (HasKey(proc.entries, "clusters") ==> r.value.processorType == Some(M1))
      && (HasKey(proc.entries, "package_watts") && !HasKey(proc.entries, "clusters") ==>
            r.value.processorType == Some(Intel))
      && (!HasKey(proc.entries, "package_watts") && !HasKey(proc.entries, "clusters") ==>
            r.value.processorType == pm.processorType)
    ensures r.Ok? && Section(raw, "processor") && !Lookup(raw.entries, "processor").value.PDict? ==>
      r.value == pm
  {
    var v := Lookup(raw.entries, "processor");
    if TruthyOpt(v) then ParseProcessor(pm, v.value, prev) else Ok(pm)
  }

  /** The two snapshots agree on everything but the processor trees and type. */
  predicate SameSections(a: PowerMetrics, b: PowerMetrics) {
    && a.backlight == b.backlight && a.battery == b.battery && a.smc == b.smc
    && a.tasks == b.tasks && a.network == b.network && a.disk == b.disk && a.m1Gpu == b.m1Gpu
  }

  /** `PowerMetricsParser.parse`: every section is filled only when present and truthy,
      otherwise it keeps the fresh default; the battery section is never filled. */
  function Parse(raw: PValue, prev: PowerMetrics): (r: Result<PowerMetrics>)
    ensures !raw.PDict? ==> r == Err(AttributeError)
    ensures raw.PDict? ==>
      (r.Ok? <==> SectionsParse(raw, prev)
                  && (Section(raw, "processor") ==> ProcessorParses(Lookup(raw.entries, "processor").value, prev)))
    ensures r.Ok? ==> raw.PDict? && ParseBacklight(raw) == Ok(r.value.backlight)
    ensures r.Ok? ==> r.value.battery == FreshPowerMetricsBattery
    ensures r.Ok? && Section(raw, "smc") ==> ParseSmc(Lookup(raw.entries, "smc").value) == Ok(r.value.smc)
    ensures r.Ok? && !Section(raw, "smc") ==> r.value.smc == FreshSmc
    ensures r.Ok? ==> r.value.tasks == if Section(raw, "tasks") then Lookup(raw.entries, "tasks") else None
    ensures r.Ok? && Section(raw, "network") ==>
      ParseNetwork(Lookup(raw.entries, "network").value, prev) == Ok(r.value.network)
    ensures r.Ok? && !Section(raw, "network") ==> r.value.network == FreshNetwork
    ensures r.Ok? && Section(raw, "disk") ==>
      ParseDisk(Lookup(raw.entries, "disk").value, prev) == Ok(r.value.disk)
    ensures r.Ok? && !Section(raw, "disk") ==> r.value.disk == FreshDisk
    ensures r.Ok? && Section(raw, "gpu") ==>
      ParseM1Gpu(Lookup(raw.entries, "gpu").value, prev) == Ok(r.value.m1Gpu)
    ensures r.Ok? && !Section(raw, "gpu") ==> r.value.m1Gpu == FreshM1GPU
    ensures r.Ok? && !Section(raw, "processor") ==> r.value.processorType.None?
    ensures r.Ok? && !Section(raw, "processor") ==> r.value.processorIntel == FreshProcessorIntel
    ensures r.Ok? && !Section(raw, "processor") ==> r.value.processorM1 == FreshM1ProcessorPackage
    ensures r.Ok? && Section(raw, "processor") && Lookup(raw.entries, "processor").value.PDict? ==>
      var es := Lookup(raw.entries, "processor").value.entries;
      && (r.value.processorType == Some(M1) <==> HasKey(es, "clusters"))
      && (r.value.processorType == Some(Intel) <==> HasKey(es, "package_watts") && !HasKey(es, "clusters"))
      && (r.value.processorType.None? <==> !HasKey(es, "package_watts") && !HasKey(es, "clusters"))
    ensures r.Ok? && Section(raw, "processor") && Lookup(raw.entries, "processor").value.PDict? ==>
      var proc := Lookup(raw.entries, "processor").value;
      && (if HasKey(proc.entries, "package_watts")
          then ParseProcessorIntel(proc, prev) == Ok(r.value.processorIntel)
          else r.value.processorIntel == FreshProcessorIntel)
      && (if HasKey(proc.entries, "clusters")
          then ParseProcessorM1(proc, prev) == Ok(r.value.processorM1)
          else r.value.processorM1 == FreshM1ProcessorPackage)
    ensures r.Ok? && Section(raw, "processor") && !Lookup(raw.entries, "processor").value.PDict? ==>
      && r.value.processorType.None?
      && r.value.processorIntel == FreshProcessorIntel
      && r.value.processorM1 == FreshM1ProcessorPackage
  {
    match raw
    case PDict(_) =>
      var pm :- ParseSections(raw, prev);
      WithProcessor(pm, raw, prev)
    case _ => Err(AttributeError)
  }

  /** When every section before the processor parses: the backlight, and each truthy
      section among smc, network, disk and gpu. */
  predicate SectionsParse(raw: PValue, prev: PowerMetrics)
    requires raw.PDict?
  {
    && ParseBacklight(raw).Ok?
    && (Section(raw, "smc") ==> ParseSmc(Lookup(raw.entries, "smc").value).Ok?)
    && (Section(raw, "network") ==> ParseNetwork(Lookup(raw.entries, "network").value, prev).Ok?)
    && (Section(raw, "disk") ==> ParseDisk(Lookup(raw.entries, "disk").value, prev).Ok?)
    && (Section(raw, "gpu") ==> ParseM1Gpu(Lookup(raw.entries, "gpu").value, prev).Ok?)
  }

  /** Every section of `parse` before the processor section, in the source's order. */
  function ParseSections(raw: PValue, prev: PowerMetrics): (r: Result<PowerMetrics>)
    requires raw.PDict?
    ensures r.Ok? ==> ParseBacklight(raw) == Ok(r.value.backlight)
    ensures r.Ok? ==> r.value.battery == FreshPowerMetricsBattery
    ensures r.Ok? && Section(raw, "smc") ==> ParseSmc(Lookup(raw.entries, "smc").value) == Ok(r.value.smc)
    ensures r.Ok? && !Section(raw, "smc") ==> r.value.smc == FreshSmc
    ensures r.Ok? ==> r.value.tasks == if Section(raw, "tasks") then Lookup(raw.entries, "tasks") else None
    ensures r.Ok? && Section(raw, "network") ==>
      ParseNetwork(Lookup(raw.entries, "network").value, prev) == Ok(r.value.network)
    ensures r.Ok? && !Section(raw, "network") ==> r.value.network == FreshNetwork
    ensures r.Ok? && Section(raw, "disk") ==>
      ParseDisk(Lookup(raw.entries, "disk").value, prev) == Ok(r.value.disk)
    ensures r.Ok? && !Section(raw, "disk") ==> r.value.disk == FreshDisk
    ensures r.Ok? && Section(raw, "gpu") ==>
      ParseM1Gpu(Lookup(raw.entries, "gpu").value, prev) == Ok(r.value.m1Gpu)
    ensures r.Ok? && !Section(raw, "gpu") ==> r.value.m1Gpu == FreshM1GPU
    ensures r.Ok? ==> r.value.processorType.None?
    ensures r.Ok? ==> r.value.processorIntel == FreshProcessorIntel
    ensures r.Ok? ==> r.value.processorM1 == FreshM1ProcessorPackage
    ensures r.Ok? <==> SectionsParse(raw, prev)
  {
    var backlight :- ParseBacklight(raw);
    var pm0 := FreshPowerMetrics.(backlight := backlight);
    var pm1 :- WithSmc(pm0, raw);
    var pm2 := WithTasks(pm1, raw);
    var pm3 :- WithNetwork(pm2, raw, prev);
    var pm4 :- WithDisk(pm3, raw, prev);
    WithGpu(pm4, raw, prev)
  }

  /** A document with a truthy processor section holding both `package_watts` and
      `clusters` fills both processor trees, and the type ends up M1. */
  lemma BothTreesFilled(raw: PValue, prev: PowerMetrics)
    requires raw.PDict? && Section(raw, "processor")
    requires Lookup(raw.entries, "processor").value.PDict?
    requires HasKey(Lookup(raw.entries, "processor").value.entries, "package_watts")
    requires HasKey(Lookup(raw.entries, "processor").value.entries, "clusters")
    requires Parse(raw, prev).Ok?
    ensures Parse(raw, prev).value.processorType == Some(M1)
    ensures ParseProcessorIntel(Lookup(raw.entries, "processor").value, prev)
            == Ok(Parse(raw, prev).value.processorIntel)
    ensures ParseProcessorM1(Lookup(raw.entries, "processor").value, prev)
            == Ok(Parse(raw, prev).value.processorM1)
  {
  }

  /** `parse_battery_data` (not called by `parse`): None when the document has no
      `battery` key; `plugged_in` becomes True and `discharge_rate` a float, each only
      when truthy. */
  function ParseBatteryData(raw: PValue): (r: Result<Option<PowerMetricsBattery>>)
    ensures raw.PDict? && !HasKey(raw.entries, "battery") ==> r == Ok(None)
    ensures raw.PDict? && HasKey(raw.entries, "battery") ==>
      (Lookup(raw.entries, "battery").value.PDict? || r == Err(AttributeError))
    ensures r.Ok? && r.value.Some? ==> raw.PDict? && HasKey(raw.entries, "battery")
    ensures r.Ok? && r.value.Some? ==>
      var b := Lookup(raw.entries, "battery").value;
      && b.PDict?
      && (r.value.value.pluggedIn == if TruthyOpt(Lookup(b.entries, "plugged_in")) then Some(true) else None)
      && (TruthyOpt(Lookup(b.entries, "discharge_rate")) <==> r.value.value.dischargeRate.Some?)
      && (r.value.value.dischargeRate.Some? ==>
            NumOf(Lookup(b.entries, "discharge_rate").value) == r.value.value.dischargeRate)
  {
    var hasBattery :- Contains("battery", raw);
    if !hasBattery then Ok(None)
    else
      var b :- Subscript(raw, "battery");
      match b
      case PDict(es) =>
        var plugged := Lookup(es, "plugged_in");
        var pm := if TruthyOpt(plugged) then FreshPowerMetricsBattery.(pluggedIn := Some(true))
                  else FreshPowerMetricsBattery;
        var rate := Lookup(es, "discharge_rate");
        if TruthyOpt(rate) then
          var x :- FloatOf(rate.value);
          Ok(Some(pm.(dischargeRate := Some(x))))
        else Ok(Some(pm))
      case _ => Err(AttributeError)
  }
}

=== FILE: psutil.dfy ===
/** The psutil collector: per-CPU and aggregate CPU time fractions, swap and virtual
    memory, load average and boot time, each written into the stored psutil snapshot,
    and the pause between two collection rounds. */
module Psutil {
  import opened Python
  import opened Snapshots

  /** One CPU's reading from `psutil.cpu_times_percent(percpu=True)` on macOS. */
  datatype CpuReading = CpuReading(user: real, nice: real, system: real, idle: real)

  /** `psutil.swap_memory()`. */
  datatype SwapReading = SwapReading(total: int, used: int, free: int, percent: real, sin: int, sout: int)

  // ---------------------------------------------------------------------------------
  // CPU aggregation

  /** The sum of one category over the readings, added up from the first CPU. */
  function Total(rs: seq<CpuReading>, category: CpuReading -> real): real
    decreases |rs|
  {
    if rs == [] then 0.0 else Total(rs[..|rs| - 1], category) + category(rs[|rs| - 1])
  }

  /** Totals add up over any split of the readings. */
  lemma {:induction false} TotalAppend(a: seq<CpuReading>, b: seq<CpuReading>, category: CpuReading -> real)
    ensures Total(a + b, category) == Total(a, category) + Total(b, category)
    decreases |b|
  {
    if b == [] {
      assert a + b == a;
    } else {
      var b' := b[..|b| - 1];
      assert (a + b)[..|a + b| - 1] == a + b';
      TotalAppend(a, b', category);
    }
  }

  /** A category's total over non-negative readings is non-negative. */
  lemma {:induction false} TotalNonNegative(rs: seq<CpuReading>, category: CpuReading -> real)
    requires forall i :: 0 <= i < |rs| ==> category(rs[i]) >= 0.0
    ensures Total(rs, category) >= 0.0
    decreases |rs|
  {
    if rs != [] {
      TotalNonNegative(rs[..|rs| - 1], category);
    }
  }

  function User(r: CpuReading): real { r.user }
  function Nice(r: CpuReading): real { r.nice }
  function System(r: CpuReading): real { r.system }
  function Idle(r: CpuReading): real { r.idle }

  /** The sum of the four category totals, the divisor of every aggregate fraction. */
  function GrandTotal(rs: seq<CpuReading>): real {
    Total(rs, User) + Total(rs, System) + Total(rs, Nice) + Total(rs, Idle)
  }

  /** A snapshot after a collection step that may have raised part-way through: the
      snapshot is shared with the store, so what was written before the exception stays. */
  datatype Written = Written(psu: PsutilMetrics, raised: Option<PyError>)

  /** `CPUTimesPercent` copied from one reading. */
  function Copy(r: CpuReading): (c: CPUTimesPercent)
    ensures c.user == r.user && c.nice == r.nice && c.system == r.system && c.idle == r.idle
  {
    CPUTimesPercent(r.user, r.nice, r.system, r.idle)
  }

  /** `perf_cpu`: the per-CPU list is stored first; the aggregate is each category's total
      over the grand total, and an all-zero reading raises after the per-CPU list was stored. */
  method PerfCpu(psu: PsutilMetrics, rs: seq<CpuReading>) returns (w: Written)
    ensures w.psu.cpuPercentPercpu.Some? && |w.psu.cpuPercentPercpu.value| == |rs|
    ensures forall i :: 0 <= i < |rs| ==>
      var c := w.psu.cpuPercentPercpu.value[i];
      c.user == rs[i].user && c.nice == rs[i].nice && c.system == rs[i].system && c.idle == rs[i].idle
    ensures w.raised.Some? <==> GrandTotal(rs) == 0.0
    ensures w.raised.Some? ==> w.raised.value == ZeroDivisionError && w.psu.cpuPercent == psu.cpuPercent
    ensures w.raised.None? ==>
      var a := w.psu.cpuPercent;
      var t := GrandTotal(rs);
      && a.user * t == Total(rs, User) && a.nice * t == Total(rs, Nice)
      && a.system * t == Total(rs, System) && a.idle * t == Total(rs, Idle)
    ensures w.psu == psu.(cpuPercentPercpu := w.psu.cpuPercentPercpu, cpuPercent := w.psu.cpuPercent)
  {
    var totalUser, totalNice, totalSystem, totalIdle := 0.0, 0.0, 0.0, 0.0;
    var percpus: seq<CPUTimesPercent> := [];
    var k := 0;
    while k < |rs|
      invariant 0 <= k <= |rs|
      invariant |percpus| == k
      invariant forall i :: 0 <= i < k ==> percpus[i] == Copy(rs[i])
      invariant totalUser == Total(rs[..k], User) && totalNice == Total(rs[..k], Nice)
      invariant totalSystem == Total(rs[..k], System) && totalIdle == Total(rs[..k], Idle)
    {
      var r := rs[k];
      assert rs[..k + 1][..k] == rs[..k];
      percpus := percpus + [Copy(r)];
      totalUser := totalUser + r.user;
      totalNice := totalNice + r.nice;
      totalSystem := totalSystem + r.system;
      totalIdle := totalIdle + r.idle;
      k := k + 1;
    }
    assert rs[..k] == rs;
    var stored := psu.(cpuPercentPercpu := Some(percpus));
    var total := totalUser + totalSystem + totalNice + totalIdle;
    if total == 0.0 {
      return Written(stored, Some(ZeroDivisionError));
    }
    var aggregate := CPUTimesPercent(
      user := totalUser / total, nice := totalNice / total,
      system := totalSystem / total, idle := totalIdle / total);
    return Written(stored.(cpuPercent := aggregate), None);
  }

  /** Every category of every reading is non-negative, as percentages are. */
  predicate NonNegativeReadings(rs: seq<CpuReading>) {
    forall i :: 0 <= i < |rs| ==>
      rs[i].user >= 0.0 && rs[i].nice >= 0.0 && rs[i].system >= 0.0 && rs[i].idle >= 0.0
  }

  /** Shares of a total, each scaled back by the total, add up to one. */
  lemma SharesSumToOne(xu: real, xn: real, xs: real, xi: real, u: real, n: real, s: real, i: real)
    requires u + s + n + i != 0.0
    requires xu * (u + s + n + i) == u && xn * (u + s + n + i) == n
    requires xs * (u + s + n + i) == s && xi * (u + s + n + i) == i
    ensures xu + xn + xs + xi == 1.0
  {
    var t := u + s + n + i;
    assert (xu + xn + xs + xi) * t == xu * t + xn * t + xs * t + xi * t;
    assert (xu + xn + xs + xi - 1.0) * t == 0.0;
  }

  /** A part of a positive whole is a share between zero and one. */
  lemma ShareBounds(x: real, part: real, whole: real)
    requires 0.0 <= part <= whole && whole > 0.0 && x * whole == part
    ensures 0.0 <= x <= 1.0
  {
  }

  /** The four aggregate fractions sum to one. */
  lemma FractionsSumToOne(rs: seq<CpuReading>, a: CPUTimesPercent)
    requires GrandTotal(rs) != 0.0
    requires a.user * GrandTotal(rs) == Total(rs, User) && a.nice * GrandTotal(rs) == Total(rs, Nice)
    requires a.system * GrandTotal(rs) == Total(rs, System) && a.idle * GrandTotal(rs) == Total(rs, Idle)
    ensures a.user + a.nice + a.system + a.idle == 1.0
  {
    SharesSumToOne(a.user, a.nice, a.system, a.idle,
                   Total(rs, User), Total(rs, Nice), Total(rs, System), Total(rs, Idle));
  }

  /** Over non-negative readings each aggregate fraction lies between zero and one. */
  lemma FractionsAreShares(rs: seq<CpuReading>, a: CPUTimesPercent)
    requires NonNegativeReadings(rs) && GrandTotal(rs) != 0.0
    requires a.user * GrandTotal(rs) == Total(rs, User) && a.nice * GrandTotal(rs) == Total(rs, Nice)
    requires a.system * GrandTotal(rs) == Total(rs, System) && a.idle * GrandTotal(rs) == Total(rs, Idle)
    ensures 0.0 <= a.user <= 1.0 && 0.0 <= a.nice <= 1.0 && 0.0 <= a.system <= 1.0 && 0.0 <= a.idle <= 1.0
  {
    TotalNonNegative(rs, User);
    TotalNonNegative(rs, Nice);
    TotalNonNegative(rs, System);
    TotalNonNegative(rs, Idle);
    var t := GrandTotal(rs);
    ShareBounds(a.user, Total(rs, User), t);
    ShareBounds(a.nice, Total(rs, Nice), t);
    ShareBounds(a.system, Total(rs, System), t);
    ShareBounds(a.idle, Total(rs, Idle), t);
  }

  // ---------------------------------------------------------------------------------
  // Memory, load and boot time

  /** `get_swap_memory`: a new `SwapMemory` holding the reading field by field. */
  function GetSwapMemory(psu: PsutilMetrics, s: SwapReading): (r: PsutilMetrics)
    ensures r.swapMemory.freeBytes == s.free && r.swapMemory.totalBytes == s.total
    ensures r.swapMemory.usedBytes == s.used && r.swapMemory.percent == s.percent
    ensures r.swapMemory.sinBytes == s.sin && r.swapMemory.soutBytes == s.sout
    ensures r == psu.(swapMemory := r.swapMemory)
  {
    psu.(swapMemory := SwapMemory(
      totalBytes := s.total, usedBytes := s.used, freeBytes := s.free,
      percent := s.percent, sinBytes := s.sin, soutBytes := s.sout))
  }

  /** `get_virtual_memory`: a `VirtualMemory` is filled in and discarded; the slot
      receives the operating system's reading itself. */
  function GetVirtualMemory(psu: PsutilMetrics, vm: VirtualMemoryReading): (r: PsutilMetrics)
    ensures r.virtualMemory.Raw? && r.virtualMemory.reading == vm
    ensures r == psu.(virtualMemory := r.virtualMemory)
  {
    psu.(virtualMemory := Raw(vm))
  }

  /** Whatever was stored, the virtual-memory slot exposes the same eight readings: the
      raw reading carries the fields a `VirtualMemory` would have copied. */
  function VirtualMemoryFields(slot: VirtualMemorySlot): (f: (int, int, real, int, int, int, int, int))
    ensures slot.Raw? ==> f == (slot.reading.total, slot.reading.available, slot.reading.percent,
                               slot.reading.used, slot.reading.free, slot.reading.active,
                               slot.reading.inactive, slot.reading.wired)
  {
    match slot
    case Built(v) => (v.total, v.available, v.percent, v.used, v.free, v.active, v.inactive, v.wired)
    case Raw(v) => (v.total, v.available, v.percent, v.used, v.free, v.active, v.inactive, v.wired)
  }

  /** `get_virtual_memory` as evidently intended, storing the built record. */
  function GetVirtualMemoryBuilt(psu: PsutilMetrics, vm: VirtualMemoryReading): (r: PsutilMetrics)
    ensures r.virtualMemory.Built?
    ensures r == psu.(virtualMemory := r.virtualMemory)
  {
    psu.(virtualMemory := Built(VirtualMemory(
      vm.total, vm.available, vm.percent, vm.used, vm.free, vm.active, vm.inactive, vm.wired)))
  }

  /** Storing the raw reading is indistinguishable, field by field, from storing the built
      record. */
  lemma RawReadingHasBuiltFields(psu: PsutilMetrics, vm: VirtualMemoryReading)
    ensures VirtualMemoryFields(GetVirtualMemory(psu, vm).virtualMemory)
            == VirtualMemoryFields(GetVirtualMemoryBuilt(psu, vm).virtualMemory)
    ensures GetVirtualMemory(psu, vm) != GetVirtualMemoryBuilt(psu, vm)
  {
  }

  /** `get_loadavg`: the three averages unpacked in order. */
  function GetLoadavg(psu: PsutilMetrics, pa: (real, real, real)): (r: PsutilMetrics)
    ensures (r.loadavg.load1, r.loadavg.load5, r.loadavg.load15) == pa
    ensures r == psu.(loadavg := r.loadavg)
  {
    psu.(loadavg := LoadAvg(pa.0, pa.1, pa.2))
  }

  /** `get_boot_time`. */
  function GetBootTime(psu: PsutilMetrics, t: real): (r: PsutilMetrics)
    ensures r.bootTime == Some(t)
    ensures r == psu.(bootTime := r.bootTime)
  {
    psu.(bootTime := Some(t))
  }

  // ---------------------------------------------------------------------------------
  // Pause between rounds

  /** The pause `run_psutil` takes after a round that took `elapsed` seconds: the elapsed
      time itself, when it is shorter than the interval. The elapsed time is a difference
      of two wall-clock readings, so it is negative when the clock stepped back past the
      round's start; `time.sleep` then raises ValueError, which ends the sampling thread. */
  function SleepFor(elapsed: real, interval: real): (r: Result<Option<real>>)
    ensures r.Err? <==> elapsed < interval && elapsed < 0.0
    ensures r.Err? ==> r.error == ValueError
    ensures r.Ok? ==> (r.value.Some? <==> elapsed < interval)
    ensures r.Ok? && r.value.Some? ==> r.value.value == elapsed && r.value.value >= 0.0
  {
    if elapsed < interval then
      if elapsed < 0.0 then Err(ValueError) else Ok(Some(elapsed))
    else Ok(None)
  }

  /** The pause as evidently intended: the rest of the interval. */
  function SleepForFixed(elapsed: real, interval: real): (pause: Option<real>)
    ensures pause.Some? <==> elapsed < interval
    ensures pause.Some? ==> elapsed + pause.value == interval && pause.value > 0.0
  {
    if elapsed < interval then Some(interval - elapsed) else None
  }

  /** How long a round lasts including its pause. */
  function RoundLength(elapsed: real, pause: Option<real>): real {
    elapsed + pause.GetOr(0.0)
  }

  /** With the corrected pause a round lasts exactly the interval, or longer when the work
      itself took longer; as written a short round lasts twice its work, which falls short
      of the interval whenever the work took less than half of it. The elapsed time is
      not tied here to the blocking sampling call (see BlockingRoundNeverSleeps). */
  lemma RoundLengths(elapsed: real, interval: real)
    requires elapsed >= 0.0
    ensures RoundLength(elapsed, SleepForFixed(elapsed, interval))
            == (if elapsed < interval then interval else elapsed)
    ensures SleepFor(elapsed, interval).Ok?
    ensures elapsed < interval ==> RoundLength(elapsed, SleepFor(elapsed, interval).value) == 2.0 * elapsed
    ensures 2.0 * elapsed < interval ==> RoundLength(elapsed, SleepFor(elapsed, interval).value) < interval
  {
  }

  /** Every round starts with `perf_cpu(interval)`, whose CPU sampling blocks for the
      whole interval, so the round's elapsed time is the interval plus the rest of its
      work. Neither pause is then ever taken: while the sampling blocks, the as-written
      pause is dead code and the defect it carries stays latent. */
  lemma BlockingRoundNeverSleeps(interval: real, rest: real)
    requires rest >= 0.0
    ensures SleepFor(interval + rest, interval) == Ok(None)
    ensures SleepForFixed(interval + rest, interval) == None
    ensures RoundLength(interval + rest, SleepFor(interval + rest, interval).value)
            == RoundLength(interval + rest, SleepForFixed(interval + rest, interval))
  {
  }

  /** A round of 0.1 s with a one-second interval is followed by a pause of 0.1 s, not
      0.9 s. Such a round needs a sampling call that returns early or a wall clock that
      steps back by less than the round took, since the sampling itself blocks for the
      interval. */
  lemma ShortRoundSleepsTooLittle()
    ensures SleepFor(0.1, 1.0) == Ok(Some(0.1))
    ensures SleepForFixed(0.1, 1.0) == Some(0.9)
  {
  }

  /** A wall clock that steps back past the round's start makes the elapsed time negative:
      as written `time.sleep` then raises and the sampling thread ends for good, while the
      corrected pause is the whole interval and more. */
  lemma ClockStepBackEndsSampling(elapsed: real, interval: real)
    requires elapsed < 0.0 && interval > 0.0
    ensures SleepFor(elapsed, interval) == Err(ValueError)
    ensures SleepForFixed(elapsed, interval).Some?
    ensures SleepForFixed(elapsed, interval).value > interval
  {
  }
}

=== FILE: python.dfy ===
/** Python value semantics the collectors and panels rely on: the values a property-list
    decoder produces, truthiness, dictionary lookup, `in`, iteration, `int()`/`float()`
    conversions, list indexing and slicing, and the exceptions these can raise. */
module Python {

  datatype Option<+T> = None | Some(value: T) {
    function GetOr(default: T): T {
      match this
      case Some(v) => v
      case None => default
    }
  }

  /** The Python exceptions the modelled code can raise. */
  datatype PyError =
    | KeyError
    | IndexError
    | TypeError
    | AttributeError
    | ValueError
    | ZeroDivisionError
    | UnicodeDecodeError
    | DuplicateKey
    | UnsupportedNode(tag: string)

  /** A computation that either returns a value or raises. */
  datatype Result<+T> = Ok(value: T) | Err(error: PyError) {
    predicate IsFailure() {
      Err?
    }

    function PropagateFailure<U>(): Result<U>
      requires Err?
    {
      Err(error)
    }

    function Extract(): T
      requires Ok?
    {
      value
    }
  }

  newtype byte = x: int | 0 <= x < 256

  // ---------------------------------------------------------------------------------
  // `bytes.decode()` with the strict UTF-8 codec

  predicate IsContinuation(b: byte) {
    0x80 <= b <= 0xBF
  }

  /** The length of the well-formed UTF-8 sequence at the start of `s`, or 0 when `s` does
      not start with one; the byte ranges are those of table 3-7 of the Unicode Standard,
      section 3.9, which rule out overlong forms, surrogates and values above U+10FFFF. */
  function Utf8CharLength(s: seq<byte>): (n: nat)
    requires s != []
    ensures n <= 4 && n <= |s|
    ensures n == 1 <==> s[0] < 0x80
    ensures n > 1 ==> forall k :: 1 <= k < n ==> IsContinuation(s[k])
  {
    var b := s[0];
    if b < 0x80 then 1
    else if 0xC2 <= b <= 0xDF then
      if |s| >= 2 && IsContinuation(s[1]) then 2 else 0
    else if 0xE0 <= b <= 0xEF then
      var lo: byte := if b == 0xE0 then 0xA0 else 0x80;
      var hi: byte := if b == 0xED then 0x9F else 0xBF;
      if |s| >= 3 && lo <= s[1] <= hi && IsContinuation(s[2]) then 3 else 0
    else if 0xF0 <= b <= 0xF4 then
      var lo: byte := if b == 0xF0 then 0x90 else 0x80;
      var hi: byte := if b == 0xF4 then 0x8F else 0xBF;
      if |s| >= 4 && lo <= s[1] <= hi && IsContinuation(s[2]) && IsContinuation(s[3]) then 4 else 0
    else 0
  }

  /** `bytes.decode()` succeeds: the bytes split into well-formed UTF-8 sequences. */
  predicate Utf8(s: seq<byte>)
    decreases |s|
  {
    s == [] || (Utf8CharLength(s) > 0 && Utf8(s[Utf8CharLength(s)..]))
  }

  /** Every ASCII text decodes. */
  lemma {:induction false} AsciiIsUtf8(s: seq<byte>)
    requires forall i :: 0 <= i < |s| ==> s[i] < 0x80
    ensures Utf8(s)
    decreases |s|
  {
    if s != [] {
      assert Utf8CharLength(s) == 1;
      AsciiIsUtf8(s[1..]);
    }
  }

  /** Text that decodes, followed by more text that decodes, decodes: no character
      straddles the seam. */
  lemma {:induction false} Utf8Append(a: seq<byte>, b: seq<byte>)
    requires Utf8(a) && Utf8(b)
    ensures Utf8(a + b)
    decreases |a|
  {
    if a == [] {
      assert a + b == b;
    } else {
      var n := Utf8CharLength(a);
      assert (a + b)[..n] == a[..n];
      Utf8CharLengthPrefix(a, a + b);
      assert (a + b)[n..] == a[n..] + b;
      Utf8Append(a[n..], b);
    }
  }

  /** The length of the leading sequence depends only on the bytes it covers. */
  lemma Utf8CharLengthPrefix(a: seq<byte>, c: seq<byte>)
    requires a != [] && Utf8CharLength(a) > 0
    requires |c| >= Utf8CharLength(a) && c[..Utf8CharLength(a)] == a[..Utf8CharLength(a)]
    ensures Utf8CharLength(c) == Utf8CharLength(a)
  {
    var n := Utf8CharLength(a);
    assert forall k :: 0 <= k < n ==> c[k] == a[k] by {
      forall k | 0 <= k < n ensures c[k] == a[k] {
        assert c[..n][k] == a[..n][k];
      }
    }
  }

  /** A lone continuation byte or a byte that never occurs in UTF-8 makes decoding fail:
      the bytes 0x80 and 0xFF on their own, and a truncated two-byte sequence. */
  lemma Utf8Rejects()
    ensures !Utf8([0x80]) && !Utf8([0xFF]) && !Utf8([0xC3])
    ensures Utf8([0xC3, 0xA9]) && !Utf8([0xC0, 0x80]) && !Utf8([0xED, 0xA0, 0x80])
  {
    assert Utf8CharLength([0xC3, 0xA9]) == 2;
    assert [0xC3, 0xA9][2..] == [];
  }

  /** A decoded property-list value. Dictionaries keep document order; a repeated key
      keeps its last value, as a Python dict built by successive assignment does. */
  datatype PValue =
    | PInt(i: int)
    | PReal(r: real)
    | PBool(b: bool)
    | PStr(s: string)
    | PData(data: seq<byte>)
    | PDate(stamp: real)
    | PArray(items: seq<PValue>)
    | PDict(entries: seq<(string, PValue)>)

  /** Python truthiness: zero numbers, False and empty containers are false. */
  predicate Truthy(v: PValue) {
    match v
    case PInt(i) => i != 0
    case PReal(r) => r != 0.0
    case PBool(b) => b
    case PStr(s) => s != []
    case PData(d) => d != []
    case PDate(_) => true
    case PArray(xs) => xs != []
    case PDict(es) => es != []
  }

  /** Truthiness of a value that may be Python's None. */
  predicate TruthyOpt(v: Option<PValue>) {
    v.Some? && Truthy(v.value)
  }

  predicate HasKey(es: seq<(string, PValue)>, k: string) {
    exists i :: 0 <= i < |es| && es[i].0 == k
  }

  /** The value a dict holds for `k`: the last entry with that key. */
  function Lookup(es: seq<(string, PValue)>, k: string): (r: Option<PValue>)
    ensures r.Some? <==> HasKey(es, k)
    ensures r.Some? ==> (k, r.value) in es
  {
    if es == [] then None
    else if es[|es| - 1].0 == k then Some(es[|es| - 1].1)
    else
      var r := Lookup(es[..|es| - 1], k);
      assert HasKey(es, k) ==> HasKey(es[..|es| - 1], k) by {
        if HasKey(es, k) {
          var i :| 0 <= i < |es| && es[i].0 == k;
          assert i < |es| - 1;
          assert es[..|es| - 1][i].0 == k;
        }
      }
      assert r.Some? ==> (k, r.value) in es by {
        if r.Some? {
          assert (k, r.value) in es[..|es| - 1];
        }
      }
      r
  }

  /** `v.get(k)`: only a dict has `get`. */
  function Get(v: PValue, k: string): (r: Result<Option<PValue>>)
    ensures r.Err? <==> !v.PDict?
    ensures r.Ok? ==> (r.value.Some? <==> HasKey(v.entries, k))
  {
    if v.PDict? then Ok(Lookup(v.entries, k)) else Err(AttributeError)
  }

  /** `v[k]` with a string key. */
  function Subscript(v: PValue, k: string): (r: Result<PValue>)
    ensures r.Ok? <==> v.PDict? && HasKey(v.entries, k)
    ensures v.PDict? && !HasKey(v.entries, k) ==> r == Err(KeyError)
    ensures !v.PDict? ==> r == Err(TypeError)
  {
    match v
    case PDict(es) =>
      (match Lookup(es, k)
       case Some(x) => Ok(x)
       case None => Err(KeyError))
    case _ => Err(TypeError)
  }

  /** The value `Lookup` finds is the one of the last entry with that key. */
  lemma {:induction false} LookupIsLast(es: seq<(string, PValue)>, k: string, i: int)
    requires 0 <= i < |es| && es[i].0 == k
    requires forall j :: i < j < |es| ==> es[j].0 != k
    ensures Lookup(es, k) == Some(es[i].1)
    decreases |es|
  {
    if i < |es| - 1 {
      var init := es[..|es| - 1];
      assert forall j :: i < j < |init| ==> init[j] == es[j];
      LookupIsLast(init, k, i);
    }
  }

  /** Appending an entry for one key leaves every other key's value as it was. */
  lemma LookupAppendOther(es: seq<(string, PValue)>, k: string, v: PValue, other: string)
    requires other != k
    ensures Lookup(es + [(k, v)], other) == Lookup(es, other)
  {
    assert (es + [(k, v)])[..|es|] == es;
  }

  /** `needle` occurs as a contiguous block of `hay`. */
  predicate Occurs<T(==)>(needle: seq<T>, hay: seq<T>) {
    exists i :: 0 <= i <= |hay| - |needle| && OccursAt(needle, hay, i)
  }

  /** `needle` occurs in `hay` starting at position `i`. */
  predicate OccursAt<T(==)>(needle: seq<T>, hay: seq<T>, i: int) {
    0 <= i && i + |needle| <= |hay| && hay[i..i + |needle|] == needle
  }

  /** Python `==` between two decoded values: numbers (int, float, bool) compare by
      value across types, everything else compares structurally. */
  predicate PyEq(a: PValue, b: PValue) {
    match (NumOf(a), NumOf(b))
    case (Some(x), Some(y)) => x == y
    case _ => a == b
  }

  /** `k in v` for a string `k`. */
  function Contains(k: string, v: PValue): (r: Result<bool>)
    ensures v.PDict? ==> r == Ok(HasKey(v.entries, k))
    ensures r.Err? <==> !(v.PDict? || v.PArray? || v.PStr?)
  {
    match v
    case PDict(es) => Ok(HasKey(es, k))
    case PArray(xs) => Ok(exists i :: 0 <= i < |xs| && PyEq(xs[i], PStr(k)))
    case PStr(s) => Ok(Occurs(k, s))
    case _ => Err(TypeError)
  }

  function KeysOf(es: seq<(string, PValue)>): (ks: seq<PValue>)
    ensures |ks| == |es|
    ensures forall i :: 0 <= i < |es| ==> ks[i] == PStr(es[i].0)
  {
    if es == [] then [] else [PStr(es[0].0)] + KeysOf(es[1..])
  }

  function CharsOf(s: string): (cs: seq<PValue>)
    ensures |cs| == |s|
    ensures forall i :: 0 <= i < |s| ==> cs[i] == PStr([s[i]])
  {
    if s == [] then [] else [PStr([s[0]])] + CharsOf(s[1..])
  }

  function BytesOf(d: seq<byte>): (bs: seq<PValue>)
    ensures |bs| == |d|
    ensures forall i :: 0 <= i < |d| ==> bs[i] == PInt(d[i] as int)
  {
    if d == [] then [] else [PInt(d[0] as int)] + BytesOf(d[1..])
  }

  /** `for x in v`: arrays yield their items, dicts their keys, strings their characters,
      bytes their integer values; numbers and dates are not iterable. */
  function Iterate(v: PValue): (r: Result<seq<PValue>>)
    ensures v.PArray? ==> r == Ok(v.items)
    ensures r.Err? <==> (v.PInt? || v.PReal? || v.PBool? || v.PDate?)
  {
    match v
    case PArray(xs) => Ok(xs)
    case PDict(es) => Ok(KeysOf(es))
    case PStr(s) => Ok(CharsOf(s))
    case PData(d) => Ok(BytesOf(d))
    case _ => Err(TypeError)
  }

  /** `for x in v` where `v` may be None. */
  function IterateOpt(v: Option<PValue>): (r: Result<seq<PValue>>)
    ensures v.None? ==> r == Err(TypeError)
    ensures v.Some? ==> r == Iterate(v.value)
  {
    match v
    case None => Err(TypeError)
    case Some(x) => Iterate(x)
  }

  /** Python `int()` of a float: truncation toward zero. */
  function Trunc(r: real): (n: int)
    ensures r >= 0.0 ==> n as real <= r < n as real + 1.0
    ensures r < 0.0 ==> n as real - 1.0 < r <= n as real
  {
    if r >= 0.0 then r.Floor else -((-r).Floor)
  }

  /** The numeric value of an int, float or bool; None for anything else. */
  function NumOf(v: PValue): (r: Option<real>)
    ensures r.Some? <==> (v.PInt? || v.PReal? || v.PBool?)
  {
    match v
    case PInt(i) => Some(i as real)
    case PReal(x) => Some(x)
    case PBool(b) => Some(if b then 1.0 else 0.0)
    case _ => None
  }

  /** Python `int(v)`. Strings are not parsed as numerals (a string raises ValueError). */
  function IntOf(v: PValue): (r: Result<int>)
    ensures v.PInt? ==> r == Ok(v.i)
    ensures v.PReal? ==> r == Ok(Trunc(v.r))
    ensures r.Ok? <==> (v.PInt? || v.PReal? || v.PBool?)
  {
    match v
    case PInt(i) => Ok(i)
    case PReal(x) => Ok(Trunc(x))
    case PBool(b) => Ok(if b then 1 else 0)
    case PStr(_) => Err(ValueError)
    case _ => Err(TypeError)
  }

  /** Python `float(v)`. Strings are not parsed as numerals (a string raises ValueError). */
  function FloatOf(v: PValue): (r: Result<real>)
    ensures r.Ok? <==> NumOf(v).Some?
    ensures r.Ok? ==> r.value == NumOf(v).value
  {
    match v
    case PInt(i) => Ok(i as real)
    case PReal(x) => Ok(x)
    case PBool(b) => Ok(if b then 1.0 else 0.0)
    case PStr(_) => Err(ValueError)
    case _ => Err(TypeError)
  }

  /** Python `xs[i]` for an integer index: negative indices count from the end. */
  function PyIndex<T>(xs: seq<T>, i: int): (r: Result<T>)
    ensures r.Ok? <==> -|xs| <= i < |xs|
    ensures 0 <= i < |xs| ==> r == Ok(xs[i])
    ensures -|xs| <= i < 0 ==> r == Ok(xs[|xs| + i])
  {
    if 0 <= i < |xs| then Ok(xs[i])
    else if -|xs| <= i < 0 then Ok(xs[|xs| + i])
    else Err(IndexError)
  }

  /** `v[i]` with an integer subscript: lists and strings index (negative from the end),
      bytes give an int, a dict with string keys has no key `i`, and numbers are not
      subscriptable. */
  function SubscriptIndex(v: PValue, i: int): (r: Result<PValue>)
    ensures v.PArray? ==> r == PyIndex(v.items, i)
    ensures v.PDict? ==> r == Err(KeyError)
    ensures (v.PInt? || v.PReal? || v.PBool? || v.PDate?) ==> r == Err(TypeError)
  {
    match v
    case PArray(xs) => PyIndex(xs, i)
    case PDict(_) => Err(KeyError)
    case PStr(s) =>
      var c :- PyIndex(s, i);
      Ok(PStr([c]))
    case PData(d) =>
      var b :- PyIndex(d, i);
      Ok(PInt(b as int))
    case _ => Err(TypeError)
  }

  /** Python `xs[-n:]` for a positive `n`: the last `n` elements, or all of them. */
  function LastN<T>(xs: seq<T>, n: nat): (r: seq<T>)
    requires n > 0
    ensures |r| == if |xs| <= n then |xs| else n
    ensures r == xs[|xs| - |r|..]
  {
    if |xs| <= n then xs else xs[|xs| - n..]
  }

  function Min(a: int, b: int): int {
    if a <= b then a else b
  }

  /** A Python loop that builds one result per item and stops at the first exception. */
  function MapResult<A, B>(xs: seq<A>, f: A -> Result<B>): (r: Result<seq<B>>)
    ensures r.Ok? ==> |r.value| == |xs| && forall i :: 0 <= i < |xs| ==> f(xs[i]) == Ok(r.value[i])
    ensures r.Err? <==> exists i :: 0 <= i < |xs| && f(xs[i]).Err?
  {
    if xs == [] then Ok([])
    else
      var y :- f(xs[0]);
      var ys :- MapResult(xs[1..], f);
      assert forall i :: 1 <= i < |xs| ==> xs[i] == xs[1..][i - 1];
      Ok([y] + ys)
  }

  /** Python `c * n` for a one-character string: `n` copies, none when `n` is not positive. */
  function RepeatChar(c: char, n: int): (r: string)
    ensures |r| == if n <= 0 then 0 else n
    ensures forall i :: 0 <= i < |r| ==> r[i] == c
  {
    if n <= 0 then [] else seq(n, _ => c)
  }

  /** Python `sum(xs)` over reals. */
  function Sum(xs: seq<real>): real
    decreases |xs|
  {
    if xs == [] then 0.0 else xs[0] + Sum(xs[1..])
  }

  lemma {:induction false} SumAppend(a: seq<real>, b: seq<real>)
    ensures Sum(a + b) == Sum(a) + Sum(b)
    decreases |a|
  {
    if a == [] {
      assert a + b == b;
    } else {
      assert (a + b)[1..] == a[1..] + b;
      SumAppend(a[1..], b);
    }
  }
}

=== FILE: snapshots.dfy ===
/** The snapshot records each collector publishes (the dataclasses of the metrics store),
    with their defaults, and the flat-index core lookup of the Intel processor tree. */
module Snapshots {
  import opened Python

  /** A reading copied verbatim from the raw document, or Python's None. */
  type Sample = Option<PValue>

  datatype ProcessorType = Intel | M1

  datatype Smc = Smc(cpuDie: Sample, gpuDie: Sample, fan: Sample)

  datatype PowerMetricsBattery = PowerMetricsBattery(pluggedIn: Option<bool>, dischargeRate: Option<real>)

  datatype Network = Network(
    ipacketRate: Sample,
    opacketRate: Sample,
    ibyteRate: Sample,
    obyteRate: Sample,
    ipacketRateHistory: Option<seq<Sample>>,
    opacketRateHistory: Option<seq<Sample>>,
    ibyteRateHistory: Option<seq<Sample>>,
    obyteRateHistory: Option<seq<Sample>>)

  datatype CPU = CPU(cpuNumber: Sample, freqHz: Sample, freqRatio: Sample)

  datatype M1GPU = M1GPU(
    gpuEnergyMa: Sample,
    gpuEnergyMaHistory: Option<seq<Sample>>,
    idleRatio: Sample,
    freqHz: Sample)

  datatype CPUCore = CPUCore(cpuCoreIndex: Sample, cStateRatio: Sample, cpus: Option<seq<CPU>>)

  datatype ProcessorPackage = ProcessorPackage(cores: Option<seq<CPUCore>>, cStateRatio: Sample)

  datatype M1CPUCluster = M1CPUCluster(name: Sample, idleRatio: Sample, cpus: Option<seq<CPU>>)

  datatype M1ProcessorPackage = M1ProcessorPackage(
    cpuEnergy: Sample,
    cpuEnergyHistory: Option<seq<Sample>>,
    gpuEnergy: Sample,
    clusters: Option<seq<M1CPUCluster>>)

  /** The package-watts history only ever holds truthy readings, so its samples are
      never None. */
  datatype ProcessorIntel = ProcessorIntel(
    packageWattsHistory: Option<seq<PValue>>,
    packages: Option<seq<ProcessorPackage>>)

  datatype Disk = Disk(
    ropsPerS: Sample,
    wopsPerS: Sample,
    rbytesPerS: Sample,
    wbytesPerS: Sample,
    ropsPerSHistory: Option<seq<Sample>>,
    wopsPerSHistory: Option<seq<Sample>>,
    rbytesPerSHistory: Option<seq<Sample>>,
    wbytesPerSHistory: Option<seq<Sample>>)

  datatype PowerMetrics = PowerMetrics(
    backlight: Option<int>,
    battery: PowerMetricsBattery,
    smc: Smc,
    tasks: Option<PValue>,
    processorIntel: ProcessorIntel,
    processorType: Option<ProcessorType>,
    network: Network,
    disk: Disk,
    m1Gpu: M1GPU,
    processorM1: M1ProcessorPackage)

  datatype AdapterDetails = AdapterDetails(
    adapterVoltage: Sample,
    current: Sample,
    watts: Sample,
    description: Sample,
    manufacturer: Sample,
    name: Sample)

  datatype AppleSmartBattery = AppleSmartBattery(
    appleRawCurrentCapacity: Sample,
    appleRawMaxCapacity: Sample,
    designCapacity: Sample,
    temperature: Sample,
    cycleCount: Sample,
    externalChargeCable: Sample,
    externalConnected: Sample,
    isCharging: Sample,
    adapterDetails: AdapterDetails,
    batteryCapacityHistory: Option<seq<(real, PValue)>>)

  datatype IORegMetrics = IORegMetrics(appleSmartBattery: AppleSmartBattery)

  datatype CPUTimesPercent = CPUTimesPercent(user: real, nice: real, system: real, idle: real)

  datatype SwapMemory = SwapMemory(
    totalBytes: int,
    usedBytes: int,
    freeBytes: int,
    percent: real,
    sinBytes: int,
    soutBytes: int)

  datatype VirtualMemory = VirtualMemory(
    total: int,
    available: int,
    percent: real,
    used: int,
    free: int,
    active: int,
    inactive: int,
    wired: int)

  /** What the operating system reports for virtual memory (psutil's `svmem` on macOS). */
  datatype VirtualMemoryReading = VirtualMemoryReading(
    total: int,
    available: int,
    percent: real,
    used: int,
    free: int,
    active: int,
    inactive: int,
    wired: int)

  /** The virtual-memory slot starts as a default record; the collector stores the
      operating system's reading itself in it. */
  datatype VirtualMemorySlot = Built(vm: VirtualMemory) | Raw(reading: VirtualMemoryReading)

  datatype LoadAvg = LoadAvg(load1: real, load5: real, load15: real)

  datatype PsutilMetrics = PsutilMetrics(
    cpuPercentPercpu: Option<seq<CPUTimesPercent>>,
    cpuPercent: CPUTimesPercent,
    cpuCount: int,
    cpuPhysicalCount: int,
    swapMemory: SwapMemory,
    virtualMemory: VirtualMemorySlot,
    loadavg: LoadAvg,
    bootTime: Option<real>)

  // Dataclass defaults: optional fields and histories start as None, nested records
  // are default-constructed, psutil counters start at zero.

  const FreshSmc := Smc(None, None, None)
  const FreshPowerMetricsBattery := PowerMetricsBattery(None, None)
  const FreshNetwork := Network(None, None, None, None, None, None, None, None)
  const FreshCPU := CPU(None, None, None)
  const FreshM1GPU := M1GPU(None, None, None, None)
  const FreshCPUCore := CPUCore(None, None, None)
  const FreshProcessorPackage := ProcessorPackage(None, None)
  const FreshM1CPUCluster := M1CPUCluster(None, None, None)
  const FreshM1ProcessorPackage := M1ProcessorPackage(None, None, None, None)
  const FreshProcessorIntel := ProcessorIntel(None, None)
  const FreshDisk := Disk(None, None, None, None, None, None, None, None)
  const FreshPowerMetrics := PowerMetrics(
    None, FreshPowerMetricsBattery, FreshSmc, None, FreshProcessorIntel, None,
    FreshNetwork, FreshDisk, FreshM1GPU, FreshM1ProcessorPackage)
  const FreshAdapterDetails := AdapterDetails(None, None, None, None, None, None)
  const FreshAppleSmartBattery := AppleSmartBattery(
    None, None, None, None, None, None, None, None, FreshAdapterDetails, None)
  const FreshIORegMetrics := IORegMetrics(FreshAppleSmartBattery)
  const FreshCPUTimesPercent := CPUTimesPercent(0.0, 0.0, 0.0, 0.0)
  const FreshSwapMemory := SwapMemory(0, 0, 0, 0.0, 0, 0)
  const FreshVirtualMemory := VirtualMemory(0, 0, 0.0, 0, 0, 0, 0, 0)
  const FreshLoadAvg := LoadAvg(0.0, 0.0, 0.0)

  /** A fresh psutil snapshot; the two CPU counts are read from the operating system
      once, when the store module is loaded. */
  function FreshPsutilMetrics(cpuCount: int, cpuPhysicalCount: int): PsutilMetrics {
    PsutilMetrics(
      None, FreshCPUTimesPercent, cpuCount, cpuPhysicalCount, FreshSwapMemory,
      Built(FreshVirtualMemory), FreshLoadAvg, None)
  }

  // ---------------------------------------------------------------------------------
  // Flat-index core lookup over the Intel packages

  /** Does the package have at least one core (`package.cores` is truthy)? */
  predicate HasCores(p: ProcessorPackage) {
    p.cores.Some? && p.cores.value != []
  }

  /** The cores of the packages laid end to end, up to the first package without cores. */
  function AllCores(ps: seq<ProcessorPackage>): seq<CPUCore> {
    if ps == [] || !HasCores(ps[0]) then []
    else ps[0].cores.value + AllCores(ps[1..])
  }

  /** `ProcessorIntel.get_core` as written: the index is reduced by a package's core
      count only when that count is strictly less than the index, so an index equal to a
      package's core count indexes past its end. */
  function GetCore(pi: ProcessorIntel, coreIndex: int): (r: Result<Option<CPUCore>>)
    ensures pi.packages.None? || pi.packages.value == [] ==> r == Ok(None)
    ensures pi.packages.Some? && pi.packages.value != [] && !HasCores(pi.packages.value[0])
            ==> r == Ok(None)
    ensures pi.packages.Some? && pi.packages.value != [] && HasCores(pi.packages.value[0])
            && 0 <= coreIndex < |pi.packages.value[0].cores.value|
            ==> r == Ok(Some(pi.packages.value[0].cores.value[coreIndex]))
    ensures pi.packages.Some? && pi.packages.value != [] && HasCores(pi.packages.value[0])
            && coreIndex == |pi.packages.value[0].cores.value|
            ==> r == Err(IndexError)
    ensures r.Ok? && r.value.Some? ==> r.value.value in AllCores(pi.packages.value)
  {
    match pi.packages
    case None => Ok(None)
    case Some(ps) => if ps == [] then Ok(None) else CoreScanAsWritten(ps, coreIndex)
  }

  function CoreScanAsWritten(ps: seq<ProcessorPackage>, coreIndex: int): (r: Result<Option<CPUCore>>)
    ensures r.Ok? && r.value.Some? ==> r.value.value in AllCores(ps)
  {
    if ps == [] || !HasCores(ps[0]) then Ok(None)
    else
      var cores := ps[0].cores.value;
      if |cores| < coreIndex then CoreScanAsWritten(ps[1..], coreIndex - |cores|)
      else
        var c :- PyIndex(cores, coreIndex);
        Ok(Some(c))
  }

  /** The lookup as evidently intended: an index equal to a package's core count moves on
      to the next package. */
  function GetCoreFixed(pi: ProcessorIntel, coreIndex: int): (r: Result<Option<CPUCore>>)
    ensures pi.packages.None? || pi.packages.value == [] ==> r == Ok(None)
    ensures r.Ok? && r.value.Some? ==> r.value.value in AllCores(pi.packages.value)
  {
    match pi.packages
    case None => Ok(None)
    case Some(ps) => if ps == [] then Ok(None) else CoreScan(ps, coreIndex)
  }

  function CoreScan(ps: seq<ProcessorPackage>, coreIndex: int): (r: Result<Option<CPUCore>>)
    ensures r.Ok? && r.value.Some? ==> r.value.value in AllCores(ps)
  {
    if ps == [] || !HasCores(ps[0]) then Ok(None)
    else
      var cores := ps[0].cores.value;
      if |cores| <= coreIndex then CoreScan(ps[1..], coreIndex - |cores|)
      else
        var c :- PyIndex(cores, coreIndex);
        Ok(Some(c))
  }

  /** The corrected lookup addresses the flattened core list: every index within it gives
      that core, and every index past it gives None. */
  lemma {:induction false} CoreScanIsFlatIndex(ps: seq<ProcessorPackage>, coreIndex: int)
    requires 0 <= coreIndex
    ensures coreIndex < |AllCores(ps)| ==> CoreScan(ps, coreIndex) == Ok(Some(AllCores(ps)[coreIndex]))
    ensures coreIndex >= |AllCores(ps)| ==> CoreScan(ps, coreIndex) == Ok(None)
    decreases |ps|
  {
    if ps == [] || !HasCores(ps[0]) {
    } else {
      var cores := ps[0].cores.value;
      if |cores| <= coreIndex {
        CoreScanIsFlatIndex(ps[1..], coreIndex - |cores|);
      }
    }
  }

  lemma GetCoreFixedIsFlatIndex(pi: ProcessorIntel, coreIndex: int)
    requires pi.packages.Some? && 0 <= coreIndex
    ensures coreIndex < |AllCores(pi.packages.value)|
            ==> GetCoreFixed(pi, coreIndex) == Ok(Some(AllCores(pi.packages.value)[coreIndex]))
    ensures coreIndex >= |AllCores(pi.packages.value)| ==> GetCoreFixed(pi, coreIndex) == Ok(None)
  {
    CoreScanIsFlatIndex(pi.packages.value, coreIndex);
  }

  /** How many leading packages have cores: the packages the scan can reach. */
  function PackagesWithCores(ps: seq<ProcessorPackage>): (n: nat)
    ensures n <= |ps|
  {
    if ps == [] || !HasCores(ps[0]) then 0 else 1 + PackagesWithCores(ps[1..])
  }

  /** `i` is where one of the reachable packages ends in the flattened core list: the
      total core count of the first `k` packages, for some `k >= 1`. */
  predicate AtPackageEnd(ps: seq<ProcessorPackage>, i: int) {
    exists k :: 1 <= k <= PackagesWithCores(ps) && i == |AllCores(ps[..k])|
  }

  /** The cores of the first `k` packages are the first package's followed by those of
      the next `k - 1`. */
  lemma AllCoresPrefix(ps: seq<ProcessorPackage>, k: nat)
    requires 1 <= k <= |ps| && HasCores(ps[0])
    ensures AllCores(ps[..k]) == ps[0].cores.value + AllCores(ps[1..][..k - 1])
  {
    assert ps[..k][0] == ps[0];
    assert ps[..k][1..] == ps[1..][..k - 1];
  }

  /** The package ends of a list are the first package's end and, shifted by its core
      count, the package ends of the remaining packages. */
  lemma AtPackageEndStep(ps: seq<ProcessorPackage>, i: int)
    requires ps != [] && HasCores(ps[0])
    ensures var c := |ps[0].cores.value|;
      AtPackageEnd(ps, i) <==> i == c || AtPackageEnd(ps[1..], i - c)
  {
    var c := |ps[0].cores.value|;
    if AtPackageEnd(ps, i) {
      var k :| 1 <= k <= PackagesWithCores(ps) && i == |AllCores(ps[..k])|;
      AllCoresPrefix(ps, k);
      if k > 1 {
        assert 1 <= k - 1 <= PackagesWithCores(ps[1..]) && i - c == |AllCores(ps[1..][..k - 1])|;
      }
    }
    if i == c {
      AllCoresPrefix(ps, 1);
      assert ps[1..][..0] == [];
      assert 1 <= 1 <= PackagesWithCores(ps) && i == |AllCores(ps[..1])|;
    }
    if AtPackageEnd(ps[1..], i - c) {
      var k :| 1 <= k <= PackagesWithCores(ps[1..]) && i - c == |AllCores(ps[1..][..k])|;
      AllCoresPrefix(ps, k + 1);
      assert 1 <= k + 1 <= PackagesWithCores(ps) && i == |AllCores(ps[..k + 1])|;
    }
  }

  /** Every package end lies after at least one core. */
  lemma AtPackageEndPositive(ps: seq<ProcessorPackage>, i: int)
    ensures AtPackageEnd(ps, i) ==> i > 0
  {
    if AtPackageEnd(ps, i) {
      var k :| 1 <= k <= PackagesWithCores(ps) && i == |AllCores(ps[..k])|;
      AllCoresPrefix(ps, k);
    }
  }

  /** The scan as written agrees with the corrected scan on every index except the package
      ends, where it indexes one past a package's last core and raises IndexError. */
  lemma {:induction false} CoreScanAsWrittenAgrees(ps: seq<ProcessorPackage>, coreIndex: int)
    ensures AtPackageEnd(ps, coreIndex) ==> CoreScanAsWritten(ps, coreIndex) == Err(IndexError)
    ensures !AtPackageEnd(ps, coreIndex) ==> CoreScanAsWritten(ps, coreIndex) == CoreScan(ps, coreIndex)
    decreases |ps|
  {
    if ps == [] || !HasCores(ps[0]) {
      assert PackagesWithCores(ps) == 0;
    } else {
      var c := |ps[0].cores.value|;
      AtPackageEndStep(ps, coreIndex);
      if c < coreIndex {
        CoreScanAsWrittenAgrees(ps[1..], coreIndex - c);
      } else if coreIndex < c {
        AtPackageEndPositive(ps[1..], coreIndex - c);
      }
    }
  }

  /** The reachable packages hold all the cores the scan can see. */
  lemma {:induction false} AllCoresReachable(ps: seq<ProcessorPackage>)
    ensures AllCores(ps[..PackagesWithCores(ps)]) == AllCores(ps)
    decreases |ps|
  {
    var n := PackagesWithCores(ps);
    if n == 0 {
      assert ps[..0] == [];
    } else {
      AllCoresReachable(ps[1..]);
      AllCoresPrefix(ps, n);
    }
  }

  /** `get_core` as written on every non-negative index: IndexError at a package end, the
      core at that position of the flattened list at every other index within it, and None
      past it; and the first index past the last core is always a package end, so asking
      for one core too many raises instead of returning None. */
  lemma GetCoreAsWrittenIsFlatIndex(pi: ProcessorIntel, coreIndex: int)
    requires pi.packages.Some? && 0 <= coreIndex
    ensures var ps := pi.packages.value;
      AtPackageEnd(ps, coreIndex) ==> GetCore(pi, coreIndex) == Err(IndexError)
    ensures var ps := pi.packages.value;
      !AtPackageEnd(ps, coreIndex) && coreIndex < |AllCores(ps)|
      ==> GetCore(pi, coreIndex) == Ok(Some(AllCores(ps)[coreIndex]))
    ensures var ps := pi.packages.value;
      !AtPackageEnd(ps, coreIndex) && coreIndex >= |AllCores(ps)| ==> GetCore(pi, coreIndex) == Ok(None)
    ensures var ps := pi.packages.value;
      AllCores(ps) != [] ==> AtPackageEnd(ps, |AllCores(ps)|)
  {
    var ps := pi.packages.value;
    CoreScanAsWrittenAgrees(ps, coreIndex);
    CoreScanIsFlatIndex(ps, coreIndex);
    AllCoresReachable(ps);
    var n := PackagesWithCores(ps);
    if AllCores(ps) != [] {
      assert n >= 1;
      assert 1 <= n <= PackagesWithCores(ps) && |AllCores(ps)| == |AllCores(ps[..n])|;
    }
  }

  /** Two packages with cores [a, b] and [c]: index 2 names core c, yet the lookup as
      written indexes the first package at 2 and raises IndexError; the corrected lookup
      returns c. */
  lemma GetCoreOffByOne(a: CPUCore, b: CPUCore, c: CPUCore)
    ensures var pi := ProcessorIntel(None, Some([ProcessorPackage(Some([a, b]), None), ProcessorPackage(Some([c]), None)]));
            && |AllCores(pi.packages.value)| == 3
            && GetCore(pi, 2) == Err(IndexError)
            && GetCoreFixed(pi, 2) == Ok(Some(c))
  {
    var pi := ProcessorIntel(None, Some([ProcessorPackage(Some([a, b]), None), ProcessorPackage(Some([c]), None)]));
    var ps := pi.packages.value;
    assert AllCores(ps[1..][1..]) == [];
    assert AllCores(ps) == [a, b, c];
    GetCoreFixedIsFlatIndex(pi, 2);
  }
}

=== FILE: store.dfy ===
/** The process-wide metrics store: one slot per source. The per-source read/write locks
    only serialise access, so each accessor is a plain read or write of its slot. */
module Store {
  import opened Snapshots

  /** What the ioreg slot can hold. `set_powermetrics` as written stores a power-metrics
      snapshot here, so the slot is not always an ioreg snapshot. */
  datatype IORegSlot = IORegHeld(io: IORegMetrics) | PowerHeld(pm: PowerMetrics)

  datatype Metrics = Metrics(
    powermetrics: PowerMetrics,
    ioregmetrics: IORegSlot,
    psutilmetrics: PsutilMetrics)

  /** The store at start-up: every slot holds a fresh snapshot. */
  function InitialMetrics(cpuCount: int, cpuPhysicalCount: int): Metrics {
    Metrics(FreshPowerMetrics, IORegHeld(FreshIORegMetrics), FreshPsutilMetrics(cpuCount, cpuPhysicalCount))
  }

  function GetPsutilmetrics(m: Metrics): PsutilMetrics {
    m.psutilmetrics
  }

  function GetPowermetrics(m: Metrics): PowerMetrics {
    m.powermetrics
  }

  function GetIoregmetrics(m: Metrics): IORegSlot {
    m.ioregmetrics
  }

  /** `set_psutilmetrics`: the psutil getter then returns `p`; the other slots keep their values. */
  function SetPsutilmetrics(m: Metrics, p: PsutilMetrics): (m': Metrics)
    ensures GetPsutilmetrics(m') == p
    ensures GetPowermetrics(m') == GetPowermetrics(m)
    ensures GetIoregmetrics(m') == GetIoregmetrics(m)
  {
    m.(psutilmetrics := p)
  }

  /** `set_ioregmetrics`: the ioreg getter then returns the snapshot; the other slots keep their values. */
  function SetIoregmetrics(m: Metrics, io: IORegMetrics): (m': Metrics)
    ensures GetIoregmetrics(m') == IORegHeld(io)
    ensures GetPowermetrics(m') == GetPowermetrics(m)
    ensures GetPsutilmetrics(m') == GetPsutilmetrics(m)
  {
    m.(ioregmetrics := IORegHeld(io))
  }

  /** `set_powermetrics` as written: it takes the power-metrics lock but assigns the ioreg
      slot, so the power-metrics getter keeps returning the previous snapshot. */
  function SetPowermetrics(m: Metrics, p: PowerMetrics): (m': Metrics)
    ensures GetPowermetrics(m') == GetPowermetrics(m)
    ensures GetIoregmetrics(m') == PowerHeld(p)
    ensures GetPsutilmetrics(m') == GetPsutilmetrics(m)
  {
    m.(ioregmetrics := PowerHeld(p))
  }

  /** `set_powermetrics` as evidently intended: it replaces the power-metrics slot. */
  function SetPowermetricsFixed(m: Metrics, p: PowerMetrics): (m': Metrics)
    ensures GetPowermetrics(m') == p
    ensures GetIoregmetrics(m') == GetIoregmetrics(m)
    ensures GetPsutilmetrics(m') == GetPsutilmetrics(m)
  {
    m.(powermetrics := p)
  }

  /** Setting a new power-metrics snapshot through the setter as written is invisible to
      the power-metrics getter, whereas the corrected setter makes it visible. */
  lemma SetPowermetricsLosesSnapshot(m: Metrics, p: PowerMetrics)
    requires p != GetPowermetrics(m)
    ensures GetPowermetrics(SetPowermetrics(m, p)) != p
    ensures GetPowermetrics(SetPowermetricsFixed(m, p)) == p
  {
  }
}

=== FILE: tasks.dfy ===
/** The task table: a table of processes keyed by pid, reconciled with each new task
    list from powermetrics, keeping the cursor on the process it was on. */
module Tasks {
  import opened Python
  import Formatting
  import Snapshots

  /** The shown columns; the pid comes first and keys the row. */
  const SHOW_COLUMNS: seq<string> := ["pid", "name", "energy_impact", "cputime_ns"]

  /** One table row: its key and its cells, one per shown column. */
  datatype Row = Row(key: string, cells: seq<PValue>)

  /** The table's rows in display order, and the row index the cursor is on. */
  datatype Table = Table(rows: seq<Row>, cursor: nat)

  /** The widget: the task list it last received, and its table. */
  datatype TaskTable = TaskTable(tasks: PValue, table: Table)

  function EmptyTaskTable(): TaskTable {
    TaskTable(PArray([]), Table([], 0))
  }

  /** `str()` of a pid: decimal for integers, the text itself for strings. */
  function StrOf(v: PValue): string {
    match v
    case PInt(i) => Formatting.DecimalString(i)
    case PStr(s) => s
    case PBool(b) => if b then "True" else "False"
    case _ => ""
  }

  function KeySet(rows: seq<Row>): set<string> {
    set i | 0 <= i < |rows| :: rows[i].key
  }

  predicate HasRow(rows: seq<Row>, key: string) {
    exists i :: 0 <= i < |rows| && rows[i].key == key
  }

  /** The first row with `key`, as `get_row_index` finds it. */
  function RowIndex(rows: seq<Row>, key: string): (r: Option<nat>)
    ensures r.Some? ==> r.value < |rows| && rows[r.value].key == key
    ensures r.Some? ==> forall j :: 0 <= j < r.value ==> rows[j].key != key
    ensures r.None? <==> !HasRow(rows, key)
    decreases |rows|
  {
    if rows == [] then None
    else if rows[0].key == key then Some(0)
    else
      match RowIndex(rows[1..], key)
      case Some(i) => Some(i + 1)
      case None => None
  }

  // ---------------------------------------------------------------------------------
  // One task

  /** `str(task["pid"])`. */
  function TaskKey(task: PValue): (r: Result<string>)
    ensures r.Ok? <==> task.PDict? && HasKey(task.entries, "pid")
    ensures r.Ok? ==> r.value == StrOf(Lookup(task.entries, "pid").value)
  {
    match Subscript(task, "pid")
    case Ok(pid) => Ok(StrOf(pid))
    case Err(e) => Err(e)
  }

  /** `[task[key] for key in show_columns]`. */
  function TaskCells(task: PValue): (r: Result<seq<PValue>>)
    ensures r.Ok? ==>
      && |r.value| == |SHOW_COLUMNS|
      && forall i :: 0 <= i < |SHOW_COLUMNS| ==> Subscript(task, SHOW_COLUMNS[i]) == Ok(r.value[i])
    ensures r.Err? <==> exists i :: 0 <= i < |SHOW_COLUMNS| && Subscript(task, SHOW_COLUMNS[i]).Err?
  {
    MapResult(SHOW_COLUMNS, c => Subscript(task, c))
  }

  /** The row a task shows as: keyed by its pid, holding its shown columns. */
  function TaskRow(task: PValue): (r: Result<Row>)
    ensures r.Ok? ==> TaskKey(task) == Ok(r.value.key) && TaskCells(task) == Ok(r.value.cells)
    ensures r.Err? <==> TaskKey(task).Err? || TaskCells(task).Err?
  {
    match TaskKey(task)
    case Err(e) => Err(e)
    case Ok(key) =>
      match TaskCells(task)
      case Err(e) => Err(e)
      case Ok(cells) => Ok(Row(key, cells))
  }

  /** `update_cell` for every shown column of the row with `key`. */
  function SetCells(rows: seq<Row>, key: string, cells: seq<PValue>): (r: seq<Row>)
    ensures |r| == |rows|
    ensures forall i :: 0 <= i < |rows| ==> r[i] == if rows[i].key == key then Row(key, cells) else rows[i]
  {
    seq(|rows|, i requires 0 <= i < |rows| => if rows[i].key == key then Row(key, cells) else rows[i])
  }

  /** `_update_task`: a pid that was not in the table before this round appends a row
      (a key added earlier in the round is a duplicate); a pid that was updates its
      row's cells. */
  function Place(rows: seq<Row>, tr: Row, existing: set<string>): (r: Result<seq<Row>>)
  {
    if tr.key in existing then Ok(SetCells(rows, tr.key, tr.cells))
    else if HasRow(rows, tr.key) then Err(DuplicateKey)
    else Ok(rows + [tr])
  }

  function UpdateTask(rows: seq<Row>, task: PValue, existing: set<string>): Result<seq<Row>> {
    match TaskRow(task)
    case Err(e) => Err(e)
    case Ok(tr) => Place(rows, tr, existing)
  }

  /** The loop over the task list, in order; the first raising task ends it. */
  function UpdateAll(rows: seq<Row>, tasks: seq<PValue>, existing: set<string>): Result<seq<Row>>
    decreases |tasks|
  {
    if tasks == [] then Ok(rows)
    else
      match UpdateTask(rows, tasks[0], existing)
      case Err(e) => Err(e)
      case Ok(rows1) => UpdateAll(rows1, tasks[1..], existing)
  }

  /** `set(str(t["pid"]) for t in tasks)`. */
  function NewKeys(tasks: seq<PValue>): (r: Result<set<string>>)
    ensures r.Ok? ==> forall k :: k in r.value <==> exists i :: 0 <= i < |tasks| && TaskKey(tasks[i]) == Ok(k)
  {
    match MapResult(tasks, TaskKey)
    case Err(e) => Err(e)
    case Ok(keys) =>
      assert forall k :: k in keys <==> exists i :: 0 <= i < |tasks| && TaskKey(tasks[i]) == Ok(k) by {
        forall k
          ensures k in keys <==> exists i :: 0 <= i < |tasks| && TaskKey(tasks[i]) == Ok(k)
        {
          if k in keys {
            var i :| 0 <= i < |keys| && keys[i] == k;
            assert TaskKey(tasks[i]) == Ok(k);
          }
        }
      }
      Ok(set k | k in keys)
  }

  /** `remove_row` for every key that was in the table before this round and is not a
      new key. */
  function RemoveStale(rows: seq<Row>, existing: set<string>, newKeys: set<string>): (r: seq<Row>)
    decreases |rows|
  {
    if rows == [] then []
    else
      (if rows[0].key in existing && rows[0].key !in newKeys then [] else [rows[0]])
      + RemoveStale(rows[1..], existing, newKeys)
  }

  // ---------------------------------------------------------------------------------
  // The cursor

  /** `get_cursor_row_key`: nothing on row 0 ("no rows at the beginning") or past the
      last row (the `RowDoesNotExist` the caller catches); otherwise the row's first cell,
      the pid value itself. */
  function CursorKey(t: Table): (r: Result<Option<PValue>>)
    ensures r.Ok? && r.value.Some? ==>
      && 0 < t.cursor < |t.rows| && t.rows[t.cursor].cells != []
      && r.value.value == t.rows[t.cursor].cells[0]
    ensures r.Err? ==> r.error == IndexError
    ensures t.cursor == 0 || t.cursor >= |t.rows| ==> r == Ok(None)
    ensures 0 < t.cursor < |t.rows| ==> (r.Ok? <==> t.rows[t.cursor].cells != [])
    ensures 0 < t.cursor < |t.rows| ==> r.Ok? ==> r.value.Some?
  {
    if t.cursor == 0 || t.cursor >= |t.rows| then Ok(None)
    else if t.rows[t.cursor].cells == [] then Err(IndexError)
    else Ok(Some(t.rows[t.cursor].cells[0]))
  }

  /** `old_cursor_row_key and old_cursor_row_key in new_keys` as written: the pid value
      is looked up among the string keys, so only a non-empty string pid can match. */
  predicate RestoresAsWritten(held: Option<PValue>, newKeys: set<string>) {
    held.Some? && Truthy(held.value) && held.value.PStr? && held.value.s in newKeys
  }

  /** The restore condition evidently intended: the pid's key survives. */
  predicate RestoresFixed(held: Option<PValue>, newKeys: set<string>) {
    held.Some? && StrOf(held.value) in newKeys
  }

  /** `reset_cursor`: move the cursor to the row with `key`. */
  function ResetCursor(rows: seq<Row>, key: string): (r: Result<Table>)
    ensures HasRow(rows, key) ==>
      && r.Ok? && r.value.rows == rows
      && r.value.cursor < |rows| && rows[r.value.cursor].key == key
    ensures !HasRow(rows, key) ==> r == Err(KeyError)
  {
    match RowIndex(rows, key)
    case Some(i) => Ok(Table(rows, i))
    case None => Err(KeyError)
  }

  // ---------------------------------------------------------------------------------
  // The watcher

  /** The rows after the loop and the removal, with the new keys. */
  function Reconcile(rows: seq<Row>, tasks: seq<PValue>): Result<(seq<Row>, set<string>)> {
    var existing := KeySet(rows);
    match UpdateAll(rows, tasks, existing)
    case Err(e) => Err(e)
    case Ok(rows1) =>
      match NewKeys(tasks)
      case Err(e) => Err(e)
      case Ok(keys) => Ok((RemoveStale(rows1, existing, keys), keys))
  }

  /** A round that goes through leaves a row for every new key, so restoring the cursor
      to a surviving key always finds its row. */
  lemma ReconcileCoversNewKeys(rows: seq<Row>, tasks: seq<PValue>)
    requires Reconcile(rows, tasks).Ok?
    ensures forall k :: k in Reconcile(rows, tasks).value.1 ==> HasRow(Reconcile(rows, tasks).value.0, k)
  {
    var existing := KeySet(rows);
    var rows1 := UpdateAll(rows, tasks, existing).value;
    var keys := NewKeys(tasks).value;
    UpdateAllKeepsKeys(rows, tasks, existing);
    forall k | k in keys
      ensures HasRow(RemoveStale(rows1, existing, keys), k)
    {
      var i :| 0 <= i < |tasks| && TaskKey(tasks[i]) == Ok(k);
      if k in existing {
        var j :| 0 <= j < |rows| && rows[j].key == k;
        assert HasRow(rows, k);
      }
      RemoveStaleKeeps(rows1, existing, keys, k);
    }
  }

  /** The loop keeps every row key it started with and leaves each task's key either
      among the existing keys or on a row. */
  lemma {:induction false} UpdateAllKeepsKeys(rows: seq<Row>, tasks: seq<PValue>, existing: set<string>)
    requires UpdateAll(rows, tasks, existing).Ok?
    ensures forall k :: HasRow(rows, k) ==> HasRow(UpdateAll(rows, tasks, existing).value, k)
    ensures forall i :: 0 <= i < |tasks| ==>
      TaskKey(tasks[i]).Ok?
      && (TaskKey(tasks[i]).value in existing || HasRow(UpdateAll(rows, tasks, existing).value, TaskKey(tasks[i]).value))
    decreases |tasks|
  {
    if tasks != [] {
      var tr := TaskRow(tasks[0]).value;
      var rows1 := Place(rows, tr, existing).value;
      assert HasRow(rows1, tr.key) || tr.key in existing by {
        if tr.key !in existing {
          assert rows1 == rows + [tr] && rows1[|rows|] == tr;
        }
      }
      forall k | HasRow(rows, k)
        ensures HasRow(rows1, k)
      {
        var j :| 0 <= j < |rows| && rows[j].key == k;
        assert rows1[j].key == k;
      }
      UpdateAllKeepsKeys(rows1, tasks[1..], existing);
      forall i | 0 <= i < |tasks|
        ensures TaskKey(tasks[i]).Ok?
          && (TaskKey(tasks[i]).value in existing || HasRow(UpdateAll(rows, tasks, existing).value, TaskKey(tasks[i]).value))
      {
        if i > 0 {
          assert tasks[i] == tasks[1..][i - 1];
        }
      }
    }
  }

  /** A row whose key is a new key survives the removal. */
  lemma {:induction false} RemoveStaleKeeps(rows: seq<Row>, existing: set<string>, newKeys: set<string>, k: string)
    requires HasRow(rows, k) && k in newKeys
    ensures HasRow(RemoveStale(rows, existing, newKeys), k)
    decreases |rows|
  {
    var r := RemoveStale(rows, existing, newKeys);
    if rows[0].key == k {
      assert r[0] == rows[0];
    } else {
      var j :| 0 <= j < |rows| && rows[j].key == k;
      assert rows[1..][j - 1].key == k;
      RemoveStaleKeeps(rows[1..], existing, newKeys, k);
      var rest := RemoveStale(rows[1..], existing, newKeys);
      var m :| 0 <= m < |rest| && rest[m].key == k;
      var front := if rows[0].key in existing && rows[0].key !in newKeys then [] else [rows[0]];
      assert r == front + rest;
      assert r[|front| + m] == rest[m];
    }
  }

  /** `watch_tasks` as written. `len(tasks)` in the debug line raises TypeError for a
      value without a length; an empty list leaves the table as it is. */
  function WatchTasks(t: Table, tasks: PValue): (r: Result<Table>)
    ensures Iterate(tasks).Err? ==> r == Err(TypeError)
    ensures Iterate(tasks).Ok? && !Truthy(tasks) ==> r == Ok(t)
    ensures r.Ok? && Truthy(tasks) ==>
      && CursorKey(t).Ok?
      && Reconcile(t.rows, Iterate(tasks).value).Ok?
      && var (rows, keys) := Reconcile(t.rows, Iterate(tasks).value).value;
         r.value.rows == rows
         && (RestoresAsWritten(CursorKey(t).value, keys) ==>
               r.value.cursor < |rows| && rows[r.value.cursor].key == CursorKey(t).value.value.s)
         && (!RestoresAsWritten(CursorKey(t).value, keys) ==> r.value.cursor == t.cursor)
    ensures Iterate(tasks).Ok? && Truthy(tasks) ==>
      (r.Ok? <==> CursorKey(t).Ok? && Reconcile(t.rows, Iterate(tasks).value).Ok?)
  {
    match Iterate(tasks)
    case Err(_) => Err(TypeError)
    case Ok(items) =>
      if !Truthy(tasks) then Ok(t)
      else
        match CursorKey(t)
        case Err(e) => Err(e)
        case Ok(held) =>
          match Reconcile(t.rows, items)
          case Err(e) => Err(e)
          case Ok((rows, keys)) =>
            ReconcileCoversNewKeys(t.rows, items);
            if RestoresAsWritten(held, keys) then ResetCursor(rows, held.value.s)
            else Ok(Table(rows, t.cursor))
  }

  /** `watch_tasks` with the cursor's pid compared as a key. */
  function WatchTasksFixed(t: Table, tasks: PValue): (r: Result<Table>)
    ensures Iterate(tasks).Err? ==> r == Err(TypeError)
    ensures Iterate(tasks).Ok? && !Truthy(tasks) ==> r == Ok(t)
    ensures r.Ok? && Truthy(tasks) ==>
      && CursorKey(t).Ok?
      && Reconcile(t.rows, Iterate(tasks).value).Ok?
      && var (rows, keys) := Reconcile(t.rows, Iterate(tasks).value).value;
         r.value.rows == rows
         && (RestoresFixed(CursorKey(t).value, keys) ==>
               r.value.cursor < |rows| && rows[r.value.cursor].key == StrOf(CursorKey(t).value.value))
         && (!RestoresFixed(CursorKey(t).value, keys) ==> r.value.cursor == t.cursor)
    ensures Iterate(tasks).Ok? && Truthy(tasks) ==>
      (r.Ok? <==> CursorKey(t).Ok? && Reconcile(t.rows, Iterate(tasks).value).Ok?)
  {
    match Iterate(tasks)
    case Err(_) => Err(TypeError)
    case Ok(items) =>
      if !Truthy(tasks) then Ok(t)
      else
        match CursorKey(t)
        case Err(e) => Err(e)
        case Ok(held) =>
          match Reconcile(t.rows, items)
          case Err(e) => Err(e)
          case Ok((rows, keys)) =>
            ReconcileCoversNewKeys(t.rows, items);
            if RestoresFixed(held, keys) then ResetCursor(rows, StrOf(held.value))
            else Ok(Table(rows, t.cursor))
  }

  /** `update_tasks`: take the store's task list when it is truthy and hand it to the
      watcher; otherwise nothing changes. */
  function UpdateTasks(w: TaskTable, pm: Snapshots.PowerMetrics): (r: Result<TaskTable>)
    ensures !TruthyOpt(pm.tasks) ==> r == Ok(w)
    ensures r.Ok? && TruthyOpt(pm.tasks) ==>
      r.value.tasks == pm.tasks.value && WatchTasks(w.table, pm.tasks.value) == Ok(r.value.table)
    ensures TruthyOpt(pm.tasks) ==> (r.Ok? <==> WatchTasks(w.table, pm.tasks.value).Ok?)
    ensures TruthyOpt(pm.tasks) && r.Err? ==> r == Err(WatchTasks(w.table, pm.tasks.value).error)
  {
    if TruthyOpt(pm.tasks) then
      match WatchTasks(w.table, pm.tasks.value)
      case Err(e) => Err(e)
      case Ok(table) => Ok(TaskTable(pm.tasks.value, table))
    else Ok(w)
  }

  // ---------------------------------------------------------------------------------
  // The round's table, stated directly

  predicate DistinctKeys(rows: seq<Row>) {
    forall i, j :: 0 <= i < j < |rows| ==> rows[i].key != rows[j].key
  }

  /** The last of the task rows with `key`. */
  function LastWith(trs: seq<Row>, key: string): (r: Option<Row>)
    ensures r.Some? ==> r.value.key == key && r.value in trs
    ensures r.None? <==> forall i :: 0 <= i < |trs| ==> trs[i].key != key
    decreases |trs|
  {
    if trs == [] then None
    else if trs[|trs| - 1].key == key then Some(trs[|trs| - 1])
    else
      var r := LastWith(trs[..|trs| - 1], key);
      assert forall i :: 0 <= i < |trs| - 1 ==> trs[..|trs| - 1][i] == trs[i];
      r
  }

  /** A row brought up to date: the last task row with its key, or the row as it was. */
  function Refreshed(row: Row, trs: seq<Row>): (r: Row)
    ensures r.key == row.key
  {
    match LastWith(trs, row.key)
    case Some(tr) => tr
    case None => row
  }

  function Refresh(rows: seq<Row>, trs: seq<Row>): (r: seq<Row>)
    ensures |r| == |rows| && forall i :: 0 <= i < |rows| ==> r[i] == Refreshed(rows[i], trs)
  {
    seq(|rows|, i requires 0 <= i < |rows| => Refreshed(rows[i], trs))
  }

  /** The task rows whose keys were not in the table, in task order. */
  function Fresh(trs: seq<Row>, existing: set<string>): (r: seq<Row>)
    ensures forall i :: 0 <= i < |r| ==> r[i] in trs && r[i].key !in existing
    ensures forall i :: 0 <= i < |trs| && trs[i].key !in existing ==> trs[i] in r
    decreases |trs|
  {
    if trs == [] then []
    else
      var front := Fresh(trs[..|trs| - 1], existing);
      assert forall i :: 0 <= i < |trs| - 1 ==> trs[..|trs| - 1][i] == trs[i];
      front + (if trs[|trs| - 1].key in existing then [] else [trs[|trs| - 1]])
  }

  /** The rows whose keys are among `keys`, in order. */
  function Only(rows: seq<Row>, keys: set<string>): (r: seq<Row>)
    ensures forall i :: 0 <= i < |r| ==> r[i] in rows && r[i].key in keys
    ensures forall i :: 0 <= i < |rows| && rows[i].key in keys ==> rows[i] in r
    decreases |rows|
  {
    if rows == [] then []
    else
      var rest := Only(rows[1..], keys);
      assert forall i :: 1 <= i < |rows| ==> rows[i] == rows[1..][i - 1];
      (if rows[0].key in keys then [rows[0]] else []) + rest
  }

  /** The table after a round, stated directly: the rows that were there and whose pid
      still runs, brought up to date and in their old order, then the new pids' rows in
      task order. */
  function Reconciled(rows: seq<Row>, trs: seq<Row>): seq<Row> {
    Only(Refresh(rows, trs), KeySet(trs)) + Fresh(trs, KeySet(rows))
  }

  lemma LastWithSnoc(p: seq<Row>, x: Row, key: string)
    ensures LastWith(p + [x], key) == if x.key == key then Some(x) else LastWith(p, key)
  {
    assert (p + [x])[..|p|] == p;
  }

  lemma FreshSnoc(p: seq<Row>, x: Row, existing: set<string>)
    ensures Fresh(p + [x], existing) == Fresh(p, existing) + (if x.key in existing then [] else [x])
  {
    assert (p + [x])[..|p|] == p;
  }

  lemma RefreshSnoc(rows: seq<Row>, p: seq<Row>, x: Row)
    ensures x.key in KeySet(rows) ==> Refresh(rows, p + [x]) == SetCells(Refresh(rows, p), x.key, x.cells)
    ensures x.key !in KeySet(rows) ==> Refresh(rows, p + [x]) == Refresh(rows, p)
  {
    forall i | 0 <= i < |rows|
      ensures Refreshed(rows[i], p + [x]) == if rows[i].key == x.key then x else Refreshed(rows[i], p)
    {
      LastWithSnoc(p, x, rows[i].key);
    }
    if x.key !in KeySet(rows) {
      forall i | 0 <= i < |rows|
        ensures rows[i].key != x.key
      {
        assert rows[i].key in KeySet(rows);
      }
    }
  }

  lemma SetCellsAppend(a: seq<Row>, b: seq<Row>, key: string, cells: seq<PValue>)
    requires forall i :: 0 <= i < |b| ==> b[i].key != key
    ensures SetCells(a + b, key, cells) == SetCells(a, key, cells) + b
  {
  }

  /** A task row whose pid was in the table updates that row in place. */
  lemma PlaceExisting(rows: seq<Row>, p: seq<Row>, x: Row)
    requires x.key in KeySet(rows)
    ensures var existing := KeySet(rows);
      Place(Refresh(rows, p) + Fresh(p, existing), x, existing)
      == Ok(Refresh(rows, p + [x]) + Fresh(p + [x], existing))
  {
    var existing := KeySet(rows);
    var front := Refresh(rows, p);
    var added := Fresh(p, existing);
    RefreshSnoc(rows, p, x);
    FreshSnoc(p, x, existing);
    assert added + [] == added;
    SetCellsAppend(front, added, x.key, x.cells);
  }

  /** A task row with a pid new to the table, and to the round so far, is appended. */
  lemma PlaceNew(rows: seq<Row>, p: seq<Row>, x: Row)
    requires x.key !in KeySet(rows)
    requires forall i :: 0 <= i < |p| ==> p[i].key != x.key
    ensures var existing := KeySet(rows);
      Place(Refresh(rows, p) + Fresh(p, existing), x, existing)
      == Ok(Refresh(rows, p + [x]) + Fresh(p + [x], existing))
  {
    var existing := KeySet(rows);
    var front := Refresh(rows, p);
    var added := Fresh(p, existing);
    NewKeyAbsent(rows, p, x);
    RefreshSnoc(rows, p, x);
    FreshSnoc(p, x, existing);
    assert (front + added) + [x] == front + (added + [x]);
  }

  /** Before a new pid's row is appended, no row has its key. */
  lemma NewKeyAbsent(rows: seq<Row>, p: seq<Row>, x: Row)
    requires x.key !in KeySet(rows)
    requires forall i :: 0 <= i < |p| ==> p[i].key != x.key
    ensures !HasRow(Refresh(rows, p) + Fresh(p, KeySet(rows)), x.key)
  {
    var front := Refresh(rows, p);
    var added := Fresh(p, KeySet(rows));
    forall i | 0 <= i < |added|
      ensures added[i].key != x.key
    {
      var j :| 0 <= j < |p| && p[j] == added[i];
    }
    forall i | 0 <= i < |front|
      ensures front[i].key != x.key
    {
      assert rows[i].key in KeySet(rows);
    }
    NoRowInEither(front, added, x.key);
  }

  lemma NoRowInEither(a: seq<Row>, b: seq<Row>, key: string)
    requires forall i :: 0 <= i < |a| ==> a[i].key != key
    requires forall i :: 0 <= i < |b| ==> b[i].key != key
    ensures !HasRow(a + b, key)
  {
    forall i | 0 <= i < |a + b|
      ensures (a + b)[i].key != key
    {
      if i < |a| {
        assert (a + b)[i] == a[i];
      } else {
        assert (a + b)[i] == b[i - |a|];
      }
    }
  }

  lemma PlaceStep(rows: seq<Row>, p: seq<Row>, x: Row)
    requires DistinctKeys(p + [x])
    ensures var existing := KeySet(rows);
      Place(Refresh(rows, p) + Fresh(p, existing), x, existing)
      == Ok(Refresh(rows, p + [x]) + Fresh(p + [x], existing))
  {
    if x.key in KeySet(rows) {
      PlaceExisting(rows, p, x);
    } else {
      forall i | 0 <= i < |p|
        ensures p[i].key != x.key
      {
        assert (p + [x])[i] == p[i] && (p + [x])[|p|] == x;
      }
      PlaceNew(rows, p, x);
    }
  }

  /** The loop over task rows already read. */
  function PlaceAll(rows: seq<Row>, trs: seq<Row>, existing: set<string>): Result<seq<Row>>
    decreases |trs|
  {
    if trs == [] then Ok(rows)
    else
      match Place(rows, trs[0], existing)
      case Err(e) => Err(e)
      case Ok(rows1) => PlaceAll(rows1, trs[1..], existing)
  }

  /** The loop over well-formed tasks is the loop over their rows. */
  lemma {:induction false} UpdateAllPlaces(rows: seq<Row>, tasks: seq<PValue>, trs: seq<Row>, existing: set<string>)
    requires |trs| == |tasks| && forall i :: 0 <= i < |tasks| ==> TaskRow(tasks[i]) == Ok(trs[i])
    ensures UpdateAll(rows, tasks, existing) == PlaceAll(rows, trs, existing)
    decreases |tasks|
  {
    if tasks != [] {
      assert TaskRow(tasks[0]) == Ok(trs[0]);
      match Place(rows, trs[0], existing)
      case Err(e) =>
      case Ok(rows1) =>
        assert forall i :: 0 <= i < |tasks| - 1 ==> tasks[1..][i] == tasks[i + 1] && trs[1..][i] == trs[i + 1];
        UpdateAllPlaces(rows1, tasks[1..], trs[1..], existing);
    }
  }

  /** The loop over the remaining task rows, from a table in the round's shape. */
  lemma {:induction false} PlaceAllFrom(rows: seq<Row>, p: seq<Row>, trs: seq<Row>)
    requires DistinctKeys(p + trs)
    ensures var existing := KeySet(rows);
      PlaceAll(Refresh(rows, p) + Fresh(p, existing), trs, existing)
      == Ok(Refresh(rows, p + trs) + Fresh(p + trs, existing))
    decreases |trs|
  {
    if trs == [] {
      assert p + trs == p;
    } else {
      var x := trs[0];
      var q := p + [x];
      assert DistinctKeys(q) by {
        assert forall i :: 0 <= i < |q| ==> q[i] == (p + trs)[i];
      }
      PlaceStep(rows, p, x);
      assert p + trs == q + trs[1..];
      PlaceAllFrom(rows, q, trs[1..]);
    }
  }

  lemma RemoveStaleAppend(a: seq<Row>, b: seq<Row>, existing: set<string>, newKeys: set<string>)
    ensures RemoveStale(a + b, existing, newKeys) == RemoveStale(a, existing, newKeys) + RemoveStale(b, existing, newKeys)
    decreases |a|
  {
    if a != [] {
      assert (a + b)[1..] == a[1..] + b;
      RemoveStaleAppend(a[1..], b, existing, newKeys);
    } else {
      assert a + b == b;
    }
  }

  lemma {:induction false} RemoveStaleOld(rows: seq<Row>, existing: set<string>, newKeys: set<string>)
    requires forall i :: 0 <= i < |rows| ==> rows[i].key in existing
    ensures RemoveStale(rows, existing, newKeys) == Only(rows, newKeys)
    decreases |rows|
  {
    if rows != [] {
      RemoveStaleOld(rows[1..], existing, newKeys);
    }
  }

  lemma {:induction false} RemoveStaleNew(rows: seq<Row>, existing: set<string>, newKeys: set<string>)
    requires forall i :: 0 <= i < |rows| ==> rows[i].key !in existing
    ensures RemoveStale(rows, existing, newKeys) == rows
    decreases |rows|
  {
    if rows != [] {
      RemoveStaleNew(rows[1..], existing, newKeys);
      assert [rows[0]] + rows[1..] == rows;
    }
  }

  function Keys(trs: seq<Row>): (r: seq<string>)
    ensures |r| == |trs| && forall i :: 0 <= i < |trs| ==> r[i] == trs[i].key
  {
    seq(|trs|, i requires 0 <= i < |trs| => trs[i].key)
  }

  lemma TaskKeysOfRows(tasks: seq<PValue>, trs: seq<Row>)
    requires |trs| == |tasks| && forall i :: 0 <= i < |tasks| ==> TaskRow(tasks[i]) == Ok(trs[i])
    ensures MapResult(tasks, TaskKey) == Ok(Keys(trs))
  {
    forall i | 0 <= i < |tasks|
      ensures TaskKey(tasks[i]) == Ok(trs[i].key)
    {
      assert TaskRow(tasks[i]) == Ok(trs[i]);
    }
  }

  lemma KeysAsSet(trs: seq<Row>)
    ensures (set k | k in Keys(trs)) == KeySet(trs)
  {
    var keys := Keys(trs);
    forall k | k in KeySet(trs)
      ensures k in keys
    {
      var i :| 0 <= i < |trs| && trs[i].key == k;
      assert keys[i] == k;
    }
  }

  lemma NewKeysOfRows(tasks: seq<PValue>, trs: seq<Row>)
    requires |trs| == |tasks| && forall i :: 0 <= i < |tasks| ==> TaskRow(tasks[i]) == Ok(trs[i])
    ensures NewKeys(tasks) == Ok(KeySet(trs))
  {
    assert NewKeys(tasks) == Ok(set k | k in Keys(trs)) by {
      TaskKeysOfRows(tasks, trs);
    }
    KeysAsSet(trs);
  }

  /** With every task well formed and no pid twice, a round leaves exactly the
      reconciled table: the surviving rows updated in place, the new pids appended. */
  lemma ReconcileIsReconciled(rows: seq<Row>, tasks: seq<PValue>, trs: seq<Row>)
    requires |trs| == |tasks| && forall i :: 0 <= i < |tasks| ==> TaskRow(tasks[i]) == Ok(trs[i])
    requires DistinctKeys(trs)
    ensures Reconcile(rows, tasks) == Ok((Reconciled(rows, trs), KeySet(trs)))
  {
    var existing := KeySet(rows);
    assert Refresh(rows, []) == rows;
    assert Fresh([], existing) == [];
    assert [] + trs == trs;
    UpdateAllPlaces(rows, tasks, trs, existing);
    PlaceAllFrom(rows, [], trs);
    assert rows + [] == rows;
    NewKeysOfRows(tasks, trs);
    var front := Refresh(rows, trs);
    var added := Fresh(trs, existing);
    RemoveStaleAppend(front, added, existing, KeySet(trs));
    forall i | 0 <= i < |front|
      ensures front[i].key in existing
    {
      assert rows[i].key in existing;
    }
    RemoveStaleOld(front, existing, KeySet(trs));
    RemoveStaleNew(added, existing, KeySet(trs));
  }

  /** After a round every row is one task's row: its pid's shown columns as that task
      holds them. */
  lemma ReconciledRowsAreTaskRows(rows: seq<Row>, trs: seq<Row>)
    ensures forall r :: r in Reconciled(rows, trs) ==> r in trs
  {
    var front := Only(Refresh(rows, trs), KeySet(trs));
    forall r | r in front
      ensures r in trs
    {
      var j :| 0 <= j < |rows| && Refresh(rows, trs)[j] == r;
      var k :| 0 <= k < |trs| && trs[k].key == r.key;
      assert LastWith(trs, rows[j].key).Some?;
    }
  }

  /** After a round the row keys are exactly the task keys. */
  lemma ReconciledKeys(rows: seq<Row>, trs: seq<Row>)
    ensures KeySet(Reconciled(rows, trs)) == KeySet(trs)
  {
    var front := Refresh(rows, trs);
    KeySetConcat(Only(front, KeySet(trs)), Fresh(trs, KeySet(rows)));
    KeySetOnly(front, KeySet(trs));
    KeySetRefresh(rows, trs);
    KeySetFresh(trs, KeySet(rows));
  }

  lemma KeySetConcat(a: seq<Row>, b: seq<Row>)
    ensures KeySet(a + b) == KeySet(a) + KeySet(b)
  {
    forall k | k in KeySet(a + b)
      ensures k in KeySet(a) + KeySet(b)
    {
      var i :| 0 <= i < |a + b| && (a + b)[i].key == k;
      if i < |a| {
        assert (a + b)[i] == a[i];
      } else {
        assert (a + b)[i] == b[i - |a|];
      }
    }
    forall k | k in KeySet(b)
      ensures k in KeySet(a + b)
    {
      var i :| 0 <= i < |b| && b[i].key == k;
      assert (a + b)[|a| + i] == b[i];
    }
    forall k | k in KeySet(a)
      ensures k in KeySet(a + b)
    {
      var i :| 0 <= i < |a| && a[i].key == k;
      assert (a + b)[i] == a[i];
    }
  }

  lemma KeySetOnly(rows: seq<Row>, keys: set<string>)
    ensures KeySet(Only(rows, keys)) == KeySet(rows) * keys
  {
    var r := Only(rows, keys);
    forall k | k in KeySet(r)
      ensures k in KeySet(rows)
    {
      var i :| 0 <= i < |r| && r[i].key == k;
      var j :| 0 <= j < |rows| && rows[j] == r[i];
    }
    forall k | k in KeySet(rows) * keys
      ensures k in KeySet(r)
    {
      var j :| 0 <= j < |rows| && rows[j].key == k;
      var i :| 0 <= i < |r| && r[i] == rows[j];
    }
  }

  lemma KeySetRefresh(rows: seq<Row>, trs: seq<Row>)
    ensures KeySet(Refresh(rows, trs)) == KeySet(rows)
  {
    var r := Refresh(rows, trs);
    forall k | k in KeySet(rows)
      ensures k in KeySet(r)
    {
      var j :| 0 <= j < |rows| && rows[j].key == k;
      assert r[j].key == k;
    }
  }

  lemma KeySetFresh(trs: seq<Row>, existing: set<string>)
    ensures KeySet(Fresh(trs, existing)) == KeySet(trs) - existing
  {
    var r := Fresh(trs, existing);
    forall k | k in KeySet(r)
      ensures k in KeySet(trs)
    {
      var i :| 0 <= i < |r| && r[i].key == k;
      var j :| 0 <= j < |trs| && trs[j] == r[i];
    }
    forall k | k in KeySet(trs) - existing
      ensures k in KeySet(r)
    {
      var j :| 0 <= j < |trs| && trs[j].key == k;
      var i :| 0 <= i < |r| && r[i] == trs[j];
    }
  }

  /** The watcher on a non-empty list of well-formed tasks with distinct pids leaves
      the reconciled table, whose keys are the tasks' pids. */
  lemma WatchTasksReconciles(t: Table, items: seq<PValue>, trs: seq<Row>)
    requires |trs| == |items| && forall i :: 0 <= i < |items| ==> TaskRow(items[i]) == Ok(trs[i])
    requires DistinctKeys(trs) && items != []
    ensures WatchTasks(t, PArray(items)).Ok? ==>
      && WatchTasks(t, PArray(items)).value.rows == Reconciled(t.rows, trs)
      && KeySet(WatchTasks(t, PArray(items)).value.rows) == KeySet(trs)
  {
    ReconcileIsReconciled(t.rows, items, trs);
    ReconciledKeys(t.rows, trs);
  }

  /** Two tasks with the same pid, new to the table, make the second append raise. */
  lemma DuplicateNewPidRaises(rows: seq<Row>, items: seq<PValue>, u: Row, v: Row)
    requires |items| == 2 && TaskRow(items[0]) == Ok(u) && TaskRow(items[1]) == Ok(v)
    requires u.key == v.key && u.key !in KeySet(rows)
    ensures Reconcile(rows, items) == Err(DuplicateKey)
  {
    UpdateTwiceRaises(rows, items, u, v);
  }

  lemma UpdateTwiceRaises(rows: seq<Row>, items: seq<PValue>, u: Row, v: Row)
    requires |items| == 2 && TaskRow(items[0]) == Ok(u) && TaskRow(items[1]) == Ok(v)
    requires u.key == v.key && u.key !in KeySet(rows)
    ensures UpdateAll(rows, items, KeySet(rows)) == Err(DuplicateKey)
  {
    var existing := KeySet(rows);
    forall i | 0 <= i < |items|
      ensures TaskRow(items[i]) == Ok([u, v][i])
    {
      if i == 0 {
        assert [u, v][i] == u;
      } else {
        assert [u, v][i] == v;
      }
    }
    UpdateAllPlaces(rows, items, [u, v], existing);
    PlaceTwiceRaises(rows, u, v, existing);
  }

  lemma PlaceTwiceRaises(rows: seq<Row>, u: Row, v: Row, existing: set<string>)
    requires u.key == v.key && u.key !in existing && existing == KeySet(rows)
    ensures PlaceAll(rows, [u, v], existing) == Err(DuplicateKey)
  {
    assert Place(rows, u, existing) == Ok(rows + [u]);
    assert (rows + [u])[|rows|].key == v.key;
    assert [u, v][1..] == [v];
  }

  // ---------------------------------------------------------------------------------
  // The cursor across a round

  /** With the corrected check, a cursor whose process still runs ends on that process's
      row of the reconciled table. */
  lemma FixedCursorFollowsPid(t: Table, items: seq<PValue>, trs: seq<Row>, pid: PValue)
    requires items != []
    requires |trs| == |items| && forall i :: 0 <= i < |items| ==> TaskRow(items[i]) == Ok(trs[i])
    requires DistinctKeys(trs)
    requires CursorKey(t) == Ok(Some(pid)) && StrOf(pid) in KeySet(trs)
    ensures WatchTasksFixed(t, PArray(items)).Ok?
    ensures var r := WatchTasksFixed(t, PArray(items)).value;
      r.rows == Reconciled(t.rows, trs) && r.cursor < |r.rows| && r.rows[r.cursor].key == StrOf(pid)
  {
    var rows := Reconciled(t.rows, trs);
    ReconcileIsReconciled(t.rows, items, trs);
    assert HasRow(rows, StrOf(pid)) by {
      ReconciledKeys(t.rows, trs);
      assert StrOf(pid) in KeySet(rows);
    }
    FixedRestores(t, items, rows, KeySet(trs), pid);
  }

  lemma FixedRestores(t: Table, items: seq<PValue>, rows: seq<Row>, keys: set<string>, pid: PValue)
    requires items != [] && CursorKey(t) == Ok(Some(pid))
    requires Reconcile(t.rows, items) == Ok((rows, keys))
    requires StrOf(pid) in keys && HasRow(rows, StrOf(pid))
    ensures WatchTasksFixed(t, PArray(items)).Ok?
    ensures var r := WatchTasksFixed(t, PArray(items)).value;
      r.rows == rows && r.cursor < |rows| && rows[r.cursor].key == StrOf(pid)
      && forall j :: 0 <= j < r.cursor ==> rows[j].key != StrOf(pid)
  {
    assert WatchTasksFixed(t, PArray(items)) == ResetCursor(rows, StrOf(pid));
  }

  /** As written, a cursor on a row whose pid cell is an integer, as powermetrics reports
      pids, never moves: the integer is never among the string keys, so the reconciled
      rows come back with the cursor index as it was. */
  lemma AsWrittenIntPidKeepsIndex(t: Table, items: seq<PValue>, n: int, rows: seq<Row>, keys: set<string>)
    requires items != [] && CursorKey(t) == Ok(Some(PInt(n)))
    requires Reconcile(t.rows, items) == Ok((rows, keys))
    ensures WatchTasks(t, PArray(items)) == Ok(Table(rows, t.cursor))
  {
  }

  /** A task carrying the shown columns, and the row it shows as. */
  function SampleTask(pid: int): PValue {
    PDict([("pid", PInt(pid)), ("name", PStr("p")), ("energy_impact", PReal(0.0)), ("cputime_ns", PInt(0))])
  }

  function SampleRow(pid: int): Row {
    Row(Formatting.DecimalString(pid), [PInt(pid), PStr("p"), PReal(0.0), PInt(0)])
  }

  lemma SampleTaskRow(pid: int)
    ensures TaskRow(SampleTask(pid)) == Ok(SampleRow(pid))
  {
    var task := SampleTask(pid);
    var es := task.entries;
    assert es[..3] == [es[0], es[1], es[2]];
    assert es[..3][..2] == [es[0], es[1]];
    assert es[..3][..2][..1] == [es[0]];
    assert Subscript(task, "pid") == Ok(PInt(pid));
    assert Subscript(task, "name") == Ok(PStr("p"));
    assert Subscript(task, "energy_impact") == Ok(PReal(0.0));
    assert Subscript(task, "cputime_ns") == Ok(PInt(0));
    var cells := TaskCells(task);
    assert cells.Ok?;
    assert cells.value == SampleRow(pid).cells;
  }

  /** The shape of the witness below: three rows with distinct keys, and two task rows
      for the second and third rows' processes, in that order. */
  predicate FirstExits(rows: seq<Row>, trs: seq<Row>) {
    && |rows| == 3 && |trs| == 2
    && rows[0].key != rows[1].key && rows[0].key != rows[2].key && rows[1].key != rows[2].key
    && trs[0].key == rows[1].key && trs[1].key == rows[2].key
  }

  /** Three rows with the cursor on the second, whose process and the third's still run
      while the first's has exited. As written the cursor stays on index 1, which now
      holds the third process; corrected, it follows the second process to index 0. */
  lemma CursorJumpsToOtherProcess(rows: seq<Row>, items: seq<PValue>, trs: seq<Row>)
    requires |trs| == |items| && forall i :: 0 <= i < |items| ==> TaskRow(items[i]) == Ok(trs[i])
    requires FirstExits(rows, trs)
    requires rows[1].cells != [] && rows[1].cells[0].PInt? && StrOf(rows[1].cells[0]) == rows[1].key
    ensures WatchTasks(Table(rows, 1), PArray(items)) == Ok(Table(trs, 1))
    ensures WatchTasksFixed(Table(rows, 1), PArray(items)) == Ok(Table(trs, 0))
  {
    SampleRoundReconciles(rows, items, trs);
    AsWrittenIntPidKeepsIndex(Table(rows, 1), items, rows[1].cells[0].i, trs, KeySet(trs));
    SampleFixedCursor(rows, items, trs);
  }

  lemma SampleFixedCursor(rows: seq<Row>, items: seq<PValue>, trs: seq<Row>)
    requires FirstExits(rows, trs)
    requires rows[1].cells != [] && StrOf(rows[1].cells[0]) == rows[1].key
    requires items != [] && Reconcile(rows, items) == Ok((trs, KeySet(trs)))
    ensures WatchTasksFixed(Table(rows, 1), PArray(items)) == Ok(Table(trs, 0))
  {
    assert trs[0].key in KeySet(trs);
    assert HasRow(trs, rows[1].key);
    FixedRestores(Table(rows, 1), items, trs, KeySet(trs), rows[1].cells[0]);
  }

  lemma SampleRoundReconciles(rows: seq<Row>, items: seq<PValue>, trs: seq<Row>)
    requires |trs| == |items| && forall i :: 0 <= i < |items| ==> TaskRow(items[i]) == Ok(trs[i])
    requires FirstExits(rows, trs)
    ensures Reconcile(rows, items) == Ok((trs, KeySet(trs)))
  {
    assert DistinctKeys(trs) by {
      forall i, j | 0 <= i < j < |trs|
        ensures trs[i].key != trs[j].key
      {
        assert i == 0 && j == 1;
      }
    }
    ReconcileIsReconciled(rows, items, trs);
    SampleReconciled(rows, trs);
  }

  lemma SampleReconciled(rows: seq<Row>, trs: seq<Row>)
    requires FirstExits(rows, trs)
    ensures Reconciled(rows, trs) == trs
  {
    assert rows == [rows[0], rows[1], rows[2]] && trs == [trs[0], trs[1]];
    ReconciledOfThree(rows[0], rows[1], rows[2], trs[0], trs[1]);
  }

  lemma ReconciledOfThree(r1: Row, r2: Row, r3: Row, u2: Row, u3: Row)
    requires r1.key != r2.key && r1.key != r3.key && r2.key != r3.key
    requires u2.key == r2.key && u3.key == r3.key
    ensures Reconciled([r1, r2, r3], [u2, u3]) == [u2, u3]
  {
    KeySetPair(u2, u3);
    KeySetTriple(r1, r2, r3);
    SampleRefresh(r1, r2, r3, u2, u3);
    SampleOnly(r1, u2, u3, {r2.key, r3.key});
    NothingFresh([u2, u3], {r1.key, r2.key, r3.key});
  }

  lemma KeySetPair(a: Row, b: Row)
    ensures KeySet([a, b]) == {a.key, b.key}
  {
    assert [a, b][0] == a && [a, b][1] == b;
  }

  lemma KeySetTriple(a: Row, b: Row, c: Row)
    ensures KeySet([a, b, c]) == {a.key, b.key, c.key}
  {
    assert [a, b, c][0] == a && [a, b, c][1] == b && [a, b, c][2] == c;
  }

  lemma SampleRefresh(r1: Row, r2: Row, r3: Row, u2: Row, u3: Row)
    requires r1.key != r2.key && r1.key != r3.key && r2.key != r3.key
    requires u2.key == r2.key && u3.key == r3.key
    ensures Refresh([r1, r2, r3], [u2, u3]) == [r1, u2, u3]
  {
    assert [u2, u3][..1] == [u2] && [u2][..0] == [];
    assert LastWith([u2], r1.key) == None;
  }

  lemma SampleOnly(r1: Row, u2: Row, u3: Row, keys: set<string>)
    requires r1.key !in keys && u2.key in keys && u3.key in keys
    ensures Only([r1, u2, u3], keys) == [u2, u3]
  {
    assert [r1, u2, u3][1..] == [u2, u3] && [u2, u3][1..] == [u3] && [u3][1..] == [];
    assert Only([u3], keys) == [u3];
  }

  lemma NothingFresh(trs: seq<Row>, existing: set<string>)
    requires forall i :: 0 <= i < |trs| ==> trs[i].key in existing
    ensures Fresh(trs, existing) == []
  {
  }

  /** Distinct natural pids have distinct keys. */
  lemma PidKeysDiffer(a: nat, b: nat)
    requires a != b
    ensures SampleRow(a).key != SampleRow(b).key
  {
    Formatting.DigitsRoundTrip(a);
    Formatting.DigitsRoundTrip(b);
  }

  /** The witness on any three distinct pids, the cursor on the second and the first
      exiting. */
  lemma CursorJumpsOnSamplePids(a: nat, b: nat, c: nat)
    requires a != b && a != c && b != c
    ensures WatchTasks(Table([SampleRow(a), SampleRow(b), SampleRow(c)], 1), PArray([SampleTask(b), SampleTask(c)]))
      == Ok(Table([SampleRow(b), SampleRow(c)], 1))
    ensures WatchTasksFixed(Table([SampleRow(a), SampleRow(b), SampleRow(c)], 1), PArray([SampleTask(b), SampleTask(c)]))
      == Ok(Table([SampleRow(b), SampleRow(c)], 0))
  {
    var items := [SampleTask(b), SampleTask(c)];
    var trs := [SampleRow(b), SampleRow(c)];
    forall i | 0 <= i < |items|
      ensures TaskRow(items[i]) == Ok(trs[i])
    {
      if i == 0 {
        SampleTaskRow(b);
      } else {
        SampleTaskRow(c);
      }
    }
    PidKeysDiffer(a, b);
    PidKeysDiffer(a, c);
    PidKeysDiffer(b, c);
    CursorJumpsToOtherProcess([SampleRow(a), SampleRow(b), SampleRow(c)], [SampleTask(b), SampleTask(c)], [SampleRow(b), SampleRow(c)]);
  }
}

=== FILE: vstringbar.dfy ===
/** The vertical-string bar: a width of terminal cells split between coloured runs of
    `|`, one run per percentage, the last run filling what the others left. */
module VStringBar {
  import opened Python

  type Color = string

  /** A run of text in one colour. */
  datatype Segment = Segment(text: string, color: Color)

  /** What the bar draws: plain text, or coloured segments side by side. */
  datatype Content = Plain(s: string) | Styled(segments: seq<Segment>)

  const BAR := '|'
  const COLOR_ERROR := "ERR: color not match"

  function Concat(segs: seq<Segment>): string
    decreases |segs|
  {
    if segs == [] then "" else segs[0].text + Concat(segs[1..])
  }

  function TextOf(c: Content): string {
    match c
    case Plain(s) => s
    case Styled(segs) => Concat(segs)
  }

  /** Each percentage as a share of their sum. */
  function Normalise(ps: seq<real>, total: real): (qs: seq<real>)
    requires total != 0.0
    ensures |qs| == |ps| && forall i :: 0 <= i < |ps| ==> qs[i] * total == ps[i]
    ensures Sum(qs) * total == Sum(ps)
    decreases |ps|
  {
    if ps == [] then []
    else
      var rest := Normalise(ps[1..], total);
      assert (ps[0] / total + Sum(rest)) * total == ps[0] + Sum(rest) * total;
      [ps[0] / total] + rest
  }

  /** The bars one run takes: `int(width * share)`. */
  function Share(width: int, q: real): int {
    Trunc(width as real * q)
  }

  /** The bar count of every run, as the loop computes it for the runs before the last. */
  function BarCounts(qs: seq<real>, width: int): (bars: seq<int>)
    ensures |bars| == |qs| && forall i :: 0 <= i < |qs| ==> bars[i] == Share(width, qs[i])
  {
    seq(|qs|, i requires 0 <= i < |qs| => Share(width, qs[i]))
  }

  /** The bars the runs `lo` to `hi - 1` take. */
  function Taken(bars: seq<int>, lo: nat, hi: nat): int
    requires hi <= |bars|
    decreases hi - lo
  {
    if lo >= hi then 0 else bars[lo] + Taken(bars, lo + 1, hi)
  }

  /** The segments from run `i` on, with `left` cells still free; `zip` stops at the
      shorter of the runs and the colours. */
  function Runs(bars: seq<int>, colors: seq<Color>, i: nat, left: int, lastEmpty: bool): seq<Segment>
    requires i <= |bars|
    decreases |bars| - i
  {
    if i >= |bars| || i >= |colors| then []
    else if i == |bars| - 1 then
      [Segment(RepeatChar(if lastEmpty then ' ' else BAR, left), colors[i])]
    else
      [Segment(RepeatChar(BAR, bars[i]), colors[i])] + Runs(bars, colors, i + 1, left - bars[i], lastEmpty)
  }

  /** A run before the last is its own segment followed by the later runs. */
  lemma RunsUnfold(bars: seq<int>, colors: seq<Color>, i: nat, left: int, lastEmpty: bool)
    requires i < |bars| - 1 && i < |colors|
    ensures Runs(bars, colors, i, left, lastEmpty)
            == [Segment(RepeatChar(BAR, bars[i]), colors[i])] + Runs(bars, colors, i + 1, left - bars[i], lastEmpty)
  {
  }

  /** One segment per run that has a colour, coloured in order. */
  lemma {:induction false} RunsColors(bars: seq<int>, colors: seq<Color>, i: nat, left: int, lastEmpty: bool)
    requires i <= |bars|
    ensures var r := Runs(bars, colors, i, left, lastEmpty);
      && |r| == (if i < |bars| && i < |colors| then Min(|bars|, |colors|) - i else 0)
      && forall k :: 0 <= k < |r| ==> r[k].color == colors[i + k]
    decreases |bars| - i
  {
    if i < |bars| - 1 && i < |colors| {
      RunsUnfold(bars, colors, i, left, lastEmpty);
      RunsColors(bars, colors, i + 1, left - bars[i], lastEmpty);
    }
  }

  /** Every run but the last draws its bar count. */
  lemma {:induction false} RunsBars(bars: seq<int>, colors: seq<Color>, i: nat, left: int, lastEmpty: bool)
    requires i <= |bars|
    ensures var r := Runs(bars, colors, i, left, lastEmpty);
      forall k :: 0 <= k < |r| && i + k < |bars| - 1 ==> r[k].text == RepeatChar(BAR, bars[i + k])
    decreases |bars| - i
  {
    if i < |bars| - 1 && i < |colors| {
      RunsUnfold(bars, colors, i, left, lastEmpty);
      RunsBars(bars, colors, i + 1, left - bars[i], lastEmpty);
    }
  }

  /** With a colour for every run, the last run fills the cells the earlier runs left. */
  lemma {:induction false} RunsFill(bars: seq<int>, colors: seq<Color>, i: nat, left: int, lastEmpty: bool)
    requires i < |bars| <= |colors|
    ensures var r := Runs(bars, colors, i, left, lastEmpty);
      r != [] && r[|r| - 1].text == RepeatChar(if lastEmpty then ' ' else BAR, left - Taken(bars, i, |bars| - 1))
    decreases |bars| - i
  {
    if i < |bars| - 1 {
      RunsUnfold(bars, colors, i, left, lastEmpty);
      RunsFill(bars, colors, i + 1, left - bars[i], lastEmpty);
    }
  }

  /** `render_content` as written. The colour check compares the colour list with
      itself, so only a missing or empty colour list is reported. */
  function RenderContent(percentages: Option<seq<real>>, colors: Option<seq<Color>>, lastEmpty: bool, width: int)
    : (c: Content)
    ensures percentages.None? || percentages.value == [] || Sum(percentages.value) == 0.0 ==>
      c == Plain(RepeatChar(' ', width))
    ensures percentages.Some? && percentages.value != [] && Sum(percentages.value) != 0.0 ==>
      (c == Plain(COLOR_ERROR) <==> colors.None? || colors.value == [])
    ensures percentages.Some? && percentages.value != [] && Sum(percentages.value) != 0.0
            && colors.Some? && colors.value != [] ==>
      c.Styled?
    ensures c.Styled? ==>
      && percentages.Some? && colors.Some? && Sum(percentages.value) != 0.0
      && c.segments
         == Runs(BarCounts(Normalise(percentages.value, Sum(percentages.value)), width), colors.value, 0, width, lastEmpty)
  {
    if percentages.None? || percentages.value == [] then Plain(RepeatChar(' ', width))
    else
      var ps := percentages.value;
      var total := Sum(ps);
      if total == 0.0 then Plain(RepeatChar(' ', width))
      else
        var qs := Normalise(ps, total);
        if colors.None? || colors.value == [] then Plain(COLOR_ERROR)
        else Styled(Runs(BarCounts(qs, width), colors.value, 0, width, lastEmpty))
  }

  /** `render_content` with the colour check evidently intended: one colour per
      percentage. */
  function RenderContentFixed(percentages: Option<seq<real>>, colors: Option<seq<Color>>, lastEmpty: bool, width: int)
    : (c: Content)
    ensures percentages.Some? && percentages.value != [] && Sum(percentages.value) != 0.0 ==>
      (c == Plain(COLOR_ERROR) <==> colors.None? || |colors.value| != |percentages.value|)
    ensures c != Plain(COLOR_ERROR) ==> c == RenderContent(percentages, colors, lastEmpty, width)
  {
    if percentages.Some? && percentages.value != [] && Sum(percentages.value) != 0.0
       && (colors.None? || |colors.value| != |percentages.value|)
    then Plain(COLOR_ERROR)
    else RenderContent(percentages, colors, lastEmpty, width)
  }

  /** `render`: the content between two brackets. */
  function Render(percentages: Option<seq<real>>, colors: Option<seq<Color>>, lastEmpty: bool, width: int)
    : (s: string)
    ensures |s| >= 2 && s[0] == '[' && s[|s| - 1] == ']'
    ensures s[1..|s| - 1] == TextOf(RenderContent(percentages, colors, lastEmpty, width - 2))
  {
    "[" + TextOf(RenderContent(percentages, colors, lastEmpty, width - 2)) + "]"
  }

  // ---------------------------------------------------------------------------------
  // The runs fill the width

  predicate NonNegative(xs: seq<real>) {
    forall i :: 0 <= i < |xs| ==> xs[i] >= 0.0
  }

  lemma {:induction false} ConcatAppend(a: seq<Segment>, b: seq<Segment>)
    ensures Concat(a + b) == Concat(a) + Concat(b)
    decreases |a|
  {
    if a == [] {
      assert a + b == b;
    } else {
      assert (a + b)[1..] == a[1..] + b;
      ConcatAppend(a[1..], b);
    }
  }

  lemma MulNonNegative(a: real, b: real)
    requires a >= 0.0 && b >= 0.0
    ensures a * b >= 0.0
  {
  }

  lemma MulAtMost(a: real, b: real)
    requires a >= 0.0 && b <= 1.0
    ensures a * b <= a
  {
    MulNonNegative(a, 1.0 - b);
  }

  lemma QuotientSign(x: real, t: real, p: real)
    requires t > 0.0 && p >= 0.0 && x * t == p
    ensures x >= 0.0
  {
    assert x == p / t;
  }

  lemma ProductOne(x: real, t: real)
    requires t != 0.0 && x * t == t
    ensures x == 1.0
  {
    assert (x - 1.0) * t == 0.0;
  }

  lemma {:induction false} NonNegativeSum(xs: seq<real>)
    requires NonNegative(xs)
    ensures Sum(xs) >= 0.0
    decreases |xs|
  {
    if xs != [] {
      NonNegativeSum(xs[1..]);
    }
  }

  /** A non-negative share of a non-negative width takes between none and its share of
      the bars. */
  lemma ShareBounds(width: int, q: real)
    requires width >= 0 && q >= 0.0
    ensures 0 <= Share(width, q) && Share(width, q) as real <= width as real * q
  {
    MulNonNegative(width as real, q);
  }

  /** Shares of non-negative percentages are non-negative and sum to one. */
  lemma NormalisedShares(ps: seq<real>, total: real)
    requires NonNegative(ps) && total == Sum(ps) && total != 0.0
    ensures NonNegative(Normalise(ps, total)) && Sum(Normalise(ps, total)) == 1.0
  {
    var qs := Normalise(ps, total);
    assert Sum(qs) * total == Sum(ps);
    assert Sum(qs) * total == total;
    ProductOne(Sum(qs), total);
    NonNegativeSum(ps);
    NormaliseNonNegative(ps, total);
  }

  lemma NormaliseNonNegative(ps: seq<real>, total: real)
    requires NonNegative(ps) && total > 0.0
    ensures NonNegative(Normalise(ps, total))
  {
    var qs := Normalise(ps, total);
    forall i | 0 <= i < |qs|
      ensures qs[i] >= 0.0
    {
      QuotientSign(qs[i], total, ps[i]);
    }
  }

  /** The runs before the last take no more bars than their shares of the width. */
  lemma {:induction false} TakenBound(qs: seq<real>, width: int, lo: nat, hi: nat)
    requires lo <= hi <= |qs| && width >= 0 && NonNegative(qs)
    ensures 0 <= Taken(BarCounts(qs, width), lo, hi)
    ensures Taken(BarCounts(qs, width), lo, hi) as real <= width as real * Sum(qs[lo..hi])
    decreases hi - lo
  {
    var bars := BarCounts(qs, width);
    if lo < hi {
      TakenBound(qs, width, lo + 1, hi);
      assert qs[lo..hi] == [qs[lo]] + qs[lo + 1..hi];
      SumAppend([qs[lo]], qs[lo + 1..hi]);
      assert Sum([qs[lo]]) == qs[lo] + Sum([]);
      ShareBounds(width, qs[lo]);
      assert Taken(bars, lo, hi) == bars[lo] + Taken(bars, lo + 1, hi);
    } else {
      assert qs[lo..hi] == [];
    }
  }

  /** Shares summing to one leave at most one to all but the last. */
  lemma PrefixShareAtMostOne(qs: seq<real>)
    requires qs != [] && NonNegative(qs) && Sum(qs) == 1.0
    ensures Sum(qs[0..|qs| - 1]) <= 1.0
  {
    var n := |qs|;
    assert qs == qs[0..n - 1] + [qs[n - 1]];
    SumAppend(qs[0..n - 1], [qs[n - 1]]);
    assert Sum([qs[n - 1]]) == qs[n - 1] + Sum([]);
  }

  lemma RealBoundToInt(t: int, width: int, s: real)
    requires width >= 0 && s <= 1.0 && t as real <= width as real * s
    ensures t <= width
  {
    MulAtMost(width as real, s);
  }

  /** Non-negative shares summing to one leave at most the whole width to the runs
      before the last. */
  lemma EarlierRunsFit(qs: seq<real>, width: int)
    requires qs != [] && NonNegative(qs) && Sum(qs) == 1.0 && width >= 0
    ensures 0 <= Taken(BarCounts(qs, width), 0, |qs| - 1) <= width
  {
    var n := |qs|;
    var t := Taken(BarCounts(qs, width), 0, n - 1);
    var s := Sum(qs[0..n - 1]);
    TakenBound(qs, width, 0, n - 1);
    assert t as real <= width as real * s;
    PrefixShareAtMostOne(qs);
    assert s <= 1.0;
    RealBoundToInt(t, width, s);
  }

  lemma LastRunLength(bars: seq<int>, colors: seq<Color>, i: nat, left: int, lastEmpty: bool)
    requires i == |bars| - 1 && |bars| <= |colors| && left >= 0
    ensures |Concat(Runs(bars, colors, i, left, lastEmpty))| == left
  {
    var fill := RepeatChar(if lastEmpty then ' ' else BAR, left);
    var segs := [Segment(fill, colors[i])];
    assert Runs(bars, colors, i, left, lastEmpty) == segs;
    assert segs[1..] == [];
    assert Concat(segs) == fill + Concat([]);
  }

  /** A run before the last one is its bars followed by the later runs. */
  lemma EarlierRunLength(bars: seq<int>, colors: seq<Color>, i: nat, left: int, lastEmpty: bool)
    requires i < |bars| - 1 && |bars| <= |colors| && bars[i] >= 0
    ensures |Concat(Runs(bars, colors, i, left, lastEmpty))|
            == bars[i] + |Concat(Runs(bars, colors, i + 1, left - bars[i], lastEmpty))|
  {
    var head := [Segment(RepeatChar(BAR, bars[i]), colors[i])];
    var tail := Runs(bars, colors, i + 1, left - bars[i], lastEmpty);
    assert Runs(bars, colors, i, left, lastEmpty) == head + tail;
    ConcatAppend(head, tail);
    assert head[1..] == [];
    assert Concat(head) == RepeatChar(BAR, bars[i]) + Concat([]);
  }

  /** The text of the runs from `i` on is exactly the `left` free cells long, when the
      earlier runs' bar counts are non-negative and fit in them. */
  lemma {:induction false} RunsLength(bars: seq<int>, colors: seq<Color>, i: nat, left: int, lastEmpty: bool)
    requires i < |bars| <= |colors|
    requires forall j :: i <= j < |bars| ==> bars[j] >= 0
    requires Taken(bars, i, |bars| - 1) <= left
    ensures |Concat(Runs(bars, colors, i, left, lastEmpty))| == left
    decreases |bars| - i, 1
  {
    if i < |bars| - 1 {
      EarlierRunsLength(bars, colors, i, left, lastEmpty);
    } else {
      LastRunLength(bars, colors, i, left, lastEmpty);
    }
  }

  lemma {:induction false} EarlierRunsLength(bars: seq<int>, colors: seq<Color>, i: nat, left: int, lastEmpty: bool)
    requires i < |bars| - 1 && |bars| <= |colors|
    requires forall j :: i <= j < |bars| ==> bars[j] >= 0
    requires Taken(bars, i, |bars| - 1) <= left
    ensures |Concat(Runs(bars, colors, i, left, lastEmpty))| == left
    decreases |bars| - i, 0
  {
    EarlierRunLength(bars, colors, i, left, lastEmpty);
    RunsLength(bars, colors, i + 1, left - bars[i], lastEmpty);
  }

  /** With non-negative percentages and a colour for each, the bar's content is exactly
      `width` cells wide. */
  lemma ContentFillsWidth(ps: seq<real>, colors: seq<Color>, lastEmpty: bool, width: int)
    requires ps != [] && NonNegative(ps) && Sum(ps) != 0.0 && |colors| >= |ps| && width >= 0
    ensures |TextOf(RenderContent(Some(ps), Some(colors), lastEmpty, width))| == width
  {
    var qs := Normalise(ps, Sum(ps));
    var bars := BarCounts(qs, width);
    NormalisedShares(ps, Sum(ps));
    EarlierRunsFit(qs, width);
    forall j | 0 <= j < |bars|
      ensures bars[j] >= 0
    {
      ShareBounds(width, qs[j]);
    }
    RunsLength(bars, colors, 0, width, lastEmpty);
  }

  /** The rendered bar is the full widget width whenever its content fills the inner
      width. */
  lemma RenderFillsWidth(ps: seq<real>, colors: seq<Color>, lastEmpty: bool, width: int)
    requires ps != [] && NonNegative(ps) && Sum(ps) != 0.0 && |colors| >= |ps| && width >= 2
    ensures |Render(Some(ps), Some(colors), lastEmpty, width)| == width
  {
    ContentFillsWidth(ps, colors, lastEmpty, width - 2);
  }

  /** Two equal percentages with a single colour pass the colour check as written but
      draw only the first run: five cells of a ten-cell bar. The corrected check
      reports the mismatch. */
  lemma ColorCheckMissesShortList()
    ensures var c := RenderContent(Some([1.0, 1.0]), Some(["red"]), true, 10);
      c.Styled? && |TextOf(c)| == 5
    ensures RenderContentFixed(Some([1.0, 1.0]), Some(["red"]), true, 10) == Plain(COLOR_ERROR)
  {
    var ps := [1.0, 1.0];
    assert Sum(ps) == 2.0 by {
      assert ps[1..] == [1.0] && [1.0][1..] == [];
    }
    var qs := Normalise(ps, 2.0);
    assert qs[0] == 0.5;
    var bars := BarCounts(qs, 10);
    assert bars[0] == 5 by {
      assert Share(10, 0.5) == 5;
    }
    var segs := Runs(bars, ["red"], 0, 10, true);
    assert segs == [Segment(RepeatChar(BAR, 5), "red")] + Runs(bars, ["red"], 1, 5, true);
    assert Runs(bars, ["red"], 1, 5, true) == [];
    assert Concat(segs) == RepeatChar(BAR, 5) + Concat([]);
  }

  /** With the corrected check, any bar that is drawn fills its width. */
  lemma FixedContentFillsWidth(ps: seq<real>, colors: seq<Color>, lastEmpty: bool, width: int)
    requires NonNegative(ps) && width >= 0
    requires RenderContentFixed(Some(ps), Some(colors), lastEmpty, width).Styled?
    ensures |TextOf(RenderContentFixed(Some(ps), Some(colors), lastEmpty, width))| == width
  {
    ContentFillsWidth(ps, colors, lastEmpty, width);
  }
}
